=== FILE: README.md ===
# Multi Electric storefront: order and inventory lifecycle in Dafny

This project models the server side of the Multi Electric click-and-collect
store. Customers check out a cart, which creates a `Pending` order. The
payment provider's webhook then moves that order to `Paid` and takes its
items out of stock, records a failed payment, or moves the order to
`Refunded` and puts the items back. Around this lifecycle sit several other
parts:

- the record schemas for orders, products, categories and audit entries;
- the bearer-token and role gates in front of the API;
- the page guard in front of the staff, admin and account pages;
- the list endpoints with their filters and pagination;
- the create-time validators for products and user registration.

The model is functional:

- Every entity is an immutable datatype.
- The store is a value `Store(orders, products, audit)`:
  - orders are a sequence in insertion order, so `findOne` finds the first match and `countDocuments` is the length;
  - products are a map keyed by id;
  - the audit log is a sequence.
- Every endpoint is a pure function from the store and the request to a response and a new store.

Money is in integer cents. Anything the code takes from outside is a
parameter of the function that needs it:

- the payment provider's answers;
- token verification;
- password hashing;
- the new document's id;
- the pickup code;
- the clock;
- the request headers.

Modules, one per source concern:

- `Wrappers`, `Text`, `Listing`: option/result types; the JavaScript string operations the handlers use (`trim`, case mapping, `padStart`, decimal rendering); and the shared filter / sort / skip-limit / `Math.ceil(total / limit)` machinery.
- `Types`: the string enums and the token payload (types/index.ts).
- `ProductSchema`, `CategorySchema`, `OrderSchema`, `AuditLogSchema`: the document schemas, with setters, defaults and validators. Order numbers are `ME` followed by the count plus one, zero-padded to six digits.
- `Inventory`: the store and the stock `$inc` updates.
- `Auth`, `EdgeMiddleware`: the API gates and the page guard.
- `CreateIntent`: checkout.
- `Webhook`: the payment notifications.
- `Audit`: `createAuditLog` and `getAuditLogs`.
- `Fulfillment`, `Dashboard`, `PublicCatalog`, `AdminProducts`, `Registration`: the remaining endpoints.
- `Lifecycle`: properties of checkout and the webhook together, and the revenue they produce.
- `Scenarios`: worked examples of the order lifecycle, as lemmas over fixed inputs, on the seeded bulb `LED-A19-9W` (7.99, 120 in stock).

A few behaviours of the code that the model follows and proves:

- The audit schema types `actorId` as an object id. The webhook's actor `system` therefore never validates. Because `createAuditLog` swallows errors, the webhook never adds an audit entry (`Lifecycle.WebhookAuditNeverStored`).
- The product duplicate-SKU lookup passes its value through the SKU field's setters, as the store does for query values. A SKU that differs from a stored one only by case or surrounding whitespace is therefore a 409 (`AdminProducts.PaddedDuplicateIsConflict`).
- Object-id fields are cast. A malformed category reference or parent id fails creation. An order whose user id or item product id is not an object id fails the order schema, so checkout answers 500. A malformed `category` filter fails both product lists with 500, and a malformed `actorId` filter fails the audit listing.
- A `$regex` pattern the store refuses (such as `(`) makes the query throw: the admin product list answers 500 and the audit listing fails. Which patterns the store accepts, and what they match, is a parameter (`Listing.Regex`).
- Lengths are counted in UTF-16 code units, as JavaScript's `length` and the schemas' `maxlength` count them (`Text.Utf16Length`). A character outside the Basic Multilingual Plane counts twice.
- Paging with a fixed positive limit through pages 1 to `pages` lists every match exactly once, in sort order (`Listing.PagesCoverMatches` and one such lemma per list endpoint).

## Model

| member | source | states |
|---|---|---|
| Webhook.Post | app/api/stripe/webhook/route.ts:14-59 | A failed signature check is 400 and changes nothing; a database failure is 500 and changes nothing; otherwise the answer is `{received: true}` whatever the handler did, and no order is added or removed |
| Webhook.FindByIntent | app/api/stripe/webhook/route.ts:61-68 | The lookup by payment intent yields the first order carrying the id, or none when no order carries it |
| Webhook.ApplyTransition | app/api/stripe/webhook/route.ts:61-101 | A handler that finds no order, or fails at lookup or save, changes nothing. Otherwise the order is saved with its new status, the stock of the items processed before any failure moves, and an audit entry is attempted only if every update ran |
| Lifecycle.WebhookAuditNeverStored | app/api/stripe/webhook/route.ts:84-93 | No webhook event ever adds an audit entry, because the actor `system` is not an object id |
| Lifecycle.NoMatchChangesNothing | app/api/stripe/webhook/route.ts:33-68 | An unhandled event type, an intent no order carries, or a refund without a payment intent is acknowledged and leaves the store unchanged |
| Lifecycle.SucceededEffect | app/api/stripe/webhook/route.ts:70-81 | On success the matched order becomes `Paid` with payment status `succeeded`; each product's stock drops by its quantity in the order; other orders and the audit log are unchanged |
| Lifecycle.SucceededLeavesOtherProducts | app/api/stripe/webhook/route.ts:75-81 | A product no line item mentions keeps its stock on success |
| Lifecycle.SucceededProducts | app/api/stripe/webhook/route.ts:75-81 | On success the catalog becomes the catalog with the order's items decremented |
| Lifecycle.FailedEffect | app/api/stripe/webhook/route.ts:103-131 | A failed payment sets only the payment status to `failed`; the order status, all stock and the audit log are unchanged |
| Lifecycle.RefundEffect | app/api/stripe/webhook/route.ts:133-153 | A refund sets the order to `Refunded` whatever its prior status, and raises each product's stock by its quantity in the order |
| Lifecycle.RefundProducts | app/api/stripe/webhook/route.ts:147-153 | On refund the catalog becomes the catalog with the order's items restocked |
| Lifecycle.SuccessThenRefundRestoresStock | app/api/stripe/webhook/route.ts:76-153 | A success followed by a refund of the same intent leaves every product exactly as it was, and the order is `Refunded` |
| Lifecycle.ReplayedSuccessDecrementsAgain | app/api/stripe/webhook/route.ts:61-81 | A replayed success leaves the orders as they were but decrements every product a second time, to the starting stock minus twice the quantity |
| Lifecycle.FaultMidwayIsSwallowed | app/api/stripe/webhook/route.ts:61-101 | If the k-th stock update throws, the endpoint still acknowledges, the order is `Paid`, and exactly the first k items have moved stock |
| Lifecycle.FindByIntentAfterUpdate | app/api/stripe/webhook/route.ts:63 | Replacing the matched order with one carrying the same intent keeps it the match |
| Lifecycle.WebhookOnlyTouchesStatuses | app/api/stripe/webhook/route.ts:70-145 | For every event and fault, an order changes at most in its status and payment status, and any payment status written is `succeeded` or `failed` |
| Lifecycle.WebhookKeepsInvariant | app/api/stripe/webhook/route.ts:70-145 | The webhook preserves the order invariant: total equals subtotal plus tax, sequential numbering, schema validity |
| Lifecycle.CheckoutKeepsInvariant | app/api/checkout/create-intent/route.ts:81-97 | Checkout preserves the same invariant |
| Lifecycle.NumbersDistinct | models/Order.ts:118-122 | Sequentially numbered orders carry pairwise distinct numbers |
| Lifecycle.SubtotalNonNegative | models/Order.ts:27-36 | The subtotal of schema-valid line items is non-negative |
| Lifecycle.QuantityOnlyBoundedBySchema | app/api/checkout/create-intent/route.ts:37-51 | A cart that passes validation always reaches the payment call. Given an intent from the provider, the order is refused (500) exactly when some quantity is below 1, the schema minimum; otherwise it is created. This assumes a well-formed store whose product ids and the user id are object ids |
| Lifecycle.SucceededRevenue | app/api/admin/dashboard/route.ts:25-28 | A success makes the order contribute its full total to revenue, replacing whatever it contributed before |
| Lifecycle.RefundRevenue | app/api/admin/dashboard/route.ts:25-28 | A refund removes the order's contribution to revenue |
| Lifecycle.FailedRevenue | app/api/admin/dashboard/route.ts:25-28 | A failed payment leaves revenue unchanged |
| Lifecycle.CheckoutRevenue | app/api/admin/dashboard/route.ts:25-28 | A newly created `Pending` order adds nothing to revenue |
| CreateIntent.PriceLines | app/api/checkout/create-intent/route.ts:37-63 | The cart is accepted exactly when every product is known, active and has stock of at least the quantity. A rejection names the first failing line: unknown or inactive product, or else insufficient stock. Accepted lines snapshot the catalog product's id, name, price and SKU |
| CreateIntent.SubtotalFromCatalog | app/api/checkout/create-intent/route.ts:53-62 | The subtotal is the sum of current catalog price times quantity |
| CreateIntent.Checkout | app/api/checkout/create-intent/route.ts:17-116 | See the list below the table |
| CreateIntent.CheckoutRoute | app/api/checkout/create-intent/route.ts:13 | Checkout runs only as an authenticated user; without a bearer header the answer is 401 |
| OrderSchema.OrderNumber | models/Order.ts:121 | An order number is `ME` followed by at least six digits |
| OrderSchema.OrderNumberRoundTrip | models/Order.ts:121 | The digits of the number read back as count + 1 |
| OrderSchema.OrderNumberInjective | models/Order.ts:120-121 | Two counts give the same number if and only if they are equal |
| OrderSchema.OrderNumberLength | models/Order.ts:121 | Padding never truncates: the number has exactly 8 characters below a count of 999,999 and at least 9 from there on |
| OrderSchema.OrderNumberExamples | models/Order.ts:121 | Counts 0, 41 and 999,999 give `ME000001`, `ME000042` and `ME1000000` |
| OrderSchema.AssignNumber | models/Order.ts:118-124 | A number is assigned only to a new document without one; an existing number is kept |
| OrderSchema.AssignNumberOnce | models/Order.ts:119 | Saving again never renumbers |
| OrderSchema.Insert | models/Order.ts:6-108 | An order is stored exactly when it satisfies the schema and its number is not already taken, and it is then appended. The schema includes the object-id casts of `userId` and of every item's `productId`, the required fields and the minimums |
| OrderSchema.SameCountCollides | models/Order.ts:12-16 | Two new orders numbered from the same observed count cannot both be stored |
| ProductSchema.Build | models/Product.ts:6-79 | A product is created exactly when the input meets the schema. See the list below the table |
| ProductSchema.NormalizeValid | models/Product.ts:6-76 | With the required fields present, the normalised document is valid exactly when the input is acceptable |
| ProductSchema.SkuNormalForm | models/Product.ts:7-13 | The stored SKU is trimmed and has no lower-case letters; normalising it again changes nothing |
| ProductSchema.SkuSpellingIrrelevant | models/Product.ts:7-13 | Two SKUs with the same trimmed upper-case form are accepted or refused alike |
| ProductSchema.MalformedCategoryRefused | models/Product.ts:44-47 | A category reference that is not an object id fails creation, whatever else the input holds |
| CategorySchema.Build | models/Category.ts:6-39 | A category is created exactly when the name is present, non-empty and at most 100 UTF-16 code units once trimmed, the slug is present and non-empty once trimmed, the description is at most 500 code units, and a parent id, if given, is an object id. The stored slug is the lower-cased trimmed input and the name the trimmed input; id, creation time, description, image and parent are the given ones; `active` defaults to true and `sortOrder` to 0 |
| CategorySchema.SlugNormalForm | models/Category.ts:13-19 | The stored slug is trimmed, has no upper-case letters, and keeps the trimmed length |
| CategorySchema.LowerHasNoUpperCase | models/Category.ts:13-19 | A lower-cased string has no upper-case letter |
| CategorySchema.Create | models/Category.ts:13-19 | A category is created exactly when the input is acceptable and no stored slug equals its lower-cased trimmed slug, and the stored document is the one the schema builds from the input. A duplicate slug is refused; a validation error occurs exactly when the input is unacceptable |
| CategorySchema.ParentNeverChecked | models/Category.ts:24-27 | Beyond the object-id cast, the parent id never affects acceptance: no parent need exist, and a category may name its own id as parent |
| CategorySchema.MalformedParentRefused | models/Category.ts:24-27 | A parent id that is not an object id fails creation |
| AuditLogSchema.OptionalFieldsFree | models/AuditLog.ts:29-39 | `before`, `after` and `userAgent` never affect validity |
| AuditLogSchema.SystemActorInvalid | models/AuditLog.ts:7-11 | An entry whose actor is `system` is never valid |
| Audit.CreateAuditLog | lib/audit.ts:16-24 | The log either stays as it was or gains exactly the new entry, stamped now. It grows exactly when the entry is valid; nothing else reaches the caller |
| Audit.GetAuditLogs | lib/audit.ts:26-73 | See the list below the table |
| Audit.DefaultListing | lib/audit.ts:41-42 | With no parameters the listing is page 1 of 50 over the whole log |
| Audit.PagesCoverMatching | lib/audit.ts:45-70 | With a well-formed or absent actor filter, an accepted or absent action pattern and a positive limit, pages 1 to `pages` together list every matching entry exactly once, newest first |
| Types.ParseRole | types/index.ts:6 | A role name parses exactly when it is one of the three role spellings |
| Types.ParseStatus | types/index.ts:91 | A status name parses exactly when it is one of the seven status spellings |
| Types.ParseTargetType | types/index.ts:120 | A target type parses exactly when it is one of the five spellings |
| Types.EnumRoundTrips | types/index.ts:91 | Printing then parsing any role, status or target type gives it back |
| Types.EnumSpellings | types/index.ts:6 | The accepted spellings are exactly `customer`/`employee`/`admin`, the seven statuses, and `product`/`order`/`user`/`inventory`/`system` |
| Auth.BearerToken | middleware/auth.ts:12-21 | A token exists exactly when the header starts with `Bearer `, and the header is `Bearer ` followed by the token |
| Auth.Authenticate | middleware/auth.ts:9-33 | See the list below the table |
| Auth.Allowed | middleware/auth.ts:35-36 | One role or a list of roles gives the allowed list |
| Auth.RequireRole | middleware/auth.ts:35-57 | 403 exactly when the verified user's role is not allowed. A handler that ran did so as the verified user with an allowed role. A 401 after a bearer token was found is always `Invalid or expired token` |
| Auth.RequireCustomer | middleware/auth.ts:59 | Only customers reach the handler |
| Auth.RequireEmployee | middleware/auth.ts:60 | Only employees and admins reach the handler |
| Auth.RequireAdmin | middleware/auth.ts:61 | Only admins reach the handler |
| Auth.RoleGatesAdmit | middleware/auth.ts:59-61 | For a verified token whose handler answers, each gate runs the handler exactly for its roles and answers 403 otherwise |
| Auth.UnknownRoleForbidden | middleware/auth.ts:47-52 | A role outside the three known ones is refused by every gate |
| Auth.HandlerExceptionIsUnauthorized | middleware/auth.ts:22-31 | A handler that throws is reported as 401 `Invalid or expired token` |
| Auth.BearerExamples | middleware/auth.ts:14-21 | `Bearer abc` yields `abc`; `Bearer ` yields the empty token; `bearer abc` and `Basic abc` yield none |
| EdgeMiddleware.Middleware | middleware.ts:4-23 | A redirect to `/login` carrying the path happens exactly for a protected path without a non-empty bearer token |
| EdgeMiddleware.EmptyBearerRedirects | middleware.ts:11-14 | `Bearer ` with nothing after it redirects |
| EdgeMiddleware.AnyTokenPasses | middleware.ts:11-22 | Any non-empty token passes, unverified |
| EdgeMiddleware.UnprotectedPasses | middleware.ts:8-22 | Paths outside the three prefixes always pass |
| EdgeMiddleware.MatchedIsProtected | middleware.ts:25-31 | Every path the framework routes to the guard is one the guard protects |
| EdgeMiddleware.PrefixIsNotSegment | middleware.ts:8 | The test is on characters: `/administracion` is protected although the route matcher would not send it |
| Inventory.IncStock | app/api/stripe/webhook/route.ts:77-80 | Adds the delta to one product's stock and changes no other product; an unknown id changes nothing |
| Inventory.ApplyItems | app/api/stripe/webhook/route.ts:76-81 | Each product's stock moves by its total quantity over the items, down or up; no product is added, removed or otherwise changed |
| Inventory.RestockUndoesDecrement | app/api/stripe/webhook/route.ts:147-153 | Restocking the items after decrementing them gives back the original catalog |
| Inventory.DecrementTwice | app/api/stripe/webhook/route.ts:76-81 | Decrementing the same items twice lowers each stock by twice its quantity |
| Listing.Filter | app/api/fulfillment/orders/route.ts:29-35 | Keeps exactly the matching elements with their multiplicities |
| Listing.Sort | app/api/fulfillment/orders/route.ts:31 | A permutation of the input, sorted by the order |
| Listing.Window | app/api/fulfillment/orders/route.ts:32-33 | Skip then limit: the elements from the skip position on, at most the limit's magnitude of them, with no limit for 0 |
| Listing.Pages | app/api/fulfillment/orders/route.ts:45 | `Math.ceil(total / limit)` for positive and negative limits; none (serialised as null) for limit 0 |
| Listing.PageOfIndex | app/api/fulfillment/orders/route.ts:25-45 | Each matching element lies on a page between 1 and the page count, and that page's skip covers it |
| Listing.Paginate | app/api/fulfillment/orders/route.ts:25-46 | A negative skip is refused; otherwise the page is exactly the window at `(page - 1) * limit`, element by element, and reports page, limit, total and pages |
| Listing.Query | app/api/fulfillment/orders/route.ts:28-46 | The page is the window at `(page - 1) * limit` of a sorted permutation of the matches; so every listed element matches, comes from the collection, and the page is sorted; `total` counts all matches |
| Listing.QueryAgrees | app/api/fulfillment/orders/route.ts:28-46 | Two filters that agree on every element of the collection give the same answer |
| Listing.PagesCoverMatches | app/api/fulfillment/orders/route.ts:25-45 | For a positive limit, the pages 1 to `pages` concatenated are a sorted permutation of the matches: every match is listed exactly once, in sort order |
| Listing.Top | app/api/admin/dashboard/route.ts:37-52 | The first n matches in sort order: as many as there are up to n, sorted, drawn from the matches without repeating any more often than it occurs, and every match left out ranks after every one listed |
| Listing.TopIsFirstPage | app/api/admin/dashboard/route.ts:37-52 | For n > 0, the first n matches are the first page of the paginated query with n per page |
| Fulfillment.ListOrders | app/api/fulfillment/orders/route.ts:10-47 | See the list below the table |
| Fulfillment.FulfillmentRoute | app/api/fulfillment/orders/route.ts:6 | The list runs exactly for verified employees and admins |
| Fulfillment.DefaultShowsOpenOrders | app/api/fulfillment/orders/route.ts:18-23 | With no status, or `all`, exactly Pending, Paid, Preparing and Ready are shown |
| Fulfillment.NamedStatusIsExact | app/api/fulfillment/orders/route.ts:18-19 | A status parameter naming a status shows that status and no other |
| Fulfillment.UnknownStatusListsNothing | app/api/fulfillment/orders/route.ts:18-19 | A status parameter naming no status lists nothing |
| Fulfillment.PagesCoverShown | app/api/fulfillment/orders/route.ts:25-45 | For a positive limit, pages 1 to `pages` together list every shown order exactly once, newest first |
| Fulfillment.DefaultAndClosedCoverAll | app/api/fulfillment/orders/route.ts:18-23 | The default view's total plus the count of PickedUp, Cancelled and Refunded orders is the order count |
| Dashboard.Stats | app/api/admin/dashboard/route.ts:13-65 | Order count, revenue, active-product count (never more than the products), user count, and the two top-ten lists |
| Dashboard.Recent | app/api/admin/dashboard/route.ts:37-42 | The ten newest orders (fewer if there are fewer), newest first, each listed at most as often as it is stored; no order left out is newer than one listed |
| Dashboard.RecentIsFirstPage | app/api/admin/dashboard/route.ts:37-42 | The recent orders are page 1, ten per page, of the newest-first listing of all orders |
| Dashboard.LowStockList | app/api/admin/dashboard/route.ts:45-52 | Up to ten active products with stock at most 10, fewest first, each listed at most as often as it is stored; no low-stock product left out has less stock than one listed |
| Dashboard.LowStockIsFirstPage | app/api/admin/dashboard/route.ts:45-52 | The low-stock list is page 1, ten per page, of the low-stock products sorted by stock |
| Dashboard.DashboardRoute | app/api/admin/dashboard/route.ts:8 | Only admins see the figures; any other verified role gets 403 |
| Dashboard.RevenueAppend | app/api/admin/dashboard/route.ts:25-28 | Revenue is additive over any split of the orders |
| Dashboard.RevenueOfOne | app/api/admin/dashboard/route.ts:25-28 | A single order contributes its total when Paid, Preparing, Ready or PickedUp, and nothing otherwise |
| Dashboard.RevenueIsSumOfEarned | app/api/admin/dashboard/route.ts:25-28 | Revenue is 0 with no orders, and otherwise the first order's contribution plus the rest's |
| Dashboard.RevenueAfterReplace | app/api/admin/dashboard/route.ts:25-28 | Replacing one order changes revenue by the difference of the two contributions |
| Dashboard.RevenueNonNegative | app/api/admin/dashboard/route.ts:25-28 | Revenue is non-negative when every total is |
| Dashboard.LowStockAmongActive | app/api/admin/dashboard/route.ts:31-52 | The low-stock products never outnumber the active ones |
| PublicCatalog.ListProducts | app/api/products/route.ts:9-79 | A `category` that is not an object id, or a negative skip, is 500. Otherwise the page is the window at `(page - 1) * limit` of the shown products in catalog order (featured first, then hot, then newest); every listed product comes from the collection and passes the active flag and each supplied filter; `total` counts all shown and `pages` is `ceil(total / limit)`; page 1 and 12 by default |
| PublicCatalog.PagesCoverShown | app/api/products/route.ts:23-69 | With a well-formed or absent category and a positive limit, pages 1 to `pages` together list every shown product exactly once, in catalog order |
| PublicCatalog.ListedBeforeIsTotalPreorder | app/api/products/route.ts:55 | The featured/hot/newest order is a total preorder |
| PublicCatalog.OnlyActiveListed | app/api/products/route.ts:21 | No inactive product is ever listed |
| PublicCatalog.FeaturedThenHot | app/api/products/route.ts:55 | On a page, featured products come first; then hot ones; then the newer |
| PublicCatalog.OnlyExactTrueNarrows | app/api/products/route.ts:16-18 | `inStock`, `featured` and `hot` other than exactly `true` filter nothing |
| PublicCatalog.PriceBoundsInclusive | app/api/products/route.ts:31-35 | A price equal to both bounds passes them |
| PublicCatalog.InStockNarrows | app/api/products/route.ts:37-39 | `inStock=true` never raises the total; it removes exactly the shown products with stock at most 0 |
| AdminProducts.ListProducts | app/api/admin/products/route.ts:10-66 | A `category` that is not an object id, a `search` pattern the store refuses, or a negative skip, is 500. Otherwise the page is the window at `(page - 1) * limit` of the shown products sorted newest first; listed products pass the search, category and `active` filters; `total` counts all shown and `pages` is `ceil(total / limit)`; page 1 and 20 by default |
| AdminProducts.PagesCoverShown | app/api/admin/products/route.ts:29-56 | With a well-formed or absent category, an accepted or absent search pattern and a positive limit, pages 1 to `pages` together list every shown product exactly once, newest first |
| AdminProducts.ActiveParamSplitsList | app/api/admin/products/route.ts:33-35 | `active=true` and any other `active` text split the unfiltered total between them; the other text lists inactive products only |
| AdminProducts.ListRoute | app/api/admin/products/route.ts:7 | Only admins see the list |
| AdminProducts.CreateProduct | app/api/admin/products/route.ts:71-123 | See the list below the table |
| AdminProducts.CreateKeepsSkusUnique | app/api/admin/products/route.ts:85-97 | Creation keeps SKUs unique across the catalog |
| AdminProducts.SkuLookup | app/api/admin/products/route.ts:85 | The key the duplicate lookup compares is the trimmed, upper-cased SKU: the field's setters applied to the upper-cased request SKU |
| AdminProducts.CreateThenDuplicate | app/api/admin/products/route.ts:85-91 | After a creation, a request whose SKU has the same trimmed upper-case form as the stored one is 409 |
| AdminProducts.PaddedDuplicateIsConflict | app/api/admin/products/route.ts:85-91 | A SKU that differs from a stored one by a leading space and letter case is 409 |
| AdminProducts.ZeroPriceAndStockAccepted | app/api/admin/products/route.ts:76-82 | Price 0 and stock 0 pass the required-field check; a missing price or stock does not |
| AdminProducts.CreateRoute | app/api/admin/products/route.ts:69 | Creation runs only for verified admins |
| Registration.Register | app/api/auth/register/route.ts:11-75 | See the list below the table |
| Registration.ResponseHidesHash | app/api/auth/register/route.ts:66-67 | The response does not depend on the password hash |
| Registration.PasswordBoundary | app/api/auth/register/route.ts:20-25 | Six UTF-16 code units pass the length check; five do not |
| Registration.AstralPasswordLongEnough | app/api/auth/register/route.ts:20 | Five characters, one outside the Basic Multilingual Plane, pass the length check |
| Registration.RegisterThenDuplicate | app/api/auth/register/route.ts:28-44 | Registering the stored address again is 409 |
| Registration.RoleAlwaysCustomer | app/api/auth/register/route.ts:45 | A registered user is always a customer |
| Scenarios.ThreeBulbsPaidThenRefunded | scripts/seed.ts:203-221 | Three seeded bulbs: order `ME000001`, subtotal and total 2397 cents, tax 0, `Pending`, stock still 120. Payment success takes stock to 117 and the order to `Paid`; the refund brings stock back to 120 |
| Scenarios.InsufficientStockRejected | app/api/checkout/create-intent/route.ts:46-51 | Five bulbs against a stock of three is 400 with no intent and no order |
| Scenarios.EqualStockAccepted | app/api/checkout/create-intent/route.ts:46-51 | Three bulbs against a stock of three is accepted |
| Scenarios.ZeroQuantityReachesPayment | app/api/checkout/create-intent/route.ts:37-81 | A zero quantity passes validation and reaches the payment call with amount 0. Given an intent, the order schema refuses it with 500, storing nothing |
| Scenarios.ReplayDrivesStockNegative | app/api/stripe/webhook/route.ts:61-81 | Buying the last bulb, then a replayed success, leaves stock at -1 |
| Text.Trim | models/Product.ts:11 | `trim` never lengthens and leaves no whitespace at either end |
| Text.TrimIsInfix | models/Product.ts:11 | What `trim` removes is whitespace on either side, and nothing else |
| Text.TrimIdempotent | models/Product.ts:11 | Trimming twice is trimming once |
| Text.TrimLeftPadding | models/Product.ts:11 | Trimming a trimmed string padded by one leading space gives it back |
| Text.TrimUpperCommute | models/Product.ts:11-12 | Trimming and upper-casing commute |
| Text.TrimLowerCommute | models/Category.ts:17-18 | Trimming and lower-casing commute |
| Text.UpperHasNoLowerCase | models/Product.ts:12 | An upper-cased string has no lower-case letter, and upper-casing is idempotent |
| Text.Decimal | models/Order.ts:121 | Decimal rendering is all digits, without a leading zero except for 0 itself |
| Text.DecimalRoundTrip | models/Order.ts:121 | Decimal rendering reads back as the number |
| Text.DecimalLength | models/Order.ts:121 | The rendering of n ≥ 1 is longer than k digits exactly when n ≥ 10^k |
| Text.PadStart | models/Order.ts:121 | `padStart` keeps the string as its suffix, fills only with the fill character, and reaches at least the width |
| Text.PaddedDecimalRoundTrip | models/Order.ts:121 | Zero padding does not change the value the digits read back as |
| Text.Utf16Length | models/Product.ts:18 | A string's UTF-16 length lies between its character count and twice that, and is 0 only for the empty string |
| Text.Utf16LengthAppend | models/Product.ts:18 | UTF-16 length is additive over concatenation |
| Text.Utf16LengthOfBmp | models/Product.ts:18 | For text within the Basic Multilingual Plane, the UTF-16 length is the character count |

`CreateIntent.Checkout` (app/api/checkout/create-intent/route.ts:17-116) states:

- Missing, non-array or empty items gives 400. So do customer details missing a name, email or phone; both are checked before any lookup.
- A line the catalog cannot serve gives 400, with no intent requested and nothing stored.
- A refused intent or order gives 500, with nothing stored.
- A created order has these properties:
  - it is appended and is `Pending`;
  - its payment status is `requires_payment_method`;
  - its subtotal is the catalog price of the cart;
  - tax is 0 and total = subtotal + tax;
  - it is numbered from the order count;
  - each line snapshots its product;
  - no product changes.

`ProductSchema.Build` (models/Product.ts:6-79) states:

- A product is created exactly when the input meets the schema:
  - the SKU is non-empty once trimmed;
  - the name is non-empty and at most 200 UTF-16 code units once trimmed;
  - the description is non-empty and at most 2000 code units;
  - price, compareAtPrice, stock, weight and dimensions are at least 0;
  - every category reference is an object id.
- The stored SKU is `Upper(Trim(sku))`, the name is trimmed, and the category references are kept.
- Defaults: stock 0, active, not hot, not featured.

`Audit.GetAuditLogs` (lib/audit.ts:26-73) states:

- Defaults are page 1 and limit 50.
- An `actorId` filter that is not an object id, an `action` pattern the store refuses, or a negative skip, is an error.
- Otherwise the page is the window at `(page - 1) * limit` of the matching entries sorted newest first.
- Listed entries match every supplied filter, newest first.
- `total` counts all matches and `pages` is `ceil(total / limit)`.

`Auth.Authenticate` (middleware/auth.ts:9-33) states:

- A missing header or one not starting with `Bearer ` is 401 `No authorization token provided`.
- The handler runs exactly when the token verifies and the handler answers. It runs as the token's user.
- Once a bearer token is found, every 401 is `Invalid or expired token`: a token that fails verification and a handler that throws are reported alike.
- The gate itself never answers 403.

`Fulfillment.ListOrders` (app/api/fulfillment/orders/route.ts:10-47) states:

- The page is the window at `(page - 1) * limit` of the shown orders sorted newest first.
- Listed orders have a shown status and come from the store.
- Orders are newest first.
- `total` counts all shown orders and pages is `ceil(total/limit)`.
- Defaults are page 1 and limit 20; a negative skip is 500.

`AdminProducts.CreateProduct` (app/api/admin/products/route.ts:71-123) states:

- A missing name, SKU or description, or an absent price or stock, is 400.
- A stored SKU equal to `Upper(Trim(sku))` is 409.
- When neither applies, the product is created exactly when:
  - the input meets the schema;
  - the id is new.
- A created product is valid and stored under its id, with SKU `Upper(Trim(sku))`.
- The audit log gains at most that creation's entry.
- Any other outcome changes nothing.

`Registration.Register` (app/api/auth/register/route.ts:11-75) states:

- A missing name, email or password is 400, and a password under 6 UTF-16 code units is 400.
- An existing user under the lower-cased email is 409.
- A new user is appended with:
  - the trimmed name;
  - the lower-cased then trimmed email;
  - the hashed password and the trimmed phone;
  - role `customer`.
- The response is the user without the hash.
- The audit log gains at most one entry.

## Left out

- Payment provider calls. Signature verification is an `Option<Event>`, where `None` means it failed. Intent creation is an `Option<PaymentIntent>` in the checkout environment. Currency and metadata are not modelled.
- The intent does not depend on the amount. The provider's minimum charge is not modelled, so a 0-cent intent (a cart of zero quantities) is taken to be granted. In practice the provider is likely to refuse it, and the 500 would then come from the intent call rather than the order schema.
- The database:
  - A failed connection is modelled only for the webhook. Elsewhere it is the handler's generic 500.
  - `populate`, `lean` and `select` projections are not modelled. Lists return whole documents.
  - `$text` search and `$regex` matching are uninterpreted predicates passed in by the caller. Whether the store accepts a `$regex` pattern is a parameter as well; the product text index is declared, so `$text` never fails.
  - The order among equal sort keys is left open. A page is the window of some sorted permutation of the matches, and the store's tie order is not modelled. Paging through all pages is stated against one fixed sort of the matches.
- Hook and validator ordering in the order schema. The model lets the `pre('save')` hook number the order before validation. Whether Mongoose checks the required `orderNumber` first is not modelled.
- Timestamps. `createdAt` is the clock parameter; `updatedAt` is not modelled.
- Concurrency. Two checkouts that read the same order count are stated only as the sequential collision (`OrderSchema.SameCountCollides`). Overselling by concurrent checkouts is not modelled.
- Floating-point money. Prices are integer cents, so `Math.round(total * 100)` is the total itself.
- CreateIntent.Checkout: cart quantities and stock are taken to be integers, and every cart line carries a quantity. In the source a quantity is any JSON number. A fractional quantity such as 1.5 passes the stock check, is priced as price times 1.5, is stored, and the webhook's `$inc` then leaves stock fractional. A line with no quantity also passes the stock check (`stock < undefined` is false) and then ends in 500, from the NaN amount or the required order quantity. Neither case is modelled. The stock and revenue lemmas (`Inventory.ApplyItems`, `Lifecycle.SuccessThenRefundRestoresStock`, the revenue lemmas) are stated for integer quantities only.
- Query parameters. `parseInt` and `parseFloat` are assumed to succeed: page, limit and prices arrive as optional integers, and NaN results are not modelled.
- lib/auth is not part of this model. Password hashing and token verification are parameters. The pickup code is a parameter. Token generation in registration is left out of the response. The login and refresh routes, thin wrappers over lib/auth, are left out.
- models/User.ts is not part of this model. The dashboard's user count is a parameter.
- Registration.Register: takes every new user document to be accepted. The duplicate lookup compares the lower-cased email exactly as the handler writes it. Any setters on the email field (such as a trim) that the store would apply to that lookup, and any unique index on email, are not modelled.
- The staff status-update route for orders is not part of this model, so no transition out of `Paid` other than the refund is modelled.
- CreateIntent.Checkout: a cart product id that is not a well-formed object id makes the real lookup throw, giving 500. The model treats every id as a lookup key, so such an id is answered 400 as unknown.
- Auth.RequireRole: the `!req.user` branch (401 `Authentication required`) is unreachable, because `authenticate` always sets the user before calling the handler, so it is not modelled.
- Audit.CreateAuditLog: a write can fail only by validation in the model. Storage failures are swallowed in the same way and would leave the log unchanged.
- AdminProducts.AfterFields: the `after` snapshot records only SKU, name and description, not the whole document.
- Product `images` and `specifications`, and category `image`, carry no constraint the handlers rely on. They are not modelled.
- Case mapping covers ASCII letters only. `toUpperCase` and `toLowerCase` on other scripts are not modelled.
- UI pages, e-mail templates and the seed script are left out. The seed script's bulb is used as concrete data in `Scenarios`, with invented object ids for it and its category.

=== FILE: admin_products.dfy ===
/**
 * app/api/admin/products/route.ts: the admin product list and product
 * creation. Creation refuses a SKU whose normal form (trimmed and
 * upper-cased, as the schema's setters leave it) is already stored, and
 * stores the SKU in that form.
 */
module AdminProducts {
  import opened Wrappers
  import opened Text
  import opened Types
  import opened Listing
  import opened ProductSchema
  import AuditLogSchema
  import opened Inventory
  import Audit
  import Auth

  // -------------------------------------------------------------------
  // GET: the admin list
  // -------------------------------------------------------------------

  /** The query string; `active` is the raw parameter text, present even when empty. */
  datatype AdminListQuery = AdminListQuery(
    page: Option<int>,
    limit: Option<int>,
    search: Option<string>,
    category: Option<string>,
    active: Option<string>)

  const DefaultPage := 1
  const DefaultLimit := 20

  /**
   * Whether a product is listed: a `search` pattern is tried on name, SKU
   * and description.
   */
  predicate Shown(q: AdminListQuery, regex: Regex, p: Product) {
    && (Truthy(q.search) ==>
          regex.matches(q.search.value, p.name) || regex.matches(q.search.value, p.sku) || regex.matches(q.search.value, p.description))
    && (Truthy(q.category) ==> q.category.value in p.categoryIds)
    && (q.active.Some? ==> p.active == (q.active.value == "true"))
  }

  predicate NewestFirst(a: Product, b: Product) {
    a.createdAt >= b.createdAt
  }

  datatype AdminListResponse = Listed(page: Page<Product>) | FetchFailed
  {
    function Status(): int {
      if Listed? then 200 else 500
    }
  }

  /** The `category` parameter, when given, must cast to an ObjectId before the store runs the query. */
  predicate CategoryCasts(q: AdminListQuery) {
    Truthy(q.category) ==> IsObjectIdString(q.category.value)
  }

  /** The `search` pattern, when given, must be one the store's regular-expression engine accepts. */
  predicate SearchCompiles(q: AdminListQuery, regex: Regex) {
    Truthy(q.search) ==> regex.accepts(q.search.value)
  }

  /**
   * One page of the shown products, inactive ones included unless
   * `active` says otherwise: the window at `(page - 1) * limit` of them
   * sorted newest first; page 1 and 20 per page by default. A category
   * that does not cast, a search pattern the store refuses, or a negative
   * skip, is 500.
   */
  function ListProducts(products: seq<Product>, q: AdminListQuery, regex: Regex): (r: AdminListResponse)
    ensures var page := q.page.GetOr(DefaultPage);
      var limit := q.limit.GetOr(DefaultLimit);
      && (r.FetchFailed? <==> !CategoryCasts(q) || !SearchCompiles(q, regex) || Skip(page, limit) < 0)
      && (r.Listed? ==>
        && r.page.page == page && r.page.limit == limit
        && r.page.total == |Filter(products, (p: Product) => Shown(q, regex, p))|
        && r.page.pages == Pages(r.page.total, limit)
        && (limit != 0 ==> |r.page.items| <= Abs(limit))
        && (forall k :: 0 <= k < |r.page.items| ==> r.page.items[k] in products && Shown(q, regex, r.page.items[k]))
        && (forall i, j :: 0 <= i < j < |r.page.items| ==> r.page.items[i].createdAt >= r.page.items[j].createdAt)
        && exists sorted :: SortedPermutation(sorted, Filter(products, (p: Product) => Shown(q, regex, p)), NewestFirst)
                            && r.page.items == Window(sorted, Skip(page, limit), limit))
  {
    if !CategoryCasts(q) || !SearchCompiles(q, regex) then FetchFailed
    else match Query(products, (p: Product) => Shown(q, regex, p), NewestFirst, q.page.GetOr(DefaultPage), q.limit.GetOr(DefaultLimit))
    case None => FetchFailed
    case Some(p) => Listed(p)
  }

  /** The products of a response; none when the query failed. */
  function Items(r: AdminListResponse): seq<Product> {
    if r.Listed? then r.page.items else []
  }

  /**
   * Paging through the admin list with a fixed positive limit shows every
   * shown product exactly once, newest first, across pages 1 to `pages`.
   */
  lemma PagesCoverShown(products: seq<Product>, q: AdminListQuery, regex: Regex, limit: int)
    requires limit > 0 && CategoryCasts(q) && SearchCompiles(q, regex)
    ensures var shown := Filter(products, (p: Product) => Shown(q, regex, p));
      SortedPermutation(Concat((k: int) => Items(ListProducts(products, q.(page := Some(k), limit := Some(limit)), regex)),
                               1, Pages(|shown|, limit).value),
                        shown, NewestFirst)
  {
    var pageItems := (k: int) => Items(ListProducts(products, q.(page := Some(k), limit := Some(limit)), regex));
    var p := (p: Product) => Shown(q, regex, p);
    forall k | k >= 1
      ensures pageItems(k) == QueryItems(products, p, NewestFirst, k, limit)
    {
      ListedIsQueried(products, q, regex, k, limit);
    }
    PagesCoverMatches(products, p, NewestFirst, limit, pageItems);
  }

  lemma ListedIsQueried(products: seq<Product>, q: AdminListQuery, regex: Regex, page: int, limit: int)
    requires CategoryCasts(q) && SearchCompiles(q, regex)
    ensures Items(ListProducts(products, q.(page := Some(page), limit := Some(limit)), regex))
         == QueryItems(products, (p: Product) => Shown(q, regex, p), NewestFirst, page, limit)
  {
    var q' := q.(page := Some(page), limit := Some(limit));
    QueryAgrees(products, (p: Product) => Shown(q', regex, p), (p: Product) => Shown(q, regex, p),
                NewestFirst, page, limit);
  }

  /**
   * The `active` parameter splits the unfiltered list in two: `true` counts
   * the active products, any other text (even `TRUE` or empty) the
   * inactive ones, and the two totals add up to the unfiltered total.
   */
  lemma ActiveParamSplitsList(products: seq<Product>, q: AdminListQuery, regex: Regex, other: string)
    requires other != "true"
    ensures var all := |Filter(products, (p: Product) => Shown(q.(active := None), regex, p))|;
      var on := |Filter(products, (p: Product) => Shown(q.(active := Some("true")), regex, p))|;
      var off := |Filter(products, (p: Product) => Shown(q.(active := Some(other)), regex, p))|;
      on + off == all
    ensures forall p :: Shown(q.(active := Some(other)), regex, p) ==> !p.active
  {
    FilterPartition(products, (p: Product) => Shown(q.(active := None), regex, p),
                    (p: Product) => Shown(q.(active := Some("true")), regex, p),
                    (p: Product) => Shown(q.(active := Some(other)), regex, p));
  }

  /** The admin list route: admins only. */
  function ListRoute(products: seq<Product>, header: Option<string>, verify: string -> Option<JWTPayload>,
                     q: AdminListQuery, regex: Regex): (r: Auth.Gated<AdminListResponse>)
    ensures r.Ran? ==> r.user.role == "admin" && r.value == ListProducts(products, q, regex)
  {
    Auth.RequireAdmin(header, verify, (user: JWTPayload) => Auth.Returned(ListProducts(products, q, regex)))
  }

  // -------------------------------------------------------------------
  // POST: product creation
  // -------------------------------------------------------------------

  datatype CreateResponse = MissingFields | DuplicateSku | CreateFailed | ProductCreated(product: Product)
  {
    function Status(): int {
      match this
      case MissingFields => 400
      case DuplicateSku => 409
      case CreateFailed => 500
      case ProductCreated(_) => 201
    }
  }

  /** Name, SKU and description must be non-empty; price and stock must be present, zero allowed. */
  predicate HasRequired(input: ProductInput) {
    Truthy(input.name) && Truthy(input.sku) && Truthy(input.description) && input.price.Some? && input.stock.Some?
  }

  /** Some stored product carries exactly this SKU. */
  predicate SkuTaken(products: Catalog, sku: string) {
    exists id :: id in products && products[id].sku == sku
  }

  /** No two stored products share a SKU, as the unique index guarantees. */
  predicate SkusUnique(products: Catalog) {
    forall a, b :: a in products && b in products && products[a].sku == products[b].sku ==> a == b
  }

  /** The document fields the audit entry records under `after`. */
  function AfterFields(p: Product): AuditLogSchema.Fields {
    map["sku" := p.sku, "name" := p.name, "description" := p.description]
  }

  function CreateAudit(user: JWTPayload, p: Product, ip: string, userAgent: Option<string>): Audit.AuditLogData {
    Audit.AuditLogData(user.userId, user.email, "product.create", ProductTarget, p.id, None, Some(AfterFields(p)), ip, userAgent)
  }

  /**
   * The SKU the duplicate lookup compares with. The handler asks for the
   * upper-cased SKU, and the store applies the SKU field's setters (trim,
   * upper-case) to a query value before comparing, so the lookup key is
   * the raw SKU's normal form.
   */
  function SkuLookup(raw: string): (key: string)
    ensures key == Upper(Trim(raw))
  {
    var asked := Upper(raw);
    TrimUpperCommute(raw);
    UpperHasNoLowerCase(Trim(raw));
    Upper(Trim(asked))
  }

  /**
   * Product creation as `user`, with the new document's id and the clock
   * given. A missing field is 400; a SKU whose normal form is stored is
   * 409; a document the schema rejects, or one whose id is taken, is 500.
   * Only a 201 changes the store: it adds the product under its id and
   * may add an audit entry.
   */
  function CreateProduct(store: Store, input: ProductInput, user: JWTPayload, id: ProductId, now: int,
                         ip: string, userAgent: Option<string>): (r: (CreateResponse, Store))
    ensures r.0 == MissingFields <==> !HasRequired(input)
    ensures r.0 == DuplicateSku <==> HasRequired(input) && SkuTaken(store.products, Upper(Trim(input.sku.value)))
    ensures !r.0.ProductCreated? ==> r.1 == store
    ensures HasRequired(input) && !SkuTaken(store.products, Upper(Trim(input.sku.value))) ==>
      (r.0.ProductCreated? <==> Acceptable(input) && id !in store.products)
    ensures r.0.ProductCreated? ==>
      var p := r.0.product;
      && Valid(p) && p.id == id && p.createdAt == now
      && p.sku == Upper(Trim(input.sku.value))
      && p.name == Trim(input.name.value)
      && p.price == input.price.value && p.stock == input.stock.value
      && r.1.products == store.products[id := p]
      && r.1.orders == store.orders
      && (r.1.audit == store.audit || r.1.audit == store.audit + [Audit.Entry(CreateAudit(user, p, ip, userAgent), now)])
  {
    if !HasRequired(input) then (MissingFields, store)
    else if SkuTaken(store.products, SkuLookup(input.sku.value)) then (DuplicateSku, store)
    else
      var doc := input.(sku := Some(Upper(input.sku.value)));
      SkuNormalForm(input.sku.value);
      TrimUpperCommute(input.sku.value);
      UpperHasNoLowerCase(Trim(input.sku.value));
      SkuSpellingIrrelevant(input, id, now, Upper(input.sku.value));
      match Build(doc, id, now)
      case None => (CreateFailed, store)
      case Some(p) =>
        if id in store.products then (CreateFailed, store)
        else
          var log := Audit.CreateAuditLog(store.audit, CreateAudit(user, p, ip, userAgent), now);
          (ProductCreated(p), store.(products := store.products[id := p], audit := log))
  }

  /** Creation keeps SKUs unique across the catalog. */
  lemma CreateKeepsSkusUnique(store: Store, input: ProductInput, user: JWTPayload, id: ProductId, now: int,
                              ip: string, userAgent: Option<string>)
    requires SkusUnique(store.products)
    ensures SkusUnique(CreateProduct(store, input, user, id, now, ip, userAgent).1.products)
  {
  }

  /** Once a product is created, asking again for its SKU, in any letter case or padding, is a 409. */
  lemma CreateThenDuplicate(store: Store, input: ProductInput, user: JWTPayload, id: ProductId, now: int,
                            ip: string, userAgent: Option<string>, again: ProductInput, id2: ProductId, now2: int)
    requires CreateProduct(store, input, user, id, now, ip, userAgent).0.ProductCreated?
    requires HasRequired(again) && Upper(Trim(again.sku.value)) == Upper(Trim(input.sku.value))
    ensures var after := CreateProduct(store, input, user, id, now, ip, userAgent).1;
      CreateProduct(after, again, user, id2, now2, ip, userAgent).0 == DuplicateSku
  {
    var r := CreateProduct(store, input, user, id, now, ip, userAgent);
    var after := r.1;
    assert after.products[id] == r.0.product;
    assert after.products[id].sku == Upper(Trim(again.sku.value));
    assert SkuTaken(after.products, Upper(Trim(again.sku.value)));
  }

  /**
   * A SKU that differs from a stored one by a leading space and letter
   * case is still a 409: the lookup sees the same normal form.
   */
  lemma PaddedDuplicateIsConflict(store: Store, input: ProductInput, user: JWTPayload, id: ProductId, now: int,
                                  ip: string, userAgent: Option<string>, pad: char, stored: string)
    requires HasRequired(input) && IsSpace(pad)
    requires |stored| > 0 && IsTrimmed(stored) && SkuTaken(store.products, Upper(stored))
    requires input.sku == Some([pad] + stored)
    ensures CreateProduct(store, input, user, id, now, ip, userAgent).0 == DuplicateSku
  {
    TrimLeftPadding(pad, stored);
  }

  /** Price 0 and stock 0 are accepted where a missing price or stock is not. */
  lemma ZeroPriceAndStockAccepted(input: ProductInput)
    requires Truthy(input.name) && Truthy(input.sku) && Truthy(input.description)
    ensures HasRequired(input.(price := Some(0), stock := Some(0)))
    ensures !HasRequired(input.(price := None)) && !HasRequired(input.(stock := None))
  {
  }

  /** The creation route: admins only. */
  function CreateRoute(store: Store, header: Option<string>, verify: string -> Option<JWTPayload>, input: ProductInput,
                       id: ProductId, now: int, ip: string, userAgent: Option<string>): (r: Auth.Gated<(CreateResponse, Store)>)
    ensures r.Ran? ==> r.user.role == "admin" && r.value == CreateProduct(store, input, r.user, id, now, ip, userAgent)
    ensures !r.Ran? ==> Auth.BearerToken(header).None? || verify(Auth.BearerToken(header).value).None?
                        || verify(Auth.BearerToken(header).value).value.role != "admin"
  {
    Auth.RequireAdmin(header, verify, (user: JWTPayload) => Auth.Returned(CreateProduct(store, input, user, id, now, ip, userAgent)))
  }
}

=== FILE: audit.dfy ===
/**
 * lib/audit.ts: writing an audit entry without ever failing the caller, and
 * the filtered, newest-first, paginated audit listing.
 */
module Audit {
  import opened Wrappers
  import opened Types
  import opened Listing
  import opened AuditLogSchema
  import opened Text

  /** What a caller asks to record; the store adds the timestamp. */
  datatype AuditLogData = AuditLogData(
    actorId: string,
    actorName: string,
    action: string,
    targetType: TargetType,
    targetId: string,
    before: Option<Fields>,
    after: Option<Fields>,
    ip: string,
    userAgent: Option<string>)

  function Entry(data: AuditLogData, now: int): AuditEntry {
    AuditEntry(data.actorId, data.actorName, data.action, data.targetType, data.targetId,
               data.before, data.after, data.ip, data.userAgent, now)
  }

  /**
   * `createAuditLog`: appends the entry when the store accepts it and
   * otherwise leaves the log as it was. Its result is the log alone, so no
   * error reaches the caller.
   */
  function CreateAuditLog(log: seq<AuditEntry>, data: AuditLogData, now: int): (r: seq<AuditEntry>)
    ensures r == log || r == log + [Entry(data, now)]
    ensures |r| == |log| + 1 <==> Valid(Entry(data, now))
    ensures forall k :: 0 <= k < |r| && Valid(Entry(data, now)) ==> k < |log| || r[k].createdAt == now
  {
    if Valid(Entry(data, now)) then log + [Entry(data, now)] else log
  }

  /** The parameters of `getAuditLogs`; an absent or empty string filter is not applied. */
  datatype AuditFilters = AuditFilters(
    actorId: Option<string>,
    targetType: Option<string>,
    targetId: Option<string>,
    action: Option<string>,
    page: Option<int>,
    limit: Option<int>)

  const DefaultPage := 1
  const DefaultLimit := 50

  /**
   * Whether an entry passes the filters; an `action` pattern is tried on
   * the entry's action.
   */
  predicate Matches(f: AuditFilters, regex: Regex, e: AuditEntry) {
    && (Truthy(f.actorId) ==> e.actorId == f.actorId.value)
    && (Truthy(f.targetType) ==> TargetTypeName(e.targetType) == f.targetType.value)
    && (Truthy(f.targetId) ==> e.targetId == f.targetId.value)
    && (Truthy(f.action) ==> regex.matches(f.action.value, e.action))
  }

  /** Newest first. */
  predicate NewestFirst(a: AuditEntry, b: AuditEntry) {
    a.createdAt >= b.createdAt
  }

  /** The `actorId` filter, when given, must cast to an ObjectId before the store runs the query. */
  predicate ActorCasts(f: AuditFilters) {
    Truthy(f.actorId) ==> IsObjectIdString(f.actorId.value)
  }

  /** The `action` pattern, when given, must be one the store's regular-expression engine accepts. */
  predicate ActionCompiles(f: AuditFilters, regex: Regex) {
    Truthy(f.action) ==> regex.accepts(f.action.value)
  }

  /**
   * `getAuditLogs`: the window at `(page - 1) * limit` of the matching
   * entries sorted newest first, page 1 and limit 50 by default. `None` is
   * the store's refusal of an actor id that does not cast, of an action
   * pattern it cannot compile, or of a negative skip, which propagates to the caller.
   */
  function GetAuditLogs(log: seq<AuditEntry>, f: AuditFilters, regex: Regex): (r: Option<Page<AuditEntry>>)
    ensures var page := f.page.GetOr(DefaultPage);
      var limit := f.limit.GetOr(DefaultLimit);
      && (r.None? <==> !ActorCasts(f) || !ActionCompiles(f, regex) || Skip(page, limit) < 0)
      && (r.Some? ==>
        && r.value.page == page && r.value.limit == limit
        && r.value.total == |Filter(log, (e: AuditEntry) => Matches(f, regex, e))|
        && r.value.pages == Pages(r.value.total, limit)
        && (limit > 0 ==> |r.value.items| <= limit)
        && (forall k :: 0 <= k < |r.value.items| ==> r.value.items[k] in log && Matches(f, regex, r.value.items[k]))
        && (forall i, j :: 0 <= i < j < |r.value.items| ==> r.value.items[i].createdAt >= r.value.items[j].createdAt)
        && exists sorted :: SortedPermutation(sorted, Filter(log, (e: AuditEntry) => Matches(f, regex, e)), NewestFirst)
                            && r.value.items == Window(sorted, Skip(page, limit), limit))
  {
    if !ActorCasts(f) || !ActionCompiles(f, regex) then None
    else Query(log, (e: AuditEntry) => Matches(f, regex, e), NewestFirst, f.page.GetOr(DefaultPage), f.limit.GetOr(DefaultLimit))
  }

  /** The entries of a listing; none when it failed. */
  function Items(r: Option<Page<AuditEntry>>): seq<AuditEntry> {
    if r.Some? then r.value.items else []
  }

  /**
   * Paging through the log with a fixed positive limit lists every
   * matching entry exactly once, newest first, across pages 1 to `pages`.
   */
  lemma PagesCoverMatching(log: seq<AuditEntry>, f: AuditFilters, regex: Regex, limit: int)
    requires limit > 0 && ActorCasts(f) && ActionCompiles(f, regex)
    ensures var matching := Filter(log, (e: AuditEntry) => Matches(f, regex, e));
      SortedPermutation(Concat((k: int) => Items(GetAuditLogs(log, f.(page := Some(k), limit := Some(limit)), regex)),
                               1, Pages(|matching|, limit).value),
                        matching, NewestFirst)
  {
    var pageItems := (k: int) => Items(GetAuditLogs(log, f.(page := Some(k), limit := Some(limit)), regex));
    var p := (e: AuditEntry) => Matches(f, regex, e);
    PagesAreQueried(log, f, regex, limit, pageItems);
    PagesCoverMatches(log, p, NewestFirst, limit, pageItems);
  }

  lemma PagesAreQueried(log: seq<AuditEntry>, f: AuditFilters, regex: Regex, limit: int,
                        pageItems: int -> seq<AuditEntry>)
    requires ActorCasts(f) && ActionCompiles(f, regex)
    requires forall k :: pageItems(k) == Items(GetAuditLogs(log, f.(page := Some(k), limit := Some(limit)), regex))
    ensures forall k :: k >= 1 ==> pageItems(k) == QueryItems(log, (e: AuditEntry) => Matches(f, regex, e), NewestFirst, k, limit)
  {
    forall k | k >= 1
      ensures pageItems(k) == QueryItems(log, (e: AuditEntry) => Matches(f, regex, e), NewestFirst, k, limit)
    {
      ListedIsQueried(log, f, regex, k, limit);
    }
  }

  lemma ListedIsQueried(log: seq<AuditEntry>, f: AuditFilters, regex: Regex, page: int, limit: int)
    requires ActorCasts(f) && ActionCompiles(f, regex)
    ensures Items(GetAuditLogs(log, f.(page := Some(page), limit := Some(limit)), regex))
         == QueryItems(log, (e: AuditEntry) => Matches(f, regex, e), NewestFirst, page, limit)
  {
    var f' := f.(page := Some(page), limit := Some(limit));
    QueryAgrees(log, (e: AuditEntry) => Matches(f', regex, e), (e: AuditEntry) => Matches(f, regex, e),
                NewestFirst, page, limit);
  }

  /** With no parameters, the first 50 entries of the whole log are listed. */
  lemma DefaultListing(log: seq<AuditEntry>, regex: Regex)
    ensures var r := GetAuditLogs(log, AuditFilters(None, None, None, None, None, None), regex);
      && r.Some? && r.value.page == 1 && r.value.limit == 50 && r.value.total == |log|
      && |r.value.items| == if |log| <= 50 then |log| else 50
  {
    var p := (e: AuditEntry) => Matches(AuditFilters(None, None, None, None, None, None), regex, e);
    FilterAll(log, p);
  }
}

=== FILE: auditlog.dfy ===
/**
 * The audit record of models/AuditLog.ts: who did what to which target,
 * optional before/after snapshots, and request origin.
 */
module AuditLogSchema {
  import opened Wrappers
  import opened Text
  import opened Types

  /** A flat stand-in for the free-form before/after objects. */
  type Fields = map<string, string>

  datatype AuditEntry = AuditEntry(
    actorId: string,
    actorName: string,
    action: string,
    targetType: TargetType,
    targetId: string,
    before: Option<Fields>,
    after: Option<Fields>,
    ip: string,
    userAgent: Option<string>,
    createdAt: int)

  /**
   * The schema's constraints: `actorId` must cast to an ObjectId, the other
   * required strings must be non-empty; `before`, `after` and `userAgent`
   * are free. The target type is one of five by construction.
   */
  predicate Valid(e: AuditEntry) {
    && IsObjectIdString(e.actorId)
    && |e.actorName| > 0
    && |e.action| > 0
    && |e.targetId| > 0
    && |e.ip| > 0
  }

  /** The optional fields never decide validity. */
  lemma OptionalFieldsFree(e: AuditEntry, before: Option<Fields>, after: Option<Fields>, agent: Option<string>)
    ensures Valid(e.(before := before, after := after, userAgent := agent)) == Valid(e)
  {
  }

  /** The actor the payment webhook writes is not an object id, so its entries never validate. */
  lemma SystemActorInvalid(e: AuditEntry)
    requires e.actorId == "system"
    ensures !Valid(e)
  {
  }
}

=== FILE: auth.dfy ===
/**
 * middleware/auth.ts: the bearer-token gate every protected API route sits
 * behind, and the role gates built on it. Token verification is a parameter:
 * `verify(token)` is the decoded payload, or `None` when verification throws.
 */
module Auth {
  import opened Wrappers
  import opened Text
  import opened Types

  const BearerPrefix := "Bearer "

  /** What a wrapped handler does: answers, or throws. */
  datatype HandlerOutcome<T> = Returned(value: T) | Threw

  /** The answer of a gated route. */
  datatype Gated<T> =
    | Unauthorized(error: string)
    | Forbidden
    | Ran(user: JWTPayload, value: T)
  {
    function Status(handlerStatus: T -> int): int {
      match this
      case Unauthorized(_) => 401
      case Forbidden => 403
      case Ran(_, v) => handlerStatus(v)
    }
  }

  const NoToken := "No authorization token provided"
  const InvalidToken := "Invalid or expired token"

  /** The token of an `Authorization` header: the text after `Bearer `. */
  function BearerToken(header: Option<string>): (r: Option<string>)
    ensures r.Some? <==> header.Some? && StartsWith(header.value, BearerPrefix)
    ensures r.Some? ==> header.value == BearerPrefix + r.value
  {
    if header.Some? && StartsWith(header.value, BearerPrefix) then
      assert header.value == BearerPrefix + header.value[7..];
      Some(header.value[7..])
    else None
  }

  /**
   * `authenticate`: no bearer header gives 401 without running the handler;
   * a token that fails verification, or a handler that throws, gives 401
   * `Invalid or expired token`; otherwise the handler runs as the token's user.
   */
  function Authenticate<T>(header: Option<string>, verify: string -> Option<JWTPayload>,
                           handler: JWTPayload -> HandlerOutcome<T>): (r: Gated<T>)
    ensures BearerToken(header).None? ==> r == Unauthorized(NoToken)
    ensures r.Ran? <==> exists tok :: BearerToken(header) == Some(tok) && verify(tok).Some? && handler(verify(tok).value).Returned?
    ensures r.Ran? ==> r.user == verify(BearerToken(header).value).value && r.value == handler(r.user).value
    ensures BearerToken(header).Some? && !r.Ran? ==> r == Unauthorized(InvalidToken)
    ensures r.Forbidden? ==> false
  {
    match BearerToken(header)
    case None => Unauthorized(NoToken)
    case Some(token) =>
      match verify(token)
      case None => Unauthorized(InvalidToken)
      case Some(user) =>
        match handler(user)
        case Threw => Unauthorized(InvalidToken)
        case Returned(v) => Ran(user, v)
  }

  /** `requireRole` accepts one role or a list of roles. */
  datatype Roles = One(role: string) | Many(roles: seq<string>)

  function Allowed(roles: Roles): (r: seq<string>)
    ensures roles.One? ==> r == [roles.role]
    ensures roles.Many? ==> r == roles.roles
  {
    match roles
    case One(role) => [role]
    case Many(rs) => rs
  }

  /** The inner handler `requireRole` passes to `authenticate`. */
  function RoleCheck<T>(roles: Roles, handler: JWTPayload -> HandlerOutcome<T>, user: JWTPayload): HandlerOutcome<Gated<T>> {
    if user.role !in Allowed(roles) then Returned(Forbidden)
    else match handler(user)
      case Threw => Threw
      case Returned(v) => Returned(Ran(user, v))
  }

  /** An inner gate's answer becomes the route's answer. */
  function Flatten<T>(g: Gated<Gated<T>>): Gated<T> {
    match g
    case Unauthorized(e) => Unauthorized(e)
    case Forbidden => Forbidden
    case Ran(_, inner) => inner
  }

  /**
   * `requireRole(roles)(handler)`: authentication as above, then 403 for a
   * role outside the allowed list; an allowed role runs the handler.
   */
  function RequireRole<T>(roles: Roles, header: Option<string>, verify: string -> Option<JWTPayload>,
                          handler: JWTPayload -> HandlerOutcome<T>): (r: Gated<T>)
    ensures BearerToken(header).None? ==> r == Unauthorized(NoToken)
    ensures r.Ran? ==> && BearerToken(header).Some? && verify(BearerToken(header).value).Some?
                       && r.user == verify(BearerToken(header).value).value
                       && r.user.role in Allowed(roles)
                       && handler(r.user) == Returned(r.value)
    ensures r.Forbidden? <==> && BearerToken(header).Some? && verify(BearerToken(header).value).Some?
                              && verify(BearerToken(header).value).value.role !in Allowed(roles)
    ensures r.Unauthorized? && BearerToken(header).Some? ==> r.error == InvalidToken
  {
    Flatten(Authenticate(header, verify, (user: JWTPayload) => RoleCheck(roles, handler, user)))
  }

  function RequireCustomer<T>(header: Option<string>, verify: string -> Option<JWTPayload>,
                              handler: JWTPayload -> HandlerOutcome<T>): (r: Gated<T>)
    ensures r.Ran? ==> r.user.role == "customer"
  {
    RequireRole(One("customer"), header, verify, handler)
  }

  function RequireEmployee<T>(header: Option<string>, verify: string -> Option<JWTPayload>,
                              handler: JWTPayload -> HandlerOutcome<T>): (r: Gated<T>)
    ensures r.Ran? ==> r.user.role == "employee" || r.user.role == "admin"
  {
    RequireRole(Many(["employee", "admin"]), header, verify, handler)
  }

  function RequireAdmin<T>(header: Option<string>, verify: string -> Option<JWTPayload>,
                           handler: JWTPayload -> HandlerOutcome<T>): (r: Gated<T>)
    ensures r.Ran? ==> r.user.role == "admin"
  {
    RequireRole(One("admin"), header, verify, handler)
  }

  /**
   * For a verified token whose handler answers: the employee gate admits
   * exactly employees and admins, the admin gate exactly admins, the
   * customer gate exactly customers; everyone else gets 403.
   */
  lemma RoleGatesAdmit<T>(header: Option<string>, verify: string -> Option<JWTPayload>,
                          handler: JWTPayload -> HandlerOutcome<T>)
    requires BearerToken(header).Some? && verify(BearerToken(header).value).Some?
    requires handler(verify(BearerToken(header).value).value).Returned?
    ensures var role := verify(BearerToken(header).value).value.role;
      && (RequireEmployee(header, verify, handler).Ran? <==> role in {"employee", "admin"})
      && (RequireEmployee(header, verify, handler).Forbidden? <==> role !in {"employee", "admin"})
      && (RequireAdmin(header, verify, handler).Ran? <==> role == "admin")
      && (RequireCustomer(header, verify, handler).Ran? <==> role == "customer")
  {
  }

  /** A role string outside the three known roles passes none of the gates. */
  lemma UnknownRoleForbidden<T>(header: Option<string>, verify: string -> Option<JWTPayload>,
                                handler: JWTPayload -> HandlerOutcome<T>)
    requires BearerToken(header).Some? && verify(BearerToken(header).value).Some?
    requires ParseRole(verify(BearerToken(header).value).value.role).None?
    ensures RequireEmployee(header, verify, handler) == Forbidden
    ensures RequireAdmin(header, verify, handler) == Forbidden
    ensures RequireCustomer(header, verify, handler) == Forbidden
  {
    assert RoleName(Customer) == "customer" && RoleName(Employee) == "employee" && RoleName(Admin) == "admin";
  }

  /** A handler that throws behind a valid token is reported as an invalid token. */
  lemma HandlerExceptionIsUnauthorized<T>(header: Option<string>, verify: string -> Option<JWTPayload>,
                                          handler: JWTPayload -> HandlerOutcome<T>)
    requires BearerToken(header).Some? && verify(BearerToken(header).value).Some?
    requires handler(verify(BearerToken(header).value).value).Threw?
    ensures Authenticate(header, verify, handler) == Unauthorized(InvalidToken)
  {
  }

  lemma BearerExamples()
    ensures BearerToken(Some("Bearer abc")) == Some("abc")
    ensures BearerToken(Some("Bearer ")) == Some("")
    ensures BearerToken(Some("bearer abc")).None?
    ensures BearerToken(Some("Basic abc")).None?
    ensures BearerToken(None).None?
  {
    assert "Bearer abc"[..7] == BearerPrefix;
    assert "Bearer "[..7] == BearerPrefix;
    assert "bearer abc"[0] != BearerPrefix[0];
    assert "Basic abc"[1] != BearerPrefix[1];
  }
}

=== FILE: catalog.dfy ===
/**
 * app/api/products/route.ts: the public catalog. Only active products are
 * ever listed; every other filter applies only when its parameter is
 * given, and the flag filters only for the exact text `true`. Featured
 * products come first, then hot ones, then the newest.
 */
module PublicCatalog {
  import opened Wrappers
  import opened Text
  import opened Listing
  import opened ProductSchema

  /**
   * The query string. Prices arrive already parsed, in cents, and are
   * `None` when absent or empty; the flags are the raw parameter text.
   */
  datatype CatalogQuery = CatalogQuery(
    page: Option<int>,
    limit: Option<int>,
    category: Option<string>,
    search: Option<string>,
    minPrice: Option<int>,
    maxPrice: Option<int>,
    inStock: Option<string>,
    featured: Option<string>,
    hot: Option<string>)

  const DefaultPage := 1
  const DefaultLimit := 12

  /** A flag parameter is on only when it is exactly `true`. */
  predicate On(flag: Option<string>) {
    flag == Some("true")
  }

  /**
   * Whether a product is listed. `textMatches(search, p)` stands for the
   * store's full-text search.
   */
  predicate Shown(q: CatalogQuery, textMatches: (string, Product) -> bool, p: Product) {
    && p.active
    && (Truthy(q.category) ==> q.category.value in p.categoryIds)
    && (Truthy(q.search) ==> textMatches(q.search.value, p))
    && (q.minPrice.Some? ==> p.price >= q.minPrice.value)
    && (q.maxPrice.Some? ==> p.price <= q.maxPrice.value)
    && (On(q.inStock) ==> p.stock > 0)
    && (On(q.featured) ==> p.featured)
    && (On(q.hot) ==> p.hot)
  }

  /** The sort `{ featured: -1, hot: -1, createdAt: -1 }`. */
  predicate ListedBefore(a: Product, b: Product) {
    if a.featured != b.featured then a.featured
    else if a.hot != b.hot then a.hot
    else a.createdAt >= b.createdAt
  }

  lemma ListedBeforeIsTotalPreorder()
    ensures TotalPreorder(ListedBefore)
  {
  }

  datatype CatalogResponse = Listed(page: Page<Product>) | FetchFailed
  {
    function Status(): int {
      if Listed? then 200 else 500
    }
  }

  /** The `category` parameter, when given, must cast to an ObjectId before the store runs the query. */
  predicate CategoryCasts(q: CatalogQuery) {
    Truthy(q.category) ==> IsObjectIdString(q.category.value)
  }

  /**
   * One page of the catalog: the window at `(page - 1) * limit` of the
   * shown products in catalog order (featured, then hot, then newest);
   * `total` counts all shown products; page 1 and 12 per page by default.
   * A category that does not cast, or a negative skip, is 500.
   */
  function ListProducts(products: seq<Product>, q: CatalogQuery, textMatches: (string, Product) -> bool): (r: CatalogResponse)
    ensures var page := q.page.GetOr(DefaultPage);
      var limit := q.limit.GetOr(DefaultLimit);
      && (r.FetchFailed? <==> !CategoryCasts(q) || Skip(page, limit) < 0)
      && (r.Listed? ==>
        && r.page.page == page && r.page.limit == limit
        && r.page.total == |Filter(products, (p: Product) => Shown(q, textMatches, p))|
        && r.page.pages == Pages(r.page.total, limit)
        && (limit != 0 ==> |r.page.items| <= Abs(limit))
        && (forall k :: 0 <= k < |r.page.items| ==> r.page.items[k] in products && Shown(q, textMatches, r.page.items[k]))
        && SortedBy(r.page.items, ListedBefore)
        && exists sorted :: SortedPermutation(sorted, Filter(products, (p: Product) => Shown(q, textMatches, p)), ListedBefore)
                            && r.page.items == Window(sorted, Skip(page, limit), limit))
  {
    ListedBeforeIsTotalPreorder();
    if !CategoryCasts(q) then FetchFailed
    else match Query(products, (p: Product) => Shown(q, textMatches, p), ListedBefore, q.page.GetOr(DefaultPage), q.limit.GetOr(DefaultLimit))
    case None => FetchFailed
    case Some(p) => Listed(p)
  }

  /** The products of a response; none when the query failed. */
  function Items(r: CatalogResponse): seq<Product> {
    if r.Listed? then r.page.items else []
  }

  /**
   * Paging through the catalog with a fixed positive limit shows every
   * shown product exactly once, in catalog order, across pages 1 to `pages`.
   */
  lemma PagesCoverShown(products: seq<Product>, q: CatalogQuery, textMatches: (string, Product) -> bool, limit: int)
    requires limit > 0 && CategoryCasts(q)
    ensures var shown := Filter(products, (p: Product) => Shown(q, textMatches, p));
      SortedPermutation(Concat((k: int) => Items(ListProducts(products, q.(page := Some(k), limit := Some(limit)), textMatches)),
                               1, Pages(|shown|, limit).value),
                        shown, ListedBefore)
  {
    ListedBeforeIsTotalPreorder();
    var pageItems := (k: int) => Items(ListProducts(products, q.(page := Some(k), limit := Some(limit)), textMatches));
    var p := (p: Product) => Shown(q, textMatches, p);
    forall k | k >= 1
      ensures pageItems(k) == QueryItems(products, p, ListedBefore, k, limit)
    {
      ListedIsQueried(products, q, textMatches, k, limit);
    }
    PagesCoverMatches(products, p, ListedBefore, limit, pageItems);
  }

  lemma ListedIsQueried(products: seq<Product>, q: CatalogQuery, textMatches: (string, Product) -> bool, page: int, limit: int)
    requires CategoryCasts(q)
    ensures TotalPreorder(ListedBefore)
    ensures Items(ListProducts(products, q.(page := Some(page), limit := Some(limit)), textMatches))
         == QueryItems(products, (p: Product) => Shown(q, textMatches, p), ListedBefore, page, limit)
  {
    ListedBeforeIsTotalPreorder();
    var q' := q.(page := Some(page), limit := Some(limit));
    QueryAgrees(products, (p: Product) => Shown(q', textMatches, p), (p: Product) => Shown(q, textMatches, p),
                ListedBefore, page, limit);
  }

  /** No inactive product is ever listed, whatever the query. */
  lemma OnlyActiveListed(products: seq<Product>, q: CatalogQuery, textMatches: (string, Product) -> bool)
    ensures var r := ListProducts(products, q, textMatches);
      r.Listed? ==> forall k :: 0 <= k < |r.page.items| ==> r.page.items[k].active
  {
  }

  /** On a page, featured products precede the rest, and among equally featured ones hot products come first. */
  lemma FeaturedThenHot(products: seq<Product>, q: CatalogQuery, textMatches: (string, Product) -> bool, i: nat, j: nat)
    requires var r := ListProducts(products, q, textMatches);
      r.Listed? && i < j < |r.page.items|
    ensures var items := ListProducts(products, q, textMatches).page.items;
      && (items[j].featured ==> items[i].featured)
      && (items[i].featured == items[j].featured && items[j].hot ==> items[i].hot)
      && (items[i].featured == items[j].featured && items[i].hot == items[j].hot ==> items[i].createdAt >= items[j].createdAt)
  {
  }

  /** A flag parameter other than exactly `true` (`TRUE`, `1`, empty) filters nothing. */
  lemma OnlyExactTrueNarrows(q: CatalogQuery, textMatches: (string, Product) -> bool, p: Product, x: string)
    requires x != "true"
    ensures Shown(q.(inStock := Some(x)), textMatches, p) == Shown(q.(inStock := None), textMatches, p)
    ensures Shown(q.(featured := Some(x)), textMatches, p) == Shown(q.(featured := None), textMatches, p)
    ensures Shown(q.(hot := Some(x)), textMatches, p) == Shown(q.(hot := None), textMatches, p)
  {
  }

  /** The price bounds are inclusive: a product priced exactly at both bounds passes them. */
  lemma PriceBoundsInclusive(q: CatalogQuery, textMatches: (string, Product) -> bool, p: Product)
    requires q.minPrice == Some(p.price) && q.maxPrice == Some(p.price)
    ensures Shown(q, textMatches, p) == Shown(q.(minPrice := None, maxPrice := None), textMatches, p)
  {
  }

  /** Turning a filter on never lists more products: `inStock=true` can only lower the total. */
  lemma InStockNarrows(products: seq<Product>, q: CatalogQuery, textMatches: (string, Product) -> bool)
    ensures |Filter(products, (p: Product) => Shown(q.(inStock := Some("true")), textMatches, p))|
         <= |Filter(products, (p: Product) => Shown(q, textMatches, p))|
    ensures !On(q.inStock) ==>
      |Filter(products, (p: Product) => Shown(q.(inStock := Some("true")), textMatches, p))|
      + |Filter(products, (p: Product) => Shown(q, textMatches, p) && p.stock <= 0)|
      == |Filter(products, (p: Product) => Shown(q, textMatches, p))|
  {
    FilterMonotone(products, (p: Product) => Shown(q.(inStock := Some("true")), textMatches, p),
                   (p: Product) => Shown(q, textMatches, p));
    if !On(q.inStock) {
      FilterPartition(products, (p: Product) => Shown(q, textMatches, p),
                      (p: Product) => Shown(q.(inStock := Some("true")), textMatches, p),
                      (p: Product) => Shown(q, textMatches, p) && p.stock <= 0);
    }
  }
}

=== FILE: category.dfy ===
/**
 * The category document of models/Category.ts: trimmed name of at most 100
 * characters, a unique lower-case slug, an optional description of at most
 * 500 characters, a parent reference that must cast to an ObjectId but is
 * otherwise unchecked, and defaults.
 */
module CategorySchema {
  import opened Wrappers
  import opened Text

  datatype Category = Category(
    id: string,
    name: string,
    slug: string,
    description: Option<string>,
    parentId: Option<string>,
    image: Option<string>,
    active: bool,
    sortOrder: int,
    createdAt: int)

  datatype CategoryInput = CategoryInput(
    name: Option<string>,
    slug: Option<string>,
    description: Option<string>,
    parentId: Option<string>,
    image: Option<string>,
    active: Option<bool>,
    sortOrder: Option<int>)

  const MaxNameLength := 100
  const MaxDescriptionLength := 500

  predicate NoUpperCase(s: string) {
    forall k :: 0 <= k < |s| ==> !('A' <= s[k] <= 'Z')
  }

  /** The schema's constraints on a stored category. */
  predicate Valid(c: Category) {
    && 0 < Utf16Length(c.name) <= MaxNameLength && IsTrimmed(c.name)
    && |c.slug| > 0 && IsTrimmed(c.slug) && NoUpperCase(c.slug)
    && (c.description.None? || Utf16Length(c.description.value) <= MaxDescriptionLength)
    && (c.parentId.None? || IsObjectIdString(c.parentId.value))
  }

  /** What the schema demands of an input, stated on the input itself. */
  predicate Acceptable(input: CategoryInput) {
    && input.name.Some? && 0 < Utf16Length(Trim(input.name.value)) <= MaxNameLength
    && input.slug.Some? && |Trim(input.slug.value)| > 0
    && (input.description.None? || Utf16Length(input.description.value) <= MaxDescriptionLength)
    && (input.parentId.None? || IsObjectIdString(input.parentId.value))
  }

  lemma LowerHasNoUpperCase(s: string)
    ensures NoUpperCase(Lower(s))
  {
  }

  lemma SlugNormalForm(raw: string)
    ensures |Lower(Trim(raw))| == |Trim(raw)|
    ensures IsTrimmed(Lower(Trim(raw))) && NoUpperCase(Lower(Trim(raw)))
  {
    TrimLowerCommute(Trim(raw));
    TrimIdempotent(raw);
    LowerHasNoUpperCase(Trim(raw));
  }

  /** The document the setters and defaults produce; absent required fields become empty. */
  function Normalize(input: CategoryInput, id: string, now: int): Category {
    Category(id, Trim(input.name.GetOr("")), Lower(Trim(input.slug.GetOr(""))), input.description,
             input.parentId, input.image, input.active.GetOr(true), input.sortOrder.GetOr(0), now)
  }

  lemma NormalizeValid(input: CategoryInput, id: string, now: int)
    ensures input.name.Some? && input.slug.Some? ==>
      (Valid(Normalize(input, id, now)) <==> Acceptable(input))
  {
    TrimIdempotent(input.name.GetOr(""));
    SlugNormalForm(input.slug.GetOr(""));
  }

  /** The fields the setters and defaults fill in. */
  lemma NormalizeFields(input: CategoryInput, id: string, now: int)
    ensures var d := Normalize(input, id, now);
      && d.id == id && d.createdAt == now
      && d.description == input.description && d.image == input.image && d.parentId == input.parentId
      && d.active == (input.active != Some(false))
      && d.sortOrder == (if input.sortOrder.Some? then input.sortOrder.value else 0)
  {
  }

  /**
   * Document construction and validation; `None` is the validation error.
   * The stored slug is trimmed and lower-cased, the name trimmed, `active`
   * defaults to true and `sortOrder` to 0.
   */
  function Build(input: CategoryInput, id: string, now: int): (r: Option<Category>)
    ensures r.Some? <==> Acceptable(input)
    ensures r.Some? ==>
      && Valid(r.value)
      && r.value.id == id && r.value.createdAt == now
      && r.value.name == Trim(input.name.value)
      && r.value.slug == Lower(Trim(input.slug.value))
      && r.value.description == input.description && r.value.image == input.image
      && r.value.parentId == input.parentId
      && r.value.active == (input.active != Some(false))
      && r.value.sortOrder == (if input.sortOrder.Some? then input.sortOrder.value else 0)
  {
    var doc := Normalize(input, id, now);
    NormalizeValid(input, id, now);
    NormalizeFields(input, id, now);
    if input.name.Some? && input.slug.Some? && Valid(doc) then Some(doc) else None
  }

  /** Errors of creating a category against the ones already stored. */
  datatype CreateError = ValidationFailed | DuplicateSlug

  /** Creation: validation, then the unique index on the slug. */
  function Create(existing: seq<Category>, input: CategoryInput, id: string, now: int): (r: Result<Category, CreateError>)
    ensures r.Success? ==> Build(input, id, now) == Some(r.value)
    ensures r.Success? ==> Valid(r.value) && forall c :: c in existing ==> c.slug != r.value.slug
    ensures r.Success? <==> Acceptable(input) && forall c :: c in existing ==> c.slug != Lower(Trim(input.slug.value))
    ensures r.Failure? && r.error == DuplicateSlug ==>
      Acceptable(input) && exists c :: c in existing && c.slug == Lower(Trim(input.slug.value))
    ensures r.Failure? && r.error == ValidationFailed <==> !Acceptable(input)
  {
    match Build(input, id, now)
    case None => Failure(ValidationFailed)
    case Some(c) =>
      if exists e :: e in existing && e.slug == c.slug then Failure(DuplicateSlug) else Success(c)
  }

  /**
   * Beyond the ObjectId cast nothing inspects the parent reference: no
   * lookup that it exists, no cycle check. A castable parent, even the
   * category's own id, is accepted exactly when the same input without a
   * parent is.
   */
  lemma ParentNeverChecked(input: CategoryInput, id: string, now: int, parent: string)
    requires IsObjectIdString(parent)
    ensures Build(input.(parentId := Some(parent)), id, now).Some? == Build(input.(parentId := None), id, now).Some?
    ensures IsObjectIdString(id) ==>
      && Build(input.(parentId := Some(id)), id, now).Some? == Build(input.(parentId := None), id, now).Some?
      && (Build(input.(parentId := Some(id)), id, now).Some? ==> Build(input.(parentId := Some(id)), id, now).value.parentId == Some(id))
  {
  }

  /** A parent reference that does not cast to an ObjectId fails creation. */
  lemma MalformedParentRefused(input: CategoryInput, id: string, now: int)
    requires input.parentId.Some? && !IsObjectIdString(input.parentId.value)
    ensures Build(input, id, now).None?
  {
  }
}

=== FILE: checkout.dfy ===
/**
 * app/api/checkout/create-intent/route.ts: validates a cart against the
 * current catalog, prices it from catalog prices, asks the payment provider
 * for an intent, and stores a `Pending` order. Stock is checked, never
 * reserved or changed.
 */
module CreateIntent {
  import opened Wrappers
  import opened Types
  import opened ProductSchema
  import opened OrderSchema
  import opened Inventory
  import opened Text
  import Auth

  datatype CartLine = CartLine(productId: ProductId, quantity: int)

  /** The `items` field of the request body: absent, not an array, or an array of lines. */
  datatype ItemsField = ItemsAbsent | ItemsNotArray | ItemsArray(lines: seq<CartLine>)

  /** The `customerInfo` object; an absent or empty field is falsy. */
  datatype CustomerInfo = CustomerInfo(name: Option<string>, email: Option<string>, phone: Option<string>)

  datatype CheckoutRequest = CheckoutRequest(items: ItemsField, customerInfo: Option<CustomerInfo>)

  /** What the payment provider returns for a created intent. */
  datatype PaymentIntent = PaymentIntent(id: string, clientSecret: string)

  /**
   * Everything the handler takes from outside: the provider's answer (`None`
   * when the call throws), the new order's id, the generated pickup code and
   * the clock.
   */
  datatype CheckoutEnv = CheckoutEnv(intent: Option<PaymentIntent>, orderId: string, pickupCode: string, now: int)

  datatype CheckoutResponse =
    | ItemsRequired
    | CustomerInfoRequired
    | ProductUnavailable(productId: ProductId)
    | InsufficientStock(productName: string)
    | CheckoutFailed
    | Created(orderId: string, orderNumber: string, total: int, clientSecret: string)
  {
    function Status(): int {
      match this
      case Created(_, _, _, _) => 200
      case CheckoutFailed => 500
      case _ => 400
    }
  }

  /**
   * The handler's answer, the store after it, and the amount in cents of
   * the payment intent it requested, if it got that far.
   */
  datatype CheckoutOutcome = CheckoutOutcome(response: CheckoutResponse, store: Store, intentAmount: Option<int>)

  predicate CustomerOk(info: Option<CustomerInfo>) {
    info.Some? && Truthy(info.value.name) && Truthy(info.value.email) && Truthy(info.value.phone)
  }

  /** A line the catalog can serve now: known, active, with enough stock (equal stock suffices). */
  predicate LineOk(catalog: Catalog, line: CartLine) {
    line.productId in catalog && catalog[line.productId].active && catalog[line.productId].stock >= line.quantity
  }

  /** The rejection a failing line produces. */
  function Rejection(catalog: Catalog, line: CartLine): CheckoutResponse {
    if line.productId !in catalog || !catalog[line.productId].active then ProductUnavailable(line.productId)
    else InsufficientStock(catalog[line.productId].name)
  }

  /** The order's copy of a product at checkout time. */
  function Snapshot(p: Product, quantity: int): LineItem {
    LineItem(p.id, p.name, p.price, quantity, p.sku)
  }

  /**
   * Walks the cart in order. The first line the catalog cannot serve
   * decides the rejection; otherwise every line becomes a snapshot of its
   * product.
   */
  function PriceLines(catalog: Catalog, lines: seq<CartLine>): (r: Result<seq<LineItem>, CheckoutResponse>)
    ensures r.Success? <==> forall k :: 0 <= k < |lines| ==> LineOk(catalog, lines[k])
    ensures r.Success? ==> |r.value| == |lines| && forall k :: 0 <= k < |lines| ==>
      lines[k].productId in catalog && r.value[k] == Snapshot(catalog[lines[k].productId], lines[k].quantity)
    ensures r.Failure? ==> exists k ::
      && 0 <= k < |lines|
      && (forall j :: 0 <= j < k ==> LineOk(catalog, lines[j]))
      && !LineOk(catalog, lines[k])
      && r.error == Rejection(catalog, lines[k])
  {
    if lines == [] then Success([])
    else
      var line := lines[0];
      if !LineOk(catalog, line) then Failure(Rejection(catalog, line))
      else
        match PriceLines(catalog, lines[1..])
        case Failure(e) =>
          var k :| 0 <= k < |lines[1..]| && (forall j :: 0 <= j < k ==> LineOk(catalog, lines[1..][j]))
                   && !LineOk(catalog, lines[1..][k]) && e == Rejection(catalog, lines[1..][k]);
          assert forall j :: 0 <= j < k + 1 ==> LineOk(catalog, lines[j]) by {
            forall j | 0 <= j < k + 1
              ensures LineOk(catalog, lines[j])
            {
              if j > 0 { assert lines[j] == lines[1..][j - 1]; }
            }
          }
          Failure(e)
        case Success(rest) =>
          assert forall k :: 1 <= k < |lines| ==> lines[k] == lines[1..][k - 1];
          Success([Snapshot(catalog[line.productId], line.quantity)] + rest)
  }

  /** Sum of price times quantity over the line items. */
  function Subtotal(items: seq<LineItem>): int {
    if items == [] then 0 else items[0].price * items[0].quantity + Subtotal(items[1..])
  }

  /** Sum of current catalog price times quantity over the cart. */
  function CatalogSubtotal(catalog: Catalog, lines: seq<CartLine>): int
    requires forall k :: 0 <= k < |lines| ==> lines[k].productId in catalog
  {
    if lines == [] then 0
    else catalog[lines[0].productId].price * lines[0].quantity + CatalogSubtotal(catalog, lines[1..])
  }

  /** The order's subtotal is the catalog price of the cart: client prices play no part. */
  lemma {:induction false} SubtotalFromCatalog(catalog: Catalog, lines: seq<CartLine>)
    requires PriceLines(catalog, lines).Success?
    ensures forall k :: 0 <= k < |lines| ==> lines[k].productId in catalog
    ensures Subtotal(PriceLines(catalog, lines).value) == CatalogSubtotal(catalog, lines)
  {
    if lines != [] {
      var items := PriceLines(catalog, lines).value;
      assert forall k :: 0 <= k < |lines[1..]| ==> LineOk(catalog, lines[1..][k]);
      SubtotalFromCatalog(catalog, lines[1..]);
      assert items[1..] == PriceLines(catalog, lines[1..]).value;
    }
  }

  const PendingPaymentStatus := "requires_payment_method"

  /** The order document the handler asks the store to create. */
  function NewOrder(store: Store, user: JWTPayload, items: seq<LineItem>, info: CustomerInfo,
                    intent: PaymentIntent, env: CheckoutEnv): Order
    requires Truthy(info.name) && Truthy(info.email) && Truthy(info.phone)
  {
    var subtotal := Subtotal(items);
    var tax := 0;
    Order(env.orderId, user.userId, AssignNumber(true, "", |store.orders|), items,
          subtotal, tax, subtotal + tax, Pending,
          Payment(Stripe, intent.id, PendingPaymentStatus, None),
          OrderSchema.Customer(info.name.value, info.email.value, info.phone.value),
          Pickup(env.pickupCode, None, None, None, None), None, env.now)
  }

  /**
   * The checkout handler, run as the authenticated `user`.
   * Requests are rejected with 400 before any product lookup when the items
   * or the customer details are missing, and before the payment call when a
   * line cannot be served. A created order is `Pending`, priced from the
   * catalog with tax 0, numbered from the order count, and appended; no
   * product is modified.
   */
  function Checkout(store: Store, req: CheckoutRequest, user: JWTPayload, env: CheckoutEnv): (r: CheckoutOutcome)
    ensures r.store.products == store.products && r.store.audit == store.audit
    ensures r.response == ItemsRequired <==> !(req.items.ItemsArray? && |req.items.lines| > 0)
    ensures r.response == CustomerInfoRequired <==>
      req.items.ItemsArray? && |req.items.lines| > 0 && !CustomerOk(req.customerInfo)
    ensures r.response.Status() == 400 ==> r.store == store && r.intentAmount.None?
    ensures r.response.Status() == 500 ==> r.store == store && r.intentAmount.Some?
    ensures req.items.ItemsArray? && |req.items.lines| > 0 && CustomerOk(req.customerInfo) ==>
      (r.response.Status() == 400 <==> exists k :: 0 <= k < |req.items.lines| && !LineOk(store.products, req.items.lines[k]))
    ensures r.response.Created? ==>
      var lines := req.items.lines;
      && (forall k :: 0 <= k < |lines| ==> LineOk(store.products, lines[k]))
      && |r.store.orders| == |store.orders| + 1
      && r.store.orders[..|store.orders|] == store.orders
      && var o := r.store.orders[|store.orders|];
      && OrderSchema.Valid(o)
      && o.status == Pending
      && o.payment.status == PendingPaymentStatus
      && env.intent.Some? && o.payment.intentId == env.intent.value.id
      && o.userId == user.userId
      && o.subtotal == CatalogSubtotal(store.products, lines)
      && o.tax == 0 && o.total == o.subtotal + o.tax
      && r.intentAmount == Some(o.total)
      && o.orderNumber == OrderNumber(|store.orders|)
      && r.response.orderNumber == o.orderNumber && r.response.total == o.total
      && |o.items| == |lines|
      && (forall k :: 0 <= k < |lines| ==> o.items[k] == Snapshot(store.products[lines[k].productId], lines[k].quantity))
  {
    if !(req.items.ItemsArray? && |req.items.lines| > 0) then CheckoutOutcome(ItemsRequired, store, None)
    else if !CustomerOk(req.customerInfo) then CheckoutOutcome(CustomerInfoRequired, store, None)
    else
      var lines := req.items.lines;
      match PriceLines(store.products, lines)
      case Failure(e) => CheckoutOutcome(e, store, None)
      case Success(items) =>
        SubtotalFromCatalog(store.products, lines);
        var amount := Subtotal(items);
        match env.intent
        case None => CheckoutOutcome(CheckoutFailed, store, Some(amount))
        case Some(intent) =>
          var order := NewOrder(store, user, items, req.customerInfo.value, intent, env);
          match Insert(store.orders, order)
          case None => CheckoutOutcome(CheckoutFailed, store, Some(amount))
          case Some(orders) =>
            CheckoutOutcome(Created(order.id, order.orderNumber, order.total, intent.clientSecret),
                            store.(orders := orders), Some(amount))
  }

  /** The route: checkout behind `authenticate`; an unauthenticated request changes nothing. */
  function CheckoutRoute(store: Store, header: Option<string>, verify: string -> Option<JWTPayload>,
                         req: CheckoutRequest, env: CheckoutEnv): (r: Auth.Gated<CheckoutOutcome>)
    ensures r.Ran? ==> r.value == Checkout(store, req, r.user, env)
    ensures Auth.BearerToken(header).None? ==> r == Auth.Unauthorized(Auth.NoToken)
  {
    Auth.Authenticate(header, verify, (user: JWTPayload) => Auth.Returned(Checkout(store, req, user, env)))
  }
}

=== FILE: dashboard.dfy ===
/**
 * app/api/admin/dashboard/route.ts: the admin overview. Revenue sums the
 * totals of orders whose payment has gone through; the product count and
 * the low-stock list see active products only.
 */
module Dashboard {
  import opened Wrappers
  import opened Types
  import opened Listing
  import opened ProductSchema
  import opened OrderSchema
  import Auth

  /** Statuses whose orders count as revenue: paid, and not refunded or cancelled. */
  predicate Earning(s: OrderStatus) {
    s == Paid || s == Preparing || s == Ready || s == PickedUp
  }

  function SumTotals(orders: seq<Order>): int {
    if orders == [] then 0 else orders[0].total + SumTotals(orders[1..])
  }

  /** The revenue aggregation: match the earning statuses, then sum `total` (0 when nothing matches). */
  function Revenue(orders: seq<Order>): int {
    SumTotals(Filter(orders, (o: Order) => Earning(o.status)))
  }

  /** What one order contributes to revenue. */
  function Earned(o: Order): int {
    if Earning(o.status) then o.total else 0
  }

  lemma {:induction false} SumTotalsAppend(a: seq<Order>, b: seq<Order>)
    ensures SumTotals(a + b) == SumTotals(a) + SumTotals(b)
  {
    if a == [] {
      assert a + b == b;
    } else {
      assert (a + b)[1..] == a[1..] + b;
      SumTotalsAppend(a[1..], b);
    }
  }

  /** Revenue is additive over any split of the order list. */
  lemma RevenueAppend(a: seq<Order>, b: seq<Order>)
    ensures Revenue(a + b) == Revenue(a) + Revenue(b)
  {
    var earning := (o: Order) => Earning(o.status);
    FilterAppend(a, b, earning);
    SumTotalsAppend(Filter(a, earning), Filter(b, earning));
  }

  /** Revenue of a single order is what it earns. */
  lemma RevenueOfOne(o: Order)
    ensures Revenue([o]) == Earned(o)
  {
    var earning := (x: Order) => Earning(x.status);
    assert [o][1..] == [];
    if Earning(o.status) {
      assert Filter([o], earning) == [o];
      assert SumTotals([o]) == o.total + SumTotals([]);
    } else {
      assert Filter([o], earning) == [];
    }
  }

  /** Revenue is the sum of what each order earns; in particular a pending, refunded or cancelled order adds nothing. */
  lemma {:induction false} RevenueIsSumOfEarned(orders: seq<Order>)
    ensures orders == [] ==> Revenue(orders) == 0
    ensures orders != [] ==> Revenue(orders) == Earned(orders[0]) + Revenue(orders[1..])
  {
    if orders != [] {
      assert orders == [orders[0]] + orders[1..];
      RevenueAppend([orders[0]], orders[1..]);
      RevenueOfOne(orders[0]);
    }
  }

  /** Replacing one order changes revenue by the difference of what the two earn. */
  lemma RevenueAfterReplace(orders: seq<Order>, i: nat, o: Order)
    requires i < |orders|
    ensures Revenue(orders[i := o]) == Revenue(orders) - Earned(orders[i]) + Earned(o)
  {
    var a, b := orders[..i], orders[i + 1..];
    assert orders == a + [orders[i]] + b;
    assert orders[i := o] == a + [o] + b;
    RevenueAppend(a + [orders[i]], b);
    RevenueAppend(a, [orders[i]]);
    RevenueAppend(a + [o], b);
    RevenueAppend(a, [o]);
    RevenueOfOne(orders[i]);
    RevenueOfOne(o);
  }

  /** Revenue is never negative while every order total is non-negative, as the order schema demands. */
  lemma {:induction false} RevenueNonNegative(orders: seq<Order>)
    requires forall k :: 0 <= k < |orders| ==> orders[k].total >= 0
    ensures Revenue(orders) >= 0
  {
    if orders != [] {
      RevenueIsSumOfEarned(orders);
      RevenueNonNegative(orders[1..]);
    }
  }

  /** Sort orders for the recent list. */
  predicate NewestFirst(a: Order, b: Order) {
    a.createdAt >= b.createdAt
  }

  /** Sort products for the low-stock list. */
  predicate LeastStockFirst(a: Product, b: Product) {
    a.stock <= b.stock
  }

  const LowStockThreshold := 10
  const RecentCount := 10
  const LowStockCount := 10

  predicate LowStock(p: Product) {
    p.active && p.stock <= LowStockThreshold
  }

  /** The ten newest orders, newest first; no order left out is newer than one listed. */
  function Recent(orders: seq<Order>): (r: seq<Order>)
    ensures |r| == if |orders| <= RecentCount then |orders| else RecentCount
    ensures forall k :: 0 <= k < |r| ==> r[k] in orders
    ensures multiset(r) <= multiset(orders)
    ensures SortedBy(r, NewestFirst)
    ensures forall o, k :: 0 <= k < |r| && o in multiset(orders) - multiset(r) ==> o.createdAt <= r[k].createdAt
  {
    var all := (o: Order) => true;
    FilterAll(orders, all);
    Top(orders, all, NewestFirst, RecentCount)
  }

  /**
   * At most ten active products with stock of at most 10, fewest first; a
   * low-stock product left out has no less stock than any listed.
   */
  function LowStockList(products: seq<Product>): (r: seq<Product>)
    ensures |r| == if |Filter(products, LowStock)| <= LowStockCount then |Filter(products, LowStock)| else LowStockCount
    ensures forall k :: 0 <= k < |r| ==> r[k] in products && LowStock(r[k])
    ensures multiset(r) <= multiset(Filter(products, LowStock))
    ensures SortedBy(r, LeastStockFirst)
    ensures forall p, k :: 0 <= k < |r| && p in multiset(Filter(products, LowStock)) - multiset(r) ==> r[k].stock <= p.stock
  {
    Top(products, LowStock, LeastStockFirst, LowStockCount)
  }

  /**
   * The recent orders are page 1, ten per page, of the newest-first listing
   * of every order: any filter that keeps every order gives that listing.
   */
  lemma RecentIsFirstPage(orders: seq<Order>, keep: Order -> bool)
    requires forall o :: o in orders ==> keep(o)
    ensures Recent(orders) == QueryItems(orders, keep, NewestFirst, 1, RecentCount)
  {
    var all := (o: Order) => true;
    TopIsFirstPage(orders, all, NewestFirst, RecentCount);
    QueryAgrees(orders, all, keep, NewestFirst, 1, RecentCount);
  }

  /** The low-stock list is page 1, ten per page, of the low-stock products sorted by stock. */
  lemma LowStockIsFirstPage(products: seq<Product>)
    ensures LowStockList(products) == QueryItems(products, LowStock, LeastStockFirst, 1, LowStockCount)
  {
    TopIsFirstPage(products, LowStock, LeastStockFirst, LowStockCount);
  }

  /** The dashboard figures. The user count comes from the user collection, which is a parameter here. */
  datatype DashboardStats = DashboardStats(
    totalOrders: nat,
    totalRevenue: int,
    totalProducts: nat,
    totalUsers: nat,
    recentOrders: seq<Order>,
    lowStockProducts: seq<Product>)

  /** The statistics: every order counted, revenue over the earning statuses, active products counted. */
  function Stats(orders: seq<Order>, products: seq<Product>, userCount: nat): (r: DashboardStats)
    ensures r.totalOrders == |orders|
    ensures r.totalRevenue == Revenue(orders)
    ensures r.totalProducts == |Filter(products, (p: Product) => p.active)|
    ensures r.totalProducts <= |products|
    ensures r.totalUsers == userCount
    ensures r.recentOrders == Recent(orders) && r.lowStockProducts == LowStockList(products)
  {
    DashboardStats(|orders|, Revenue(orders), |Filter(products, (p: Product) => p.active)|, userCount,
                   Recent(orders), LowStockList(products))
  }

  /** Every low-stock product is counted among the active products. */
  lemma LowStockAmongActive(products: seq<Product>)
    ensures |Filter(products, LowStock)| <= Stats([], products, 0).totalProducts
  {
    FilterMonotone(products, LowStock, (p: Product) => p.active);
  }

  /** The route: admins only; `userCount` is the size of the user collection. */
  function DashboardRoute(orders: seq<Order>, products: seq<Product>, userCount: nat, header: Option<string>,
                          verify: string -> Option<JWTPayload>): (r: Auth.Gated<DashboardStats>)
    ensures r.Ran? ==> r.user.role == "admin" && r.value == Stats(orders, products, userCount)
    ensures r.Forbidden? <==> && Auth.BearerToken(header).Some? && verify(Auth.BearerToken(header).value).Some?
                              && verify(Auth.BearerToken(header).value).value.role != "admin"
  {
    Auth.RequireAdmin(header, verify, (user: JWTPayload) => Auth.Returned(Stats(orders, products, userCount)))
  }
}

=== FILE: edge.dfy ===
/**
 * middleware.ts: the page-level guard in front of the staff, admin and
 * account pages. It only checks that some bearer token is present; the
 * token is not verified here.
 */
module EdgeMiddleware {
  import opened Wrappers
  import opened Text
  import opened Auth

  const LoginPath := "/login"

  datatype Decision =
    | Next
    | RedirectToLogin(location: string, redirect: string)

  predicate IsProtected(path: string) {
    StartsWith(path, "/admin") || StartsWith(path, "/empleado") || StartsWith(path, "/cuenta")
  }

  /**
   * The guard reads the token as the API gate does (`BearerToken`). A
   * protected path without a non-empty bearer token is redirected to the
   * login page with the original path in `redirect`; anything else passes.
   */
  function Middleware(path: string, header: Option<string>): (r: Decision)
    ensures r.RedirectToLogin? <==> IsProtected(path) && (BearerToken(header).None? || BearerToken(header).value == "")
    ensures r.RedirectToLogin? ==> r.location == LoginPath && r.redirect == path
  {
    if IsProtected(path) then
      var token := BearerToken(header);
      if token.None? || token.value == "" then RedirectToLogin(LoginPath, path) else Next
    else Next
  }

  /** `Bearer ` with nothing after it counts as no token. */
  lemma EmptyBearerRedirects(path: string)
    requires IsProtected(path)
    ensures Middleware(path, Some("Bearer ")) == RedirectToLogin(LoginPath, path)
  {
    assert "Bearer "[..7] == "Bearer ";
  }

  /** Any non-empty token passes, whatever it contains. */
  lemma AnyTokenPasses(path: string, token: string)
    requires |token| > 0
    ensures Middleware(path, Some("Bearer " + token)) == Next
  {
    assert ("Bearer " + token)[..7] == "Bearer ";
    assert ("Bearer " + token)[7..] == token;
  }

  /** Unprotected paths always pass. */
  lemma UnprotectedPasses(path: string, header: Option<string>)
    requires !IsProtected(path)
    ensures Middleware(path, header) == Next
  {
  }

  /**
   * The paths the framework routes through this guard (`/admin/:path*` and
   * the like): the prefix itself and everything under it.
   */
  predicate Matched(path: string) {
    || path == "/admin" || StartsWith(path, "/admin/")
    || path == "/empleado" || StartsWith(path, "/empleado/")
    || path == "/cuenta" || StartsWith(path, "/cuenta/")
  }

  /** Every path the guard is routed is protected, so its own prefix test never lets one through. */
  lemma MatchedIsProtected(path: string)
    requires Matched(path)
    ensures IsProtected(path)
  {
    if StartsWith(path, "/admin/") { assert path[..6] == "/admin/"[..6]; }
    if StartsWith(path, "/empleado/") { assert path[..9] == "/empleado/"[..9]; }
    if StartsWith(path, "/cuenta/") { assert path[..7] == "/cuenta/"[..7]; }
  }

  /** The prefix test is on characters, not path segments. */
  lemma PrefixIsNotSegment()
    ensures IsProtected("/administracion")
    ensures !Matched("/administracion")
  {
    assert "/administracion"[..6] == "/admin";
    assert "/administracion"[6] != '/';
  }
}

=== FILE: fulfillment.dfy ===
/**
 * app/api/fulfillment/orders/route.ts: the staff order list. Without a
 * status (or with `all`) it shows the orders still needing attention;
 * otherwise exactly the requested status. Newest first, 20 per page.
 */
module Fulfillment {
  import opened Wrappers
  import opened Text
  import opened Types
  import opened Listing
  import opened OrderSchema
  import Auth

  /** The query string: `status`, `page`, `limit`; numbers arrive already parsed. */
  datatype OrderListQuery = OrderListQuery(status: Option<string>, page: Option<int>, limit: Option<int>)

  const DefaultPage := 1
  const DefaultLimit := 20
  const AllStatuses := "all"

  /** Statuses the default view hides: the order is finished one way or another. */
  predicate Closed(s: OrderStatus) {
    s == PickedUp || s == Cancelled || s == Refunded
  }

  /** Whether an order with status `s` is listed for the `status` parameter. */
  predicate Shows(status: Option<string>, s: OrderStatus) {
    if Truthy(status) && status.value != AllStatuses then StatusName(s) == status.value
    else !Closed(s)
  }

  predicate NewestFirst(a: Order, b: Order) {
    a.createdAt >= b.createdAt
  }

  /** The handler's answer: a page of orders, or 500 when the store refuses the query. */
  datatype OrderListResponse = Listed(page: Page<Order>) | FetchFailed
  {
    function Status(): int {
      if Listed? then 200 else 500
    }
  }

  /**
   * The list itself: the window at `(page - 1) * limit` of the shown orders
   * sorted newest first. `total` counts every shown order, and page 1 /
   * limit 20 apply when the parameters are absent.
   */
  function ListOrders(orders: seq<Order>, q: OrderListQuery): (r: OrderListResponse)
    ensures var page := q.page.GetOr(DefaultPage);
      var limit := q.limit.GetOr(DefaultLimit);
      && (r.FetchFailed? <==> Skip(page, limit) < 0)
      && (r.Listed? ==>
        && r.page.page == page && r.page.limit == limit
        && r.page.total == |Filter(orders, (o: Order) => Shows(q.status, o.status))|
        && r.page.pages == Pages(r.page.total, limit)
        && (limit != 0 ==> |r.page.items| <= Abs(limit))
        && (forall k :: 0 <= k < |r.page.items| ==> r.page.items[k] in orders && Shows(q.status, r.page.items[k].status))
        && (forall i, j :: 0 <= i < j < |r.page.items| ==> r.page.items[i].createdAt >= r.page.items[j].createdAt)
        && exists sorted :: SortedPermutation(sorted, Filter(orders, (o: Order) => Shows(q.status, o.status)), NewestFirst)
                            && r.page.items == Window(sorted, Skip(page, limit), limit))
  {
    match Query(orders, (o: Order) => Shows(q.status, o.status), NewestFirst, q.page.GetOr(DefaultPage), q.limit.GetOr(DefaultLimit))
    case None => FetchFailed
    case Some(p) => Listed(p)
  }

  /** The orders of a response; none when the store refused the query. */
  function Items(r: OrderListResponse): seq<Order> {
    if r.Listed? then r.page.items else []
  }

  /**
   * Paging through the list with a fixed positive limit shows every shown
   * order exactly once, newest first, across pages 1 to `pages`.
   */
  lemma PagesCoverShown(orders: seq<Order>, status: Option<string>, limit: int)
    requires limit > 0
    ensures var shown := Filter(orders, (o: Order) => Shows(status, o.status));
      SortedPermutation(Concat((k: int) => Items(ListOrders(orders, OrderListQuery(status, Some(k), Some(limit)))),
                               1, Pages(|shown|, limit).value),
                        shown, NewestFirst)
  {
    var pageItems := (k: int) => Items(ListOrders(orders, OrderListQuery(status, Some(k), Some(limit))));
    var p := (o: Order) => Shows(status, o.status);
    forall k | k >= 1
      ensures pageItems(k) == QueryItems(orders, p, NewestFirst, k, limit)
    {
      ListedIsQueried(orders, status, k, limit);
    }
    PagesCoverMatches(orders, p, NewestFirst, limit, pageItems);
  }

  lemma ListedIsQueried(orders: seq<Order>, status: Option<string>, page: int, limit: int)
    ensures Items(ListOrders(orders, OrderListQuery(status, Some(page), Some(limit))))
         == QueryItems(orders, (o: Order) => Shows(status, o.status), NewestFirst, page, limit)
  {
  }

  /** The route: staff only (employee or admin). */
  function FulfillmentRoute(orders: seq<Order>, header: Option<string>, verify: string -> Option<JWTPayload>,
                            q: OrderListQuery): (r: Auth.Gated<OrderListResponse>)
    ensures r.Ran? ==> (r.user.role == "employee" || r.user.role == "admin") && r.value == ListOrders(orders, q)
    ensures r.Ran? <==> Auth.BearerToken(header).Some? && verify(Auth.BearerToken(header).value).Some?
                        && verify(Auth.BearerToken(header).value).value.role in ["employee", "admin"]
  {
    Auth.RequireEmployee(header, verify, (user: JWTPayload) => Auth.Returned(ListOrders(orders, q)))
  }

  /** With no status, or `all`, exactly Pending, Paid, Preparing and Ready orders are shown. */
  lemma DefaultShowsOpenOrders(status: Option<string>, s: OrderStatus)
    requires status.None? || status == Some("") || status == Some(AllStatuses)
    ensures Shows(status, s) <==> s == Pending || s == Paid || s == Preparing || s == Ready
  {
  }

  /** A status parameter naming a status shows orders of that status and no other. */
  lemma NamedStatusIsExact(t: OrderStatus, s: OrderStatus)
    ensures Shows(Some(StatusName(t)), s) <==> s == t
  {
    EnumRoundTrips(Role.Customer, t, ProductTarget);
    EnumRoundTrips(Role.Customer, s, ProductTarget);
  }

  /** A status parameter that names no status (and is not `all`) matches nothing, so the list is empty. */
  lemma UnknownStatusListsNothing(orders: seq<Order>, name: string, page: Option<int>, limit: Option<int>)
    requires |name| > 0 && name != AllStatuses && ParseStatus(name).None?
    ensures var r := ListOrders(orders, OrderListQuery(Some(name), page, limit));
      r.Listed? ==> r.page.total == 0 && r.page.items == []
  {
    var p := (o: Order) => Shows(Some(name), o.status);
    FilterNone(orders, p);
  }

  /**
   * An explicit status filter and the default view split nothing between
   * them: the default total plus the totals of the three closed statuses
   * is the whole order count.
   */
  lemma DefaultAndClosedCoverAll(orders: seq<Order>)
    ensures var open := |Filter(orders, (o: Order) => Shows(None, o.status))|;
      var closed := |Filter(orders, (o: Order) => Closed(o.status))|;
      open + closed == |orders|
  {
    FilterPartition(orders, (o: Order) => true, (o: Order) => Shows(None, o.status), (o: Order) => Closed(o.status));
    FilterAll(orders, (o: Order) => true);
  }
}

=== FILE: inventory.dfy ===
/**
 * The persistent state the order workflow reads and writes: orders in
 * insertion order, products by id, and the audit log; and the per-item
 * stock increments (`$inc`) the payment handlers issue.
 */
module Inventory {
  import opened ProductSchema
  import opened OrderSchema
  import opened AuditLogSchema

  type Catalog = map<ProductId, Product>

  /**
   * The document store. Orders are kept in insertion order, so a lookup
   * returns the first match and the order count is the sequence length.
   */
  datatype Store = Store(orders: seq<Order>, products: Catalog, audit: seq<AuditEntry>)

  /** Total quantity of product `id` over the line items. */
  function QuantityOf(items: seq<LineItem>, id: ProductId): int {
    if items == [] then 0
    else (if items[0].productId == id then items[0].quantity else 0) + QuantityOf(items[1..], id)
  }

  /** Items that never mention `id` move none of its stock. */
  lemma {:induction false} QuantityOfUnmentioned(items: seq<LineItem>, id: ProductId)
    requires forall k :: 0 <= k < |items| ==> items[k].productId != id
    ensures QuantityOf(items, id) == 0
  {
    if items != [] {
      QuantityOfUnmentioned(items[1..], id);
    }
  }

  /** Quantities of valid items are positive, so a mentioned product has a positive total. */
  lemma {:induction false} QuantityOfMentioned(items: seq<LineItem>, id: ProductId, k: nat)
    requires forall j :: 0 <= j < |items| ==> ValidItem(items[j])
    requires k < |items| && items[k].productId == id
    ensures QuantityOf(items, id) >= items[k].quantity
  {
    if k > 0 {
      QuantityOfMentioned(items[1..], id, k - 1);
    } else {
      QuantityOfNonNegative(items[1..], id);
    }
  }

  lemma {:induction false} QuantityOfNonNegative(items: seq<LineItem>, id: ProductId)
    requires forall j :: 0 <= j < |items| ==> ValidItem(items[j])
    ensures QuantityOf(items, id) >= 0
  {
    if items != [] {
      QuantityOfNonNegative(items[1..], id);
    }
  }

  /** `findByIdAndUpdate(id, { $inc: { stock: delta } })`: nothing happens when no product has the id. */
  function IncStock(products: Catalog, id: ProductId, delta: int): (r: Catalog)
    ensures r.Keys == products.Keys
    ensures forall p :: p in products ==>
      r[p] == if p == id then products[p].(stock := products[p].stock + delta) else products[p]
  {
    if id in products then products[id := products[id].(stock := products[id].stock + delta)] else products
  }

  /**
   * One `$inc` per line item in item order: by the item's quantity when
   * restocking, by its negation otherwise. Only stock changes, and each
   * product moves by its total quantity over the items.
   */
  function ApplyItems(products: Catalog, items: seq<LineItem>, restock: bool): (r: Catalog)
    ensures r.Keys == products.Keys
    ensures forall p :: p in products ==>
      r[p] == products[p].(stock := products[p].stock + (if restock then QuantityOf(items, p) else -QuantityOf(items, p)))
  {
    if items == [] then products
    else
      var item := items[0];
      var next := IncStock(products, item.productId, if restock then item.quantity else -item.quantity);
      var r := ApplyItems(next, items[1..], restock);
      ApplyItemsStep(products, items, restock, next, r);
      r
  }

  /** One step of `ApplyItems`: the first item's `$inc` followed by the rest adds up to the whole. */
  lemma ApplyItemsStep(products: Catalog, items: seq<LineItem>, restock: bool, next: Catalog, r: Catalog)
    requires items != []
    requires next == IncStock(products, items[0].productId, if restock then items[0].quantity else -items[0].quantity)
    requires r.Keys == next.Keys
    requires forall p :: p in next ==>
      r[p] == next[p].(stock := next[p].stock + (if restock then QuantityOf(items[1..], p) else -QuantityOf(items[1..], p)))
    ensures r.Keys == products.Keys
    ensures forall p :: p in products ==>
      r[p] == products[p].(stock := products[p].stock + (if restock then QuantityOf(items, p) else -QuantityOf(items, p)))
  {
    forall p | p in products
      ensures r[p] == products[p].(stock := products[p].stock + (if restock then QuantityOf(items, p) else -QuantityOf(items, p)))
    {
      assert QuantityOf(items, p) == (if items[0].productId == p then items[0].quantity else 0) + QuantityOf(items[1..], p);
    }
  }

  /** Restocking the same items undoes a decrement exactly. */
  lemma RestockUndoesDecrement(products: Catalog, items: seq<LineItem>)
    ensures ApplyItems(ApplyItems(products, items, false), items, true) == products
  {
    var back := ApplyItems(ApplyItems(products, items, false), items, true);
    assert forall p :: p in products ==> back[p] == products[p];
  }

  /** Decrementing twice moves each product by twice its quantity. */
  lemma DecrementTwice(products: Catalog, items: seq<LineItem>)
    ensures var twice := ApplyItems(ApplyItems(products, items, false), items, false);
      && twice.Keys == products.Keys
      && forall p :: p in products ==> twice[p].stock == products[p].stock - 2 * QuantityOf(items, p)
  {
  }
}

=== FILE: lifecycle.dfy ===
/**
 * Properties of the order and inventory lifecycle as a whole: what each
 * payment notification does to orders and stock, how notifications
 * compose, and the invariants checkout and the webhook keep together.
 */
module Lifecycle {
  import opened Wrappers
  import opened Types
  import opened ProductSchema
  import opened OrderSchema
  import opened AuditLogSchema
  import opened Inventory
  import opened Text
  import opened CreateIntent
  import opened Webhook
  import Audit
  import Dashboard

  /** The webhook never adds to the audit log: its actor `system` is not an object id. */
  lemma WebhookAuditNeverStored(store: Store, event: Option<Event>, connected: bool, fault: Fault, now: int)
    ensures Post(store, event, connected, fault, now).1.audit == store.audit
  {
    forall action: string, o: Order, before: Option<Fields>, after: Option<Fields>
      ensures Audit.CreateAuditLog(store.audit, AuditData(action, o, before, after), now) == store.audit
    {
      SystemActorInvalid(Audit.Entry(AuditData(action, o, before, after), now));
    }
  }

  /** An unhandled event type, or an intent no order carries, is acknowledged and changes nothing. */
  lemma NoMatchChangesNothing(store: Store, event: Event, fault: Fault, now: int)
    requires || event.Unhandled?
             || (event.PaymentSucceeded? && FindByIntent(store.orders, event.intentId).None?)
             || (event.PaymentFailed? && FindByIntent(store.orders, event.intentId).None?)
             || (event.ChargeRefunded? && (event.paymentIntent.None? ||
                   FindByIntent(store.orders, event.paymentIntent.value).None?))
    ensures Post(store, Some(event), true, fault, now) == (Received, store)
  {
  }

  /**
   * A delivered success marks the first order carrying the intent `Paid`
   * with payment status `succeeded`, lowers each product's stock by its
   * quantity in that order, and changes nothing else.
   */
  lemma SucceededEffect(store: Store, intentId: string, now: int)
    requires FindByIntent(store.orders, intentId).Some?
    ensures var i := FindByIntent(store.orders, intentId).value;
      var before := store.orders[i];
      var after := Post(store, Some(PaymentSucceeded(intentId)), true, NoFault, now).1;
      && |after.orders| == |store.orders|
      && after.orders[i].status == Paid
      && after.orders[i].payment.status == "succeeded"
      && after.orders[i] == before.(status := Paid, payment := before.payment.(status := "succeeded"))
      && (forall j :: 0 <= j < |store.orders| && j != i ==> after.orders[j] == store.orders[j])
      && after.products.Keys == store.products.Keys
      && (forall p :: p in store.products ==>
            after.products[p] == store.products[p].(stock := store.products[p].stock - QuantityOf(before.items, p)))
      && after.audit == store.audit
  {
    var i := FindByIntent(store.orders, intentId).value;
    assert store.orders[i].items[..|store.orders[i].items|] == store.orders[i].items;
    WebhookAuditNeverStored(store, Some(PaymentSucceeded(intentId)), true, NoFault, now);
  }

  /** A product no line item of the paid order mentions keeps its stock. */
  lemma SucceededLeavesOtherProducts(store: Store, intentId: string, now: int, p: ProductId)
    requires FindByIntent(store.orders, intentId).Some?
    requires p in store.products
    requires var o := store.orders[FindByIntent(store.orders, intentId).value];
      forall k :: 0 <= k < |o.items| ==> o.items[k].productId != p
    ensures Post(store, Some(PaymentSucceeded(intentId)), true, NoFault, now).1.products[p] == store.products[p]
  {
    SucceededEffect(store, intentId, now);
    QuantityOfUnmentioned(store.orders[FindByIntent(store.orders, intentId).value].items, p);
  }

  /** A failed payment changes only that order's payment status; order status and all stock stay. */
  lemma FailedEffect(store: Store, intentId: string, fault: Fault, now: int)
    requires FindByIntent(store.orders, intentId).Some?
    requires fault != LookupFails && fault != SaveFails
    ensures var i := FindByIntent(store.orders, intentId).value;
      var after := Post(store, Some(PaymentFailed(intentId)), true, fault, now).1;
      && after.orders == store.orders[i := store.orders[i].(payment := store.orders[i].payment.(status := "failed"))]
      && after.orders[i].status == store.orders[i].status
      && after.products == store.products
      && after.audit == store.audit
  {
    WebhookAuditNeverStored(store, Some(PaymentFailed(intentId)), true, fault, now);
  }

  /**
   * A refund marks the order `Refunded` whatever its status was, `Pending`
   * included, and raises each product's stock by its quantity in the order.
   */
  lemma RefundEffect(store: Store, chargeId: string, intentId: string, now: int)
    requires FindByIntent(store.orders, intentId).Some?
    ensures var i := FindByIntent(store.orders, intentId).value;
      var before := store.orders[i];
      var after := Post(store, Some(ChargeRefunded(chargeId, Some(intentId))), true, NoFault, now).1;
      && after.orders == store.orders[i := before.(status := Refunded)]
      && after.products.Keys == store.products.Keys
      && (forall p :: p in store.products ==>
            after.products[p] == store.products[p].(stock := store.products[p].stock + QuantityOf(before.items, p)))
  {
    var i := FindByIntent(store.orders, intentId).value;
    assert store.orders[i].items[..|store.orders[i].items|] == store.orders[i].items;
  }

  /** A success followed by a refund of the same intent leaves every product exactly as it was. */
  lemma SuccessThenRefundRestoresStock(store: Store, intentId: string, chargeId: string, t1: int, t2: int)
    requires FindByIntent(store.orders, intentId).Some?
    ensures var paid := Post(store, Some(PaymentSucceeded(intentId)), true, NoFault, t1).1;
      var refunded := Post(paid, Some(ChargeRefunded(chargeId, Some(intentId))), true, NoFault, t2).1;
      && refunded.products == store.products
      && refunded.orders[FindByIntent(store.orders, intentId).value].status == Refunded
  {
    var i := FindByIntent(store.orders, intentId).value;
    var items := store.orders[i].items;
    var paid := Post(store, Some(PaymentSucceeded(intentId)), true, NoFault, t1).1;
    SucceededProducts(store, intentId, t1);
    RefundProducts(paid, chargeId, intentId, t2);
    RestockUndoesDecrement(store.products, items);
  }

  /** The store after a delivered success, in terms of the stock increments it issues. */
  lemma SucceededProducts(store: Store, intentId: string, now: int)
    requires FindByIntent(store.orders, intentId).Some?
    ensures var i := FindByIntent(store.orders, intentId).value;
      var paid := Post(store, Some(PaymentSucceeded(intentId)), true, NoFault, now).1;
      && FindByIntent(paid.orders, intentId) == Some(i)
      && paid.orders[i].items == store.orders[i].items
      && paid.orders[i].status == Paid
      && paid.products == ApplyItems(store.products, store.orders[i].items, false)
  {
    var i := FindByIntent(store.orders, intentId).value;
    assert store.orders[i].items[..|store.orders[i].items|] == store.orders[i].items;
    FindByIntentAfterUpdate(store.orders, i, intentId, MarkPaid(store.orders[i]));
  }

  /** The store after a delivered refund, in terms of the stock increments it issues. */
  lemma RefundProducts(store: Store, chargeId: string, intentId: string, now: int)
    requires FindByIntent(store.orders, intentId).Some?
    ensures var i := FindByIntent(store.orders, intentId).value;
      var refunded := Post(store, Some(ChargeRefunded(chargeId, Some(intentId))), true, NoFault, now).1;
      && refunded.orders[i].status == Refunded
      && refunded.products == ApplyItems(store.products, store.orders[i].items, true)
  {
    var i := FindByIntent(store.orders, intentId).value;
    assert store.orders[i].items[..|store.orders[i].items|] == store.orders[i].items;
  }

  /** Rewriting an order without touching its intent id does not change which order an intent finds. */
  lemma FindByIntentAfterUpdate(orders: seq<Order>, i: nat, intentId: string, o: Order)
    requires FindByIntent(orders, intentId) == Some(i)
    requires o.payment.intentId == orders[i].payment.intentId
    ensures FindByIntent(orders[i := o], intentId) == Some(i)
  {
    assert orders[i := o][i].payment.intentId == intentId;
  }

  /**
   * Nothing makes a success idempotent: a replayed success finds the order
   * already `Paid` and lowers every product's stock a second time.
   */
  lemma ReplayedSuccessDecrementsAgain(store: Store, intentId: string, t1: int, t2: int)
    requires FindByIntent(store.orders, intentId).Some?
    ensures var i := FindByIntent(store.orders, intentId).value;
      var once := Post(store, Some(PaymentSucceeded(intentId)), true, NoFault, t1).1;
      var twice := Post(once, Some(PaymentSucceeded(intentId)), true, NoFault, t2).1;
      && once.orders[i].status == Paid
      && twice.orders == once.orders
      && twice.products.Keys == store.products.Keys
      && forall p :: p in store.products ==>
           twice.products[p].stock == store.products[p].stock - 2 * QuantityOf(store.orders[i].items, p)
  {
    var i := FindByIntent(store.orders, intentId).value;
    var once := Post(store, Some(PaymentSucceeded(intentId)), true, NoFault, t1).1;
    SucceededEffect(store, intentId, t1);
    FindByIntentAfterUpdate(store.orders, i, intentId, once.orders[i]);
    SucceededEffect(once, intentId, t2);
  }

  /**
   * A fault in the middle of the stock updates is swallowed: the order is
   * already `Paid`, only the items before the failing one moved stock, and
   * the endpoint still acknowledges.
   */
  lemma FaultMidwayIsSwallowed(store: Store, intentId: string, k: nat, now: int)
    requires FindByIntent(store.orders, intentId).Some?
    requires k < |store.orders[FindByIntent(store.orders, intentId).value].items|
    ensures var i := FindByIntent(store.orders, intentId).value;
      var r := Post(store, Some(PaymentSucceeded(intentId)), true, StockUpdateFails(k), now);
      && r.0 == Received
      && r.1.orders[i].status == Paid
      && r.1.products == ApplyItems(store.products, store.orders[i].items[..k], false)
  {
  }

  // -------------------------------------------------------------------
  // Invariants kept by checkout and the webhook together
  // -------------------------------------------------------------------

  /** Every order's total is its subtotal plus its tax. */
  predicate TotalsConsistent(orders: seq<Order>) {
    forall k :: 0 <= k < |orders| ==> orders[k].total == orders[k].subtotal + orders[k].tax
  }

  /** The k-th stored order carries the number derived from count k. */
  predicate SequentiallyNumbered(orders: seq<Order>) {
    forall k :: 0 <= k < |orders| ==> orders[k].orderNumber == OrderNumber(k)
  }

  /** Every stored order satisfies the schema. */
  predicate AllValid(orders: seq<Order>) {
    forall k :: 0 <= k < |orders| ==> OrderSchema.Valid(orders[k])
  }

  predicate Invariant(s: Store) {
    TotalsConsistent(s.orders) && SequentiallyNumbered(s.orders) && AllValid(s.orders)
  }

  /** Sequential numbering makes every stored number distinct. */
  lemma NumbersDistinct(orders: seq<Order>)
    requires SequentiallyNumbered(orders)
    ensures forall i, j :: 0 <= i < j < |orders| ==> orders[i].orderNumber != orders[j].orderNumber
  {
    forall i, j | 0 <= i < j < |orders|
      ensures orders[i].orderNumber != orders[j].orderNumber
    {
      OrderNumberInjective(i, j);
    }
  }

  /** Checkout keeps the invariant; under it the unique index never sees a repeated number. */
  lemma CheckoutKeepsInvariant(store: Store, req: CheckoutRequest, user: JWTPayload, env: CheckoutEnv)
    requires Invariant(store)
    ensures Invariant(Checkout(store, req, user, env).store)
  {
    var r := Checkout(store, req, user, env);
    var n := |store.orders|;
    if r.response.Created? {
      var o := r.store.orders[n];
      assert r.store.orders == store.orders + [o];
      AppendKeepsInvariant(store.orders, o);
    } else {
      assert r.store == store;
    }
  }

  /** Appending a valid order numbered from the current count keeps the invariant. */
  lemma AppendKeepsInvariant(orders: seq<Order>, o: Order)
    requires TotalsConsistent(orders) && SequentiallyNumbered(orders) && AllValid(orders)
    requires o.total == o.subtotal + o.tax && o.orderNumber == OrderNumber(|orders|) && OrderSchema.Valid(o)
    ensures TotalsConsistent(orders + [o]) && SequentiallyNumbered(orders + [o]) && AllValid(orders + [o])
  {
  }

  /** Products as the catalog stores them: keyed by their own non-empty id, with the snapshot fields the order schema needs. */
  predicate CatalogWellFormed(catalog: Catalog) {
    forall id :: id in catalog ==>
      catalog[id].id == id && IsObjectIdString(id) && |catalog[id].name| > 0 && |catalog[id].sku| > 0 && catalog[id].price >= 0
  }

  lemma {:induction false} SubtotalNonNegative(items: seq<LineItem>)
    requires forall k :: 0 <= k < |items| ==> ValidItem(items[k])
    ensures Subtotal(items) >= 0
  {
    if items != [] {
      SubtotalNonNegative(items[1..]);
    }
  }

  /**
   * Nothing in the handler bounds quantities from below: a cart that passes
   * validation reaches the payment call whatever its quantities. Given an
   * intent from the provider, it is the order schema's minimum of 1 that
   * then fails the request. With well-formed inputs and an intent, that is
   * the only way a validated checkout fails.
   */
  lemma QuantityOnlyBoundedBySchema(store: Store, req: CheckoutRequest, user: JWTPayload, env: CheckoutEnv)
    requires Invariant(store) && CatalogWellFormed(store.products)
    requires env.intent.Some? && |env.intent.value.id| > 0 && |env.pickupCode| > 0 && IsObjectIdString(user.userId)
    requires req.items.ItemsArray? && |req.items.lines| > 0 && CustomerOk(req.customerInfo)
    requires forall k :: 0 <= k < |req.items.lines| ==> LineOk(store.products, req.items.lines[k])
    ensures var r := Checkout(store, req, user, env);
      && r.intentAmount.Some?
      && (r.response == CheckoutFailed <==> exists k :: 0 <= k < |req.items.lines| && req.items.lines[k].quantity < 1)
      && (r.response.Created? || r.response == CheckoutFailed)
  {
    var lines := req.items.lines;
    var r := Checkout(store, req, user, env);
    var items := PriceLines(store.products, lines).value;
    var n := |store.orders|;
    forall k | 0 <= k < n
      ensures store.orders[k].orderNumber != OrderNumber(n)
    {
      OrderNumberInjective(k, n);
    }
    if exists k :: 0 <= k < |lines| && lines[k].quantity < 1 {
      var k :| 0 <= k < |lines| && lines[k].quantity < 1;
      assert items[k].quantity < 1;
      assert !ValidItem(items[k]);
    } else {
      forall k | 0 <= k < |items|
        ensures ValidItem(items[k])
      {
        assert items[k] == Snapshot(store.products[lines[k].productId], lines[k].quantity);
      }
      SubtotalNonNegative(items);
    }
  }

  /** Two order documents that differ at most in order status and payment status. */
  predicate OnlyStatusesDiffer(a: Order, b: Order) {
    a == b.(status := a.status, payment := b.payment.(status := a.payment.status))
  }

  /**
   * Whatever the event and wherever a fault strikes, the webhook changes an
   * order only in its status and payment status, and a payment status it
   * writes is `succeeded` or `failed`.
   */
  lemma WebhookOnlyTouchesStatuses(store: Store, event: Option<Event>, connected: bool, fault: Fault, now: int)
    ensures var after := Post(store, event, connected, fault, now).1;
      forall k :: 0 <= k < |store.orders| ==>
        && OnlyStatusesDiffer(after.orders[k], store.orders[k])
        && (after.orders[k].payment.status == store.orders[k].payment.status
            || after.orders[k].payment.status == SucceededStatus
            || after.orders[k].payment.status == FailedStatus)
  {
  }

  /** The webhook keeps the order invariant: totals, numbering and schema validity survive every event. */
  lemma WebhookKeepsInvariant(store: Store, event: Option<Event>, connected: bool, fault: Fault, now: int)
    requires Invariant(store)
    ensures Invariant(Post(store, event, connected, fault, now).1)
  {
    WebhookOnlyTouchesStatuses(store, event, connected, fault, now);
  }

  // -------------------------------------------------------------------
  // Revenue as the dashboard reports it
  // -------------------------------------------------------------------

  /** A delivered success makes the order count towards revenue with its full total. */
  lemma SucceededRevenue(store: Store, intentId: string, now: int)
    requires FindByIntent(store.orders, intentId).Some?
    ensures var o := store.orders[FindByIntent(store.orders, intentId).value];
      var after := Post(store, Some(PaymentSucceeded(intentId)), true, NoFault, now).1;
      Dashboard.Revenue(after.orders) == Dashboard.Revenue(store.orders) - Dashboard.Earned(o) + o.total
  {
    var i := FindByIntent(store.orders, intentId).value;
    SucceededEffect(store, intentId, now);
    var after := Post(store, Some(PaymentSucceeded(intentId)), true, NoFault, now).1;
    assert after.orders == store.orders[i := after.orders[i]];
    Dashboard.RevenueAfterReplace(store.orders, i, after.orders[i]);
  }

  /** A refund takes the order out of revenue, whatever it earned before. */
  lemma RefundRevenue(store: Store, chargeId: string, intentId: string, now: int)
    requires FindByIntent(store.orders, intentId).Some?
    ensures var o := store.orders[FindByIntent(store.orders, intentId).value];
      var after := Post(store, Some(ChargeRefunded(chargeId, Some(intentId))), true, NoFault, now).1;
      Dashboard.Revenue(after.orders) == Dashboard.Revenue(store.orders) - Dashboard.Earned(o)
  {
    var i := FindByIntent(store.orders, intentId).value;
    RefundEffect(store, chargeId, intentId, now);
    Dashboard.RevenueAfterReplace(store.orders, i, store.orders[i].(status := Refunded));
  }

  /** A failed payment leaves revenue as it was. */
  lemma FailedRevenue(store: Store, intentId: string, now: int)
    requires FindByIntent(store.orders, intentId).Some?
    ensures var after := Post(store, Some(PaymentFailed(intentId)), true, NoFault, now).1;
      Dashboard.Revenue(after.orders) == Dashboard.Revenue(store.orders)
  {
    var i := FindByIntent(store.orders, intentId).value;
    FailedEffect(store, intentId, NoFault, now);
    var o := store.orders[i];
    Dashboard.RevenueAfterReplace(store.orders, i, o.(payment := o.payment.(status := "failed")));
  }

  /** A created order is `Pending` and adds nothing to revenue. */
  lemma CheckoutRevenue(store: Store, req: CheckoutRequest, user: JWTPayload, env: CheckoutEnv)
    ensures Dashboard.Revenue(Checkout(store, req, user, env).store.orders) == Dashboard.Revenue(store.orders)
  {
    var r := Checkout(store, req, user, env);
    var n := |store.orders|;
    if r.response.Created? {
      var o := r.store.orders[n];
      assert r.store.orders == store.orders + [o];
      AppendPendingRevenue(store.orders, o);
    } else {
      assert r.store == store;
    }
  }

  lemma AppendPendingRevenue(orders: seq<Order>, o: Order)
    requires o.status == Pending
    ensures Dashboard.Revenue(orders + [o]) == Dashboard.Revenue(orders)
  {
    Dashboard.RevenueAppend(orders, [o]);
    Dashboard.RevenueOfOne(o);
  }
}

=== FILE: listing.dfy ===
/**
 * The query machinery the list endpoints share: a filter, a sort, the
 * `skip`/`limit` window of the document store, and the pagination block
 * `{ page, limit, total, pages }` with `pages = Math.ceil(total / limit)`.
 */
module Listing {
  import opened Wrappers

  /** Elements of `s` satisfying `p`, in their original order. */
  function Filter<T(!new)>(s: seq<T>, p: T -> bool): (r: seq<T>)
    ensures |r| <= |s|
    ensures forall x :: multiset(r)[x] == if p(x) then multiset(s)[x] else 0
    ensures forall k :: 0 <= k < |r| ==> p(r[k]) && r[k] in s
  {
    if s == [] then []
    else
      var rest := Filter(s[1..], p);
      assert s == [s[0]] + s[1..];
      if p(s[0]) then [s[0]] + rest else rest
  }

  /** Filtering distributes over concatenation. */
  lemma {:induction false} FilterAppend<T(!new)>(a: seq<T>, b: seq<T>, p: T -> bool)
    ensures Filter(a + b, p) == Filter(a, p) + Filter(b, p)
  {
    if a == [] {
      assert a + b == b;
    } else {
      var x, t := a[0], a[1..];
      assert a == [x] + t;
      AppendAssociative([x], t, b);
      FilterCons(x, t + b, p);
      FilterCons(x, t, p);
      FilterAppend(t, b, p);
      AppendAssociative(if p(x) then [x] else [], Filter(t, p), Filter(b, p));
    }
  }

  /** Filtering an element followed by a sequence. */
  lemma FilterCons<T(!new)>(x: T, rest: seq<T>, p: T -> bool)
    ensures Filter([x] + rest, p) == (if p(x) then [x] else []) + Filter(rest, p)
  {
    var s := [x] + rest;
    assert s[0] == x && s[1..] == rest;
  }

  lemma AppendAssociative<T>(x: seq<T>, y: seq<T>, z: seq<T>)
    ensures x + (y + z) == (x + y) + z
  {
  }

  /** A stricter filter keeps no more elements. */
  lemma {:induction false} FilterMonotone<T(!new)>(s: seq<T>, p: T -> bool, q: T -> bool)
    requires forall x :: p(x) ==> q(x)
    ensures |Filter(s, p)| <= |Filter(s, q)|
  {
    if s != [] {
      FilterMonotone(s[1..], p, q);
    }
  }

  /** Splitting a filter into two disjoint cases splits its count. */
  lemma {:induction false} FilterPartition<T(!new)>(s: seq<T>, p: T -> bool, q: T -> bool, r: T -> bool)
    requires forall x :: p(x) == (q(x) || r(x))
    requires forall x :: !(q(x) && r(x))
    ensures |Filter(s, q)| + |Filter(s, r)| == |Filter(s, p)|
  {
    if s != [] {
      FilterPartition(s[1..], p, q, r);
    }
  }

  /** A filter every element passes keeps the whole sequence. */
  lemma {:induction false} FilterAll<T(!new)>(s: seq<T>, p: T -> bool)
    requires forall x :: p(x)
    ensures Filter(s, p) == s
  {
    if s != [] {
      FilterAll(s[1..], p);
      assert s == [s[0]] + s[1..];
    }
  }

  /** A filter no element passes keeps nothing. */
  lemma FilterNone<T(!new)>(s: seq<T>, p: T -> bool)
    requires forall x :: !p(x)
    ensures Filter(s, p) == []
  {
  }

  /** `le(a, b)`: `a` may be listed before `b`; a sort order must be a total preorder. */
  ghost predicate TotalPreorder<T(!new)>(le: (T, T) -> bool) {
    && (forall a, b :: le(a, b) || le(b, a))
    && (forall a, b, c :: le(a, b) && le(b, c) ==> le(a, c))
  }

  predicate SortedBy<T>(s: seq<T>, le: (T, T) -> bool) {
    forall i, j :: 0 <= i < j < |s| ==> le(s[i], s[j])
  }

  /** Inserts `x` before the first element it may precede. */
  function Insert<T(!new)>(x: T, s: seq<T>, le: (T, T) -> bool): (r: seq<T>)
    requires TotalPreorder(le)
    requires SortedBy(s, le)
    ensures multiset(r) == multiset(s) + multiset{x}
    ensures SortedBy(r, le)
  {
    if s == [] || le(x, s[0]) then
      [x] + s
    else
      var rest := Insert(x, s[1..], le);
      assert s == [s[0]] + s[1..];
      assert forall k :: 0 <= k < |rest| ==> le(s[0], rest[k]) by {
        forall k | 0 <= k < |rest|
          ensures le(s[0], rest[k])
        {
          assert rest[k] in multiset(rest);
          if rest[k] != x {
            assert rest[k] in multiset(s[1..]);
            var j :| 0 <= j < |s[1..]| && s[1..][j] == rest[k];
            assert s[j + 1] == rest[k];
          }
        }
      }
      [s[0]] + rest
  }

  /** Insertion sort: a permutation of `s` in `le` order. */
  function Sort<T(!new)>(s: seq<T>, le: (T, T) -> bool): (r: seq<T>)
    requires TotalPreorder(le)
    ensures multiset(r) == multiset(s)
    ensures SortedBy(r, le)
  {
    if s == [] then []
    else
      assert s == [s[0]] + s[1..];
      Insert(s[0], Sort(s[1..], le), le)
  }

  function Abs(n: int): nat {
    if n < 0 then -n else n
  }

  /**
   * The store's `.skip(skip).limit(limit)`: a limit of 0 means no limit and a
   * negative limit is read as its magnitude.
   */
  function Window<T>(s: seq<T>, skip: nat, limit: int): (r: seq<T>)
    ensures limit != 0 ==> |r| <= Abs(limit)
    ensures skip + |r| <= |s| || r == []
    ensures forall k :: 0 <= k < |r| ==> skip + k < |s| && r[k] == s[skip + k]
    ensures skip < |s| ==> |r| == if limit == 0 || |s| - skip <= Abs(limit) then |s| - skip else Abs(limit)
  {
    if skip >= |s| then []
    else if limit == 0 || |s| - skip <= Abs(limit) then s[skip..]
    else s[skip..skip + Abs(limit)]
  }

  /** `skip = (page - 1) * limit`. */
  function Skip(page: int, limit: int): int {
    (page - 1) * limit
  }

  /**
   * `Math.ceil(total / limit)`; `None` when `limit` is 0, where JavaScript
   * yields a non-finite number that serialises as `null`.
   */
  function Pages(total: nat, limit: int): (r: Option<int>)
    ensures r.None? <==> limit == 0
    ensures limit > 0 ==> r.Some? && r.value >= 0 && r.value * limit >= total && (r.value - 1) * limit < total
    ensures limit < 0 ==> r.Some? && r.value <= 0 && r.value * limit <= total && (r.value - 1) * limit > total
  {
    if limit == 0 then None
    else if limit > 0 then
      var q := total / limit;
      if q * limit == total then Some(q) else Some(q + 1)
    else
      var q := total / (-limit);
      Some(-q)
  }

  /** Every matching element of a non-empty result is on exactly one page between 1 and `pages`. */
  lemma PageOfIndex(total: nat, limit: int, i: nat)
    requires limit > 0 && i < total
    ensures var p := i / limit + 1;
      && 1 <= p <= Pages(total, limit).value
      && Skip(p, limit) <= i < Skip(p, limit) + limit
  {
    var p := i / limit + 1;
    var n := Pages(total, limit).value;
    assert Skip(p, limit) == (i / limit) * limit;
  }

  /** The pagination block returned with every list. */
  /**
   * The store's regular-expression engine, left uninterpreted: `accepts`
   * says which patterns it compiles (a query with a pattern it refuses
   * throws), and `matches(pattern, text)` is the case-insensitive match of
   * an accepted pattern.
   */
  datatype Regex = Regex(accepts: string -> bool, matches: (string, string) -> bool)

  datatype Page<T> = Page(items: seq<T>, page: int, limit: int, total: nat, pages: Option<int>)

  /**
   * One page of an already filtered and sorted result; `None` when the skip
   * is negative, which the store rejects.
   */
  function Paginate<T>(matching: seq<T>, page: int, limit: int): (r: Option<Page<T>>)
    ensures r.None? <==> Skip(page, limit) < 0
    ensures r.Some? ==>
      && r.value.page == page && r.value.limit == limit
      && r.value.total == |matching|
      && r.value.pages == Pages(|matching|, limit)
      && (limit != 0 ==> |r.value.items| <= Abs(limit))
      && |r.value.items| == |Window(matching, Skip(page, limit), limit)|
      && forall k :: 0 <= k < |r.value.items| ==>
           Skip(page, limit) + k < |matching| && r.value.items[k] == matching[Skip(page, limit) + k]
  {
    var skip := Skip(page, limit);
    if skip < 0 then None
    else Some(Page(Window(matching, skip, limit), page, limit, |matching|, Pages(|matching|, limit)))
  }

  /**
   * A list query: filter, sort, then one page. Every listed element
   * satisfies the filter, comes from the collection, and appears in sort
   * order; `total` counts all matching elements, not just this page.
   */
  function Query<T(!new)>(s: seq<T>, p: T -> bool, le: (T, T) -> bool, page: int, limit: int): (r: Option<Page<T>>)
    requires TotalPreorder(le)
    ensures r.None? <==> Skip(page, limit) < 0
    ensures r.Some? ==>
      && r.value.page == page && r.value.limit == limit
      && r.value.total == |Filter(s, p)|
      && r.value.pages == Pages(|Filter(s, p)|, limit)
      && (limit != 0 ==> |r.value.items| <= Abs(limit))
      && SortedBy(r.value.items, le)
      && (forall k :: 0 <= k < |r.value.items| ==> p(r.value.items[k]) && r.value.items[k] in s)
      && exists sorted :: SortedPermutation(sorted, Filter(s, p), le) && r.value.items == Window(sorted, Skip(page, limit), limit)
  {
    var matching := Filter(s, p);
    var sorted := Sort(matching, le);
    var r := Paginate(sorted, page, limit);
    if r.Some? then
      assert forall k :: 0 <= k < |sorted| ==> sorted[k] in multiset(matching);
      assert r.value.items == Window(sorted, Skip(page, limit), limit);
      assert SortedPermutation(sorted, matching, le);
      r
    else r
  }

  /** `sorted` holds the elements of `s`, with their multiplicities, in `le` order. */
  ghost predicate SortedPermutation<T>(sorted: seq<T>, s: seq<T>, le: (T, T) -> bool) {
    multiset(sorted) == multiset(s) && SortedBy(sorted, le)
  }

  /** The items of pages `first` to `last`, one after the other. */
  function Concat<T>(pageItems: int -> seq<T>, first: int, last: int): seq<T>
    decreases last - first
  {
    if first > last then [] else pageItems(first) + Concat(pageItems, first + 1, last)
  }

  /**
   * Paging through a query loses and repeats nothing: for a positive limit,
   * the items of pages 1 to `pages`, one after the other, are the matching
   * elements, each as often as it occurs, in sort order.
   */
  lemma PagesCoverMatches<T(!new)>(s: seq<T>, p: T -> bool, le: (T, T) -> bool, limit: int, pageItems: int -> seq<T>)
    requires TotalPreorder(le) && limit > 0
    requires forall k :: k >= 1 ==> pageItems(k) == QueryItems(s, p, le, k, limit)
    ensures SortedPermutation(Concat(pageItems, 1, Pages(|Filter(s, p)|, limit).value), Filter(s, p), le)
  {
    var sorted := Sort(Filter(s, p), le);
    forall k | k >= 1
      ensures pageItems(k) == Window(sorted, Skip(k, limit), limit)
    {
      MulMonotone(0, k - 1, limit);
    }
    var n := Pages(|sorted|, limit).value;
    ConcatIsWindows(pageItems, sorted, limit, 1, n);
    WindowsFrom(sorted, limit, 1, n);
    assert sorted[0..] == sorted;
  }

  /** Two filters that agree on every element of the collection give the same query answer. */
  lemma {:induction false} QueryAgrees<T(!new)>(s: seq<T>, p: T -> bool, p': T -> bool, le: (T, T) -> bool, page: int, limit: int)
    requires TotalPreorder(le)
    requires forall x :: x in s ==> p(x) == p'(x)
    ensures Query(s, p, le, page, limit) == Query(s, p', le, page, limit)
  {
    FilterAgrees(s, p, p');
  }

  lemma {:induction false} FilterAgrees<T(!new)>(s: seq<T>, p: T -> bool, p': T -> bool)
    requires forall x :: x in s ==> p(x) == p'(x)
    ensures Filter(s, p) == Filter(s, p')
  {
    if s != [] {
      FilterAgrees(s[1..], p, p');
    }
  }

  /** The items of one page, none for a refused skip. */
  function QueryItems<T(!new)>(s: seq<T>, p: T -> bool, le: (T, T) -> bool, page: int, limit: int): seq<T>
    requires TotalPreorder(le)
  {
    var r := Query(s, p, le, page, limit);
    if r.Some? then r.value.items else []
  }

  lemma MulMonotone(a: int, b: int, limit: int)
    requires a <= b && limit > 0
    ensures a * limit <= b * limit
  {
  }

  /** The windows of pages `first` to `n`, one after the other. */
  function Windows<T>(sorted: seq<T>, limit: int, first: int, n: int): seq<T>
    requires limit > 0 && first >= 1
    decreases n - first
  {
    if first > n then []
    else
      MulMonotone(0, first - 1, limit);
      Window(sorted, Skip(first, limit), limit) + Windows(sorted, limit, first + 1, n)
  }

  /** Pages whose items are their windows concatenate to those windows. */
  lemma {:induction false} ConcatIsWindows<T>(pageItems: int -> seq<T>, sorted: seq<T>, limit: int, first: int, n: int)
    requires limit > 0 && first >= 1
    requires forall k :: k >= 1 ==> pageItems(k) == Window(sorted, Skip(k, limit), limit)
    ensures Concat(pageItems, first, n) == Windows(sorted, limit, first, n)
    decreases n - first
  {
    if first <= n {
      ConcatIsWindows(pageItems, sorted, limit, first + 1, n);
    }
  }

  /** Windows `first` to the last page, one after the other, are `sorted` from `first`'s skip on. */
  lemma {:induction false} WindowsFrom<T>(sorted: seq<T>, limit: int, first: int, n: int)
    requires limit > 0 && first >= 1
    requires n == Pages(|sorted|, limit).value
    requires Skip(first, limit) <= |sorted|
    ensures Windows(sorted, limit, first, n) == sorted[Skip(first, limit)..]
    decreases n - first
  {
    var skip := Skip(first, limit);
    var next := Skip(first + 1, limit);
    PageArithmetic(|sorted|, limit, first, n);
    if first <= n {
      WindowSplit(sorted, skip, limit);
      if next <= |sorted| {
        WindowsFrom(sorted, limit, first + 1, n);
      } else {
        assert Windows(sorted, limit, first + 1, n) == [];
      }
    }
  }

  /** A full window followed by the rest is the suffix it starts; a short window is the whole suffix. */
  lemma WindowSplit<T>(s: seq<T>, skip: nat, limit: int)
    requires limit > 0 && skip <= |s|
    ensures skip + limit <= |s| ==> Window(s, skip, limit) + s[skip + limit..] == s[skip..]
    ensures skip + limit > |s| ==> Window(s, skip, limit) == s[skip..]
  {
    if skip + limit <= |s| {
      assert s[skip..] == s[skip..skip + limit] + s[skip + limit..];
    }
  }

  /** Where the skips of consecutive pages fall relative to the last page. */
  lemma PageArithmetic(total: nat, limit: int, first: int, n: int)
    requires limit > 0 && first >= 1
    requires n == Pages(total, limit).value
    requires Skip(first, limit) <= total
    ensures Skip(first + 1, limit) == Skip(first, limit) + limit
    ensures first > n ==> Skip(first, limit) == total
    ensures first <= n && Skip(first + 1, limit) > total ==> first == n
  {
    if first > n {
      MulMonotone(n, first - 1, limit);
    } else if first + 1 <= n {
      MulMonotone(first, n - 1, limit);
    }
  }


  /** The first `n` elements in sort order (the store's `.sort(..).limit(n)` with no skip). */
  function Top<T(!new)>(s: seq<T>, p: T -> bool, le: (T, T) -> bool, n: nat): (r: seq<T>)
    requires TotalPreorder(le)
    ensures |r| == if |Filter(s, p)| <= n then |Filter(s, p)| else n
    ensures SortedBy(r, le)
    ensures forall k :: 0 <= k < |r| ==> p(r[k]) && r[k] in s
    ensures multiset(r) <= multiset(Filter(s, p))
    ensures forall x, k :: 0 <= k < |r| && x in multiset(Filter(s, p)) - multiset(r) ==> le(r[k], x)
  {
    var sorted := Sort(Filter(s, p), le);
    assert forall k :: 0 <= k < |sorted| ==> sorted[k] in multiset(Filter(s, p));
    if |sorted| <= n then sorted
    else
      SortedPrefixIsSmallest(sorted, n, le);
      PrefixSubMultiset(sorted, n);
      sorted[..n]
  }

  /**
   * The first `n` in sort order are the first page of the paginated query
   * with `n` per page: `.limit(n)` alone is page 1 of `.skip(..).limit(n)`.
   */
  lemma {:induction false} TopIsFirstPage<T(!new)>(s: seq<T>, p: T -> bool, le: (T, T) -> bool, n: nat)
    requires TotalPreorder(le) && n > 0
    ensures Top(s, p, le, n) == QueryItems(s, p, le, 1, n)
  {
  }

  /** A prefix holds each element at most as often as the whole sequence. */
  lemma PrefixSubMultiset<T>(s: seq<T>, n: nat)
    requires n <= |s|
    ensures multiset(s[..n]) <= multiset(s)
  {
    assert s == s[..n] + s[n..];
  }

  /** The first `n` elements of a sorted sequence precede every element left out. */
  lemma SortedPrefixIsSmallest<T>(sorted: seq<T>, n: nat, le: (T, T) -> bool)
    requires SortedBy(sorted, le) && n <= |sorted|
    ensures forall x, k :: 0 <= k < n && x in multiset(sorted) - multiset(sorted[..n]) ==> le(sorted[k], x)
  {
    assert sorted == sorted[..n] + sorted[n..];
    assert multiset(sorted) - multiset(sorted[..n]) == multiset(sorted[n..]);
    forall x, k | 0 <= k < n && x in multiset(sorted) - multiset(sorted[..n])
      ensures le(sorted[k], x)
    {
      assert x in sorted[n..];
      var i :| 0 <= i < |sorted[n..]| && sorted[n..][i] == x;
      assert sorted[n + i] == x;
    }
  }
}

=== FILE: order.dfy ===
/**
 * The order document of models/Order.ts: line-item snapshots, money
 * fields, the status enumeration, the payment and pickup sub-records, and
 * the order number a new document receives on its first save.
 */
module OrderSchema {
  import opened Wrappers
  import opened Text
  import opened Types

  /** A line item: a snapshot of the product at checkout time. */
  datatype LineItem = LineItem(productId: string, name: string, price: int, quantity: int, sku: string)

  datatype Payment = Payment(provider: Provider, intentId: string, status: string, paymentMethod: Option<string>)

  datatype Customer = Customer(name: string, email: string, phone: string)

  datatype Pickup = Pickup(
    code: string,
    instructions: Option<string>,
    readyAt: Option<int>,
    pickedUpAt: Option<int>,
    pickedUpBy: Option<string>)

  /** A stored order. Money is in integer cents; `createdAt` is the creation timestamp. */
  datatype Order = Order(
    id: string,
    userId: string,
    orderNumber: string,
    items: seq<LineItem>,
    subtotal: int,
    tax: int,
    total: int,
    status: OrderStatus,
    payment: Payment,
    customer: Customer,
    pickup: Pickup,
    notes: Option<string>,
    createdAt: int)

  /** A line item's constraints; the product reference must cast to an ObjectId. */
  predicate ValidItem(item: LineItem) {
    && IsObjectIdString(item.productId)
    && |item.name| > 0
    && item.price >= 0
    && item.quantity >= 1
    && |item.sku| > 0
  }

  /**
   * The schema's constraints on a stored order. The user reference casts to
   * an ObjectId, like each item's product reference.
   */
  predicate Valid(o: Order) {
    && IsObjectIdString(o.userId)
    && |o.orderNumber| > 0
    && (forall k :: 0 <= k < |o.items| ==> ValidItem(o.items[k]))
    && o.subtotal >= 0
    && o.tax >= 0
    && o.total >= 0
    && |o.payment.intentId| > 0
    && |o.payment.status| > 0
    && |o.customer.name| > 0 && |o.customer.email| > 0 && |o.customer.phone| > 0
    && |o.pickup.code| > 0
  }

  const OrderNumberPrefix := "ME"
  const OrderNumberDigits: nat := 6

  /** The number a new order receives when `count` orders are already stored. */
  function OrderNumber(count: nat): (r: string)
    ensures |r| >= 2 + OrderNumberDigits
    ensures r[..2] == OrderNumberPrefix
    ensures AllDigits(r[2..])
  {
    var r := OrderNumberPrefix + PadStart(Decimal(count + 1), OrderNumberDigits, '0');
    assert r[2..] == PadStart(Decimal(count + 1), OrderNumberDigits, '0');
    PaddedDecimalRoundTrip(count + 1, OrderNumberDigits);
    r
  }

  /** The digits after the prefix read back as `count + 1`. */
  lemma OrderNumberRoundTrip(count: nat)
    ensures DigitsValue(OrderNumber(count)[2..]) == count + 1
  {
    var r := OrderNumber(count);
    assert r[2..] == PadStart(Decimal(count + 1), OrderNumberDigits, '0');
    PaddedDecimalRoundTrip(count + 1, OrderNumberDigits);
  }

  /** Different counts give different numbers; equal counts give equal numbers. */
  lemma OrderNumberInjective(c1: nat, c2: nat)
    ensures OrderNumber(c1) == OrderNumber(c2) <==> c1 == c2
  {
    if OrderNumber(c1) == OrderNumber(c2) {
      OrderNumberRoundTrip(c1);
      OrderNumberRoundTrip(c2);
    }
  }

  /**
   * Padding never truncates: the suffix has exactly six digits below one
   * million orders and more digits from then on.
   */
  lemma OrderNumberLength(count: nat)
    ensures count + 1 < 1000000 ==> |OrderNumber(count)| == 8
    ensures count + 1 >= 1000000 ==> |OrderNumber(count)| >= 9
  {
    DecimalLength(count + 1, 6);
    assert Pow10(6) == 1000000;
  }

  lemma OrderNumberExamples()
    ensures OrderNumber(0) == "ME000001"
    ensures OrderNumber(41) == "ME000042"
    ensures OrderNumber(999999) == "ME1000000"
  {
    FirstOrderNumber();
    FortySecondOrderNumber();
    MillionthOrderNumber();
  }

  lemma FirstOrderNumber()
    ensures OrderNumber(0) == "ME000001"
  {
    assert Decimal(1) == "1";
    assert Repeat('0', 5) == "00000";
  }

  lemma FortySecondOrderNumber()
    ensures OrderNumber(41) == "ME000042"
  {
    assert Decimal(4) == "4";
    assert Decimal(42) == "42";
    assert Repeat('0', 4) == "0000";
  }

  lemma MillionthOrderNumber()
    ensures OrderNumber(999999) == "ME1000000"
  {
    assert Decimal(1) == "1";
    assert Decimal(10) == "10";
    assert Decimal(100) == "100";
    assert Decimal(1000) == "1000";
    assert Decimal(10000) == "10000";
    assert Decimal(100000) == "100000";
    assert Decimal(1000000) == "1000000";
  }

  /**
   * The save hook: only a new document without a number is numbered, from
   * the number of stored orders it observes.
   */
  function AssignNumber(isNew: bool, current: string, count: nat): (r: string)
    ensures isNew && current == "" ==> r == OrderNumber(count)
    ensures !(isNew && current == "") ==> r == current
    ensures |r| > 0 || (!isNew && current == "")
  {
    if isNew && current == "" then OrderNumber(count) else current
  }

  /** Numbering happens once: saving again never renumbers, whatever count is observed. */
  lemma AssignNumberOnce(isNew: bool, count1: nat, count2: nat)
    ensures AssignNumber(isNew, AssignNumber(true, "", count1), count2) == OrderNumber(count1)
  {
  }

  /** Insertion under the unique index on `orderNumber`; `None` is the rejected write. */
  function Insert(orders: seq<Order>, o: Order): (r: Option<seq<Order>>)
    ensures r.Some? <==> Valid(o) && forall k :: 0 <= k < |orders| ==> orders[k].orderNumber != o.orderNumber
    ensures r.Some? ==> r.value == orders + [o]
  {
    if Valid(o) && forall k :: 0 <= k < |orders| ==> orders[k].orderNumber != o.orderNumber
    then Some(orders + [o]) else None
  }

  /**
   * Two new orders numbered from the same observed count get the same
   * number, so whichever is written second is rejected by the unique index.
   */
  lemma SameCountCollides(orders: seq<Order>, a: Order, b: Order)
    requires a.orderNumber == AssignNumber(true, "", |orders|)
    requires b.orderNumber == AssignNumber(true, "", |orders|)
    requires Insert(orders, a).Some?
    ensures Insert(Insert(orders, a).value, b).None?
  {
    var after := Insert(orders, a).value;
    assert after[|orders|] == a;
  }
}

=== FILE: product.dfy ===
/**
 * The product document of models/Product.ts: field setters (trim,
 * upper-casing of the SKU), defaults and validators.
 */
module ProductSchema {
  import opened Wrappers
  import opened Text

  type ProductId = string

  datatype Dimensions = Dimensions(length: Option<int>, width: Option<int>, height: Option<int>)

  /** A stored product. Money is in integer cents. */
  datatype Product = Product(
    id: ProductId,
    sku: string,
    name: string,
    description: string,
    price: int,
    compareAtPrice: Option<int>,
    stock: int,
    categoryIds: seq<string>,
    hot: bool,
    active: bool,
    featured: bool,
    brand: Option<string>,
    weight: Option<int>,
    dimensions: Option<Dimensions>,
    createdAt: int)

  /** The fields a caller supplies when creating a product; any may be absent. */
  datatype ProductInput = ProductInput(
    sku: Option<string>,
    name: Option<string>,
    description: Option<string>,
    price: Option<int>,
    compareAtPrice: Option<int>,
    stock: Option<int>,
    categoryIds: seq<string>,
    hot: Option<bool>,
    active: Option<bool>,
    featured: Option<bool>,
    brand: Option<string>,
    weight: Option<int>,
    dimensions: Option<Dimensions>)

  const MaxNameLength := 200
  const MaxDescriptionLength := 2000

  predicate NonNegative(v: Option<int>) {
    v.None? || v.value >= 0
  }

  predicate ValidDimensions(d: Option<Dimensions>) {
    d.None? || (NonNegative(d.value.length) && NonNegative(d.value.width) && NonNegative(d.value.height))
  }

  /** The schema's constraints on a stored product. */
  predicate Valid(p: Product) {
    && |p.sku| > 0 && IsTrimmed(p.sku) && NoLowerCase(p.sku)
    && 0 < Utf16Length(p.name) <= MaxNameLength && IsTrimmed(p.name)
    && 0 < Utf16Length(p.description) <= MaxDescriptionLength
    && p.price >= 0
    && NonNegative(p.compareAtPrice)
    && p.stock >= 0
    && AllObjectIdStrings(p.categoryIds)
    && (p.brand.None? || IsTrimmed(p.brand.value))
    && NonNegative(p.weight)
    && ValidDimensions(p.dimensions)
  }

  /** The document the setters and defaults produce from an input; absent required fields become empty. */
  function Normalize(input: ProductInput, id: ProductId, now: int): Product {
    Product(
      id,
      Upper(Trim(input.sku.GetOr(""))),
      Trim(input.name.GetOr("")),
      input.description.GetOr(""),
      input.price.GetOr(0),
      input.compareAtPrice,
      input.stock.GetOr(0),
      input.categoryIds,
      input.hot.GetOr(false),
      input.active.GetOr(true),
      input.featured.GetOr(false),
      if input.brand.Some? then Some(Trim(input.brand.value)) else None,
      input.weight,
      input.dimensions,
      now)
  }

  /** What the schema demands of an input, stated on the input itself. */
  predicate Acceptable(input: ProductInput) {
    && input.sku.Some? && |Trim(input.sku.value)| > 0
    && input.name.Some? && 0 < Utf16Length(Trim(input.name.value)) <= MaxNameLength
    && input.description.Some? && 0 < Utf16Length(input.description.value) <= MaxDescriptionLength
    && input.price.Some? && input.price.value >= 0
    && NonNegative(input.compareAtPrice)
    && NonNegative(input.stock)
    && AllObjectIdStrings(input.categoryIds)
    && NonNegative(input.weight)
    && ValidDimensions(input.dimensions)
  }

  /**
   * Document construction and validation; `None` is the validation error.
   * A created product is valid, carries the trimmed upper-case SKU and the
   * trimmed name, and takes the defaults stock 0, active, not hot, not featured.
   * Name and description lengths are counted in UTF-16 code units, and every
   * category reference must cast to an ObjectId.
   */
  function Build(input: ProductInput, id: ProductId, now: int): (r: Option<Product>)
    ensures r.Some? <==> Acceptable(input)
    ensures r.Some? ==>
      && Valid(r.value)
      && r.value.id == id && r.value.createdAt == now
      && r.value.sku == Upper(Trim(input.sku.value))
      && r.value.name == Trim(input.name.value)
      && r.value.description == input.description.value
      && r.value.price == input.price.value
      && r.value.stock == (if input.stock.Some? then input.stock.value else 0)
      && r.value.categoryIds == input.categoryIds
      && r.value.active == (input.active != Some(false))
      && r.value.hot == (input.hot == Some(true))
      && r.value.featured == (input.featured == Some(true))
  {
    var doc := Normalize(input, id, now);
    NormalizeValid(input, id, now);
    NormalizeText(input, id, now);
    NormalizeDefaults(input, id, now);
    if input.sku.Some? && input.name.Some? && input.description.Some? && input.price.Some? && Valid(doc)
    then Some(doc) else None
  }

  lemma NormalizeValid(input: ProductInput, id: ProductId, now: int)
    ensures input.sku.Some? && input.name.Some? && input.description.Some? && input.price.Some? ==>
      (Valid(Normalize(input, id, now)) <==> Acceptable(input))
  {
    NormalizeTrims(input, id, now);
  }

  /** Where the text fields of the normalised document come from. */
  lemma NormalizeText(input: ProductInput, id: ProductId, now: int)
    ensures input.sku.Some? ==> Normalize(input, id, now).sku == Upper(Trim(input.sku.value))
    ensures input.name.Some? ==> Normalize(input, id, now).name == Trim(input.name.value)
    ensures input.description.Some? ==> Normalize(input, id, now).description == input.description.value
  {
  }

  /** Where the other fields of the normalised document come from, defaults included. */
  lemma NormalizeDefaults(input: ProductInput, id: ProductId, now: int)
    ensures Normalize(input, id, now).id == id && Normalize(input, id, now).createdAt == now
    ensures input.price.Some? ==> Normalize(input, id, now).price == input.price.value
    ensures Normalize(input, id, now).stock == (if input.stock.Some? then input.stock.value else 0)
    ensures Normalize(input, id, now).categoryIds == input.categoryIds
    ensures Normalize(input, id, now).active == (input.active != Some(false))
    ensures Normalize(input, id, now).hot == (input.hot == Some(true))
    ensures Normalize(input, id, now).featured == (input.featured == Some(true))
  {
  }

  lemma NormalizeTrims(input: ProductInput, id: ProductId, now: int)
    ensures var doc := Normalize(input, id, now);
      && |doc.sku| == |Trim(input.sku.GetOr(""))| && IsTrimmed(doc.sku) && NoLowerCase(doc.sku)
      && IsTrimmed(doc.name)
      && (doc.brand.None? || IsTrimmed(doc.brand.value))
  {
    SkuNormalForm(input.sku.GetOr(""));
    TrimIdempotent(input.name.GetOr(""));
  }

  /** The stored form of a SKU is trimmed, upper-case, and stable under normalising again. */
  lemma SkuNormalForm(raw: string)
    ensures |Upper(Trim(raw))| == |Trim(raw)|
    ensures IsTrimmed(Upper(Trim(raw)))
    ensures NoLowerCase(Upper(Trim(raw)))
    ensures Upper(Trim(Upper(Trim(raw)))) == Upper(Trim(raw))
  {
    TrimUpperCommute(Trim(raw));
    TrimIdempotent(raw);
    UpperHasNoLowerCase(Trim(raw));
    TrimUpperCommute(raw);
    TrimIdempotent(Upper(raw));
  }

  /** The SKU's letter case and surrounding spaces never decide acceptance. */
  lemma SkuSpellingIrrelevant(input: ProductInput, id: ProductId, now: int, raw: string)
    requires input.sku.Some?
    requires Upper(Trim(raw)) == Upper(Trim(input.sku.value))
    ensures Build(input.(sku := Some(raw)), id, now).Some? == Build(input, id, now).Some?
  {
  }

  /** A category reference that does not cast to an ObjectId fails creation, whatever else the input holds. */
  lemma MalformedCategoryRefused(input: ProductInput, id: ProductId, now: int, k: nat)
    requires k < |input.categoryIds| && !IsObjectIdString(input.categoryIds[k])
    ensures Build(input, id, now).None?
  {
  }
}

=== FILE: register.dfy ===
/**
 * app/api/auth/register/route.ts: self-registration. The duplicate check
 * looks up the lower-cased email, the stored email is lower-cased and
 * trimmed, and the role is always `customer`. Password hashing is a
 * parameter; the user model's own validators (models/User.ts) are not
 * part of this model, so a user document is taken to be accepted.
 */
module Registration {
  import opened Wrappers
  import opened Text
  import opened Types
  import opened AuditLogSchema
  import Audit

  /** A stored user. */
  datatype User = User(id: string, name: string, email: string, passwordHash: string, role: Role,
                       phone: Option<string>, createdAt: int)

  /** The user as the response shows it: everything but the password hash. */
  datatype PublicUser = PublicUser(id: string, name: string, email: string, role: Role, phone: Option<string>, createdAt: int)

  datatype RegisterRequest = RegisterRequest(name: Option<string>, email: Option<string>, password: Option<string>,
                                             phone: Option<string>)

  datatype RegisterResponse = MissingFields | PasswordTooShort | EmailTaken | Registered(user: PublicUser)
  {
    function Status(): int {
      match this
      case MissingFields => 400
      case PasswordTooShort => 400
      case EmailTaken => 409
      case Registered(_) => 201
    }
  }

  const MinPasswordLength := 6

  function Public(u: User): PublicUser {
    PublicUser(u.id, u.name, u.email, u.role, u.phone, u.createdAt)
  }

  /** Some stored user has exactly this email. */
  predicate EmailTaken?(users: seq<User>, email: string) {
    exists k :: 0 <= k < |users| && users[k].email == email
  }

  function RegisterAudit(u: User, ip: string, userAgent: Option<string>): Audit.AuditLogData {
    Audit.AuditLogData(u.id, u.name, "auth.register", UserTarget, u.id, None, None, ip, userAgent)
  }

  /**
   * Registration with the new user's id, the hash function and the clock
   * given. Missing name, email or password is 400, a password under six
   * UTF-16 code units is 400, an existing user under the lower-cased email is
   * 409; otherwise the user is appended with the trimmed name, the
   * lower-cased and trimmed email, the hashed password and role `customer`,
   * and an audit entry may be added.
   */
  function Register(users: seq<User>, audit: seq<AuditEntry>, req: RegisterRequest, hash: string -> string,
                    id: string, now: int, ip: string, userAgent: Option<string>): (r: (RegisterResponse, seq<User>, seq<AuditEntry>))
    ensures r.0 == MissingFields <==> !(Truthy(req.name) && Truthy(req.email) && Truthy(req.password))
    ensures r.0 == PasswordTooShort <==>
      Truthy(req.name) && Truthy(req.email) && Truthy(req.password) && Utf16Length(req.password.value) < MinPasswordLength
    ensures r.0 == EmailTaken <==>
      && Truthy(req.name) && Truthy(req.email) && Truthy(req.password) && Utf16Length(req.password.value) >= MinPasswordLength
      && EmailTaken?(users, Lower(req.email.value))
    ensures !r.0.Registered? ==> r.1 == users && r.2 == audit
    ensures r.0.Registered? ==>
      && |r.1| == |users| + 1 && r.1[..|users|] == users
      && var u := r.1[|users|];
      && u.id == id && u.role == Role.Customer
      && u.name == Trim(req.name.value)
      && u.email == Trim(Lower(req.email.value))
      && u.passwordHash == hash(req.password.value)
      && (u.phone.Some? <==> req.phone.Some?)
      && (req.phone.Some? ==> u.phone.value == Trim(req.phone.value))
      && r.0.user == Public(u)
      && (r.2 == audit || r.2 == audit + [Audit.Entry(RegisterAudit(u, ip, userAgent), now)])
  {
    if !(Truthy(req.name) && Truthy(req.email) && Truthy(req.password)) then (MissingFields, users, audit)
    else if Utf16Length(req.password.value) < MinPasswordLength then (PasswordTooShort, users, audit)
    else if EmailTaken?(users, Lower(req.email.value)) then (EmailTaken, users, audit)
    else
      var u := User(id, Trim(req.name.value), Trim(Lower(req.email.value)), hash(req.password.value), Role.Customer,
                    if req.phone.Some? then Some(Trim(req.phone.value)) else None, now);
      (Registered(Public(u)), users + [u], Audit.CreateAuditLog(audit, RegisterAudit(u, ip, userAgent), now))
  }

  /** The response never carries the password hash: two users differing only in their hash look the same. */
  lemma ResponseHidesHash(u: User, h: string)
    ensures Public(u.(passwordHash := h)) == Public(u)
  {
  }

  /** Exactly six code units is long enough; five is not. */
  lemma PasswordBoundary(users: seq<User>, audit: seq<AuditEntry>, req: RegisterRequest, hash: string -> string,
                         id: string, now: int, ip: string, userAgent: Option<string>)
    requires Truthy(req.name) && Truthy(req.email) && req.password.Some?
    ensures Utf16Length(req.password.value) == 6 ==> Register(users, audit, req, hash, id, now, ip, userAgent).0 != PasswordTooShort
    ensures Utf16Length(req.password.value) == 5 ==> Register(users, audit, req, hash, id, now, ip, userAgent).0 == PasswordTooShort
  {
  }

  /**
   * Length is counted in UTF-16 code units: five characters of which one
   * lies outside the Basic Multilingual Plane (an emoji, say) make six
   * units and pass the length check.
   */
  lemma {:induction false} AstralPasswordLongEnough(users: seq<User>, audit: seq<AuditEntry>, req: RegisterRequest,
                                                   hash: string -> string, id: string, now: int, ip: string,
                                                   userAgent: Option<string>)
    requires Truthy(req.name) && Truthy(req.email) && req.password.Some?
    requires |req.password.value| == 5 && req.password.value[0] as int >= 0x10000
    ensures Register(users, audit, req, hash, id, now, ip, userAgent).0 != PasswordTooShort
  {
    var pw := req.password.value;
    assert Utf16Length(pw) == 2 + Utf16Length(pw[1..]);
  }

  /**
   * A registered email is stored in the form the duplicate check looks up,
   * so registering the stored address again is a 409.
   */
  lemma RegisterThenDuplicate(users: seq<User>, audit: seq<AuditEntry>, req: RegisterRequest, hash: string -> string,
                              id: string, now: int, ip: string, userAgent: Option<string>, again: RegisterRequest,
                              id2: string, now2: int)
    requires Register(users, audit, req, hash, id, now, ip, userAgent).0.Registered?
    requires Truthy(again.name) && Truthy(again.password) && Utf16Length(again.password.value) >= MinPasswordLength
    requires again.email == Some(Register(users, audit, req, hash, id, now, ip, userAgent).1[|users|].email)
    requires |again.email.value| > 0
    ensures var r := Register(users, audit, req, hash, id, now, ip, userAgent);
      Register(r.1, r.2, again, hash, id2, now2, ip, userAgent).0 == EmailTaken
  {
    var r := Register(users, audit, req, hash, id, now, ip, userAgent);
    var stored := r.1[|users|].email;
    StoredEmailIsLowerCase(req.email.value);
    assert Lower(again.email.value) == stored;
    assert EmailTaken?(r.1, Lower(again.email.value)) by {
      assert r.1[|users|].email == Lower(again.email.value);
    }
  }

  /** The stored form of an email is its own lower-case form. */
  lemma StoredEmailIsLowerCase(email: string)
    ensures Lower(Trim(Lower(email))) == Trim(Lower(email))
  {
    var l := Lower(email);
    TrimLowerCommute(l);
    LowerIdempotent(email);
    assert Lower(l) == l;
  }

  /** Whatever the request says, a registered user is a customer. */
  lemma RoleAlwaysCustomer(users: seq<User>, audit: seq<AuditEntry>, req: RegisterRequest, hash: string -> string,
                           id: string, now: int, ip: string, userAgent: Option<string>)
    ensures var r := Register(users, audit, req, hash, id, now, ip, userAgent);
      r.0.Registered? ==> r.0.user.role == Role.Customer && RoleName(r.0.user.role) == "customer"
  {
  }
}

=== FILE: scenarios.dfy ===
/**
 * Worked examples of the order lifecycle, stated as lemmas over fixed
 * inputs, on the seeded catalog item
 * `LED-A19-9W` (7.99, stock 120).
 */
module Scenarios {
  import opened Wrappers
  import opened Types
  import opened ProductSchema
  import opened OrderSchema
  import opened Inventory
  import opened Text
  import opened CreateIntent
  import opened Webhook
  import Lifecycle

  /** The bulb's id and the id of its category ("Iluminación"), as 24-digit hexadecimal ObjectIds. */
  const BulbId := "64b7f0c2a1b2c3d4e5f60720"
  const LightingId := "64b7f0c2a1b2c3d4e5f60702"

  const Bulb := Product(BulbId, "LED-A19-9W", "Bombilla LED A19 9W",
                        "Bombilla LED A19 de 9W, equivalente a 60W incandescente, luz blanca cálida.",
                        799, Some(999), 120, [LightingId], false, true, true, Some("Philips"), None, None, 0)
  const Shop := Store([], map[BulbId := Bulb], [])
  const Buyer := JWTPayload("64b7f0c2a1b2c3d4e5f60718", "ana@example.com", "customer", 0, 3600)
  const Info := Some(CustomerInfo(Some("Ana"), Some("ana@example.com"), Some("555-0100")))
  const Env := CheckoutEnv(Some(PaymentIntent("pi_1", "pi_1_secret")), "o1", "A1B2C3", 10)

  /** The fixed ids all cast to ObjectIds. */
  lemma IdsCast()
    ensures IsObjectIdString(BulbId) && IsObjectIdString(LightingId) && IsObjectIdString(Buyer.userId)
  {
  }

  function Cart(quantity: int): CheckoutRequest {
    CheckoutRequest(ItemsArray([CartLine(BulbId, quantity)]), Info)
  }

  /** A one-line cart the catalog can serve prices to the single snapshot of its product. */
  lemma PriceOne(catalog: Catalog, line: CartLine)
    requires LineOk(catalog, line)
    ensures PriceLines(catalog, [line]) == Success([Snapshot(catalog[line.productId], line.quantity)])
  {
    var r := PriceLines(catalog, [line]);
    assert r.Success? && |r.value| == 1;
    assert r.value == [Snapshot(catalog[line.productId], line.quantity)];
  }

  /** The first order, for a positive quantity of the bulb, passes the schema and is stored alone. */
  lemma FirstOrderStored(shop: Store, quantity: int)
    requires shop.orders == [] && quantity >= 1
    ensures var o := NewOrder(shop, Buyer, [LineItem(BulbId, Bulb.name, 799, quantity, Bulb.sku)], Info.value, Env.intent.value, Env);
      && o.orderNumber == "ME000001"
      && o.subtotal == 799 * quantity
      && Insert(shop.orders, o) == Some([o])
      && FindByIntent([o], "pi_1") == Some(0)
  {
    var item := LineItem(BulbId, Bulb.name, 799, quantity, Bulb.sku);
    assert Subtotal([item]) == 799 * quantity;
    OrderNumberExamples();
    var o := NewOrder(shop, Buyer, [item], Info.value, Env.intent.value, Env);
    IdsCast();
    assert ValidItem(item);
    assert OrderSchema.Valid(o);
    assert shop.orders + [o] == [o];
  }

  /** With no orders stored, a servable one-line cart of the bulb becomes order `ME000001` holding one snapshot line. */
  lemma OneLineCheckout(shop: Store, quantity: int)
    requires shop.orders == [] && BulbId in shop.products
    requires shop.products[BulbId] == Bulb.(stock := shop.products[BulbId].stock)
    requires 1 <= quantity <= shop.products[BulbId].stock
    ensures var c := Checkout(shop, Cart(quantity), Buyer, Env);
      && c.response.Created?
      && c.response.orderNumber == "ME000001"
      && |c.store.orders| == 1
      && c.store.orders[0].items == [LineItem(BulbId, Bulb.name, 799, quantity, Bulb.sku)]
      && c.store.orders[0].payment.intentId == "pi_1"
      && c.store.orders[0].subtotal == 799 * quantity
      && c.store.products == shop.products
      && c.intentAmount == Some(799 * quantity)
      && FindByIntent(c.store.orders, "pi_1") == Some(0)
  {
    PriceOne(shop.products, CartLine(BulbId, quantity));
    FirstOrderStored(shop, quantity);
  }

  /**
   * Three bulbs: a `Pending` order of 23.97 with no stock change; payment
   * success takes stock to 117; the refund brings it back to 120.
   */
  lemma ThreeBulbsPaidThenRefunded()
    ensures var c := Checkout(Shop, Cart(3), Buyer, Env);
      && c.response.Created?
      && c.response.orderNumber == "ME000001"
      && c.intentAmount == Some(2397)
      && c.store.orders[0].subtotal == 2397 && c.store.orders[0].tax == 0 && c.store.orders[0].total == 2397
      && c.store.orders[0].status == Pending
      && c.store.products[BulbId].stock == 120
      && var paid := Post(c.store, Some(PaymentSucceeded("pi_1")), true, NoFault, 20).1;
      && paid.orders[0].status == Paid
      && paid.products[BulbId].stock == 117
      && var refunded := Post(paid, Some(ChargeRefunded("ch_1", Some("pi_1"))), true, NoFault, 30).1;
      && refunded.orders[0].status == Refunded
      && refunded.products[BulbId].stock == 120
  {
    var c := Checkout(Shop, Cart(3), Buyer, Env);
    OneLineCheckout(Shop, 3);
    var paid := Post(c.store, Some(PaymentSucceeded("pi_1")), true, NoFault, 20).1;
    Lifecycle.SucceededEffect(c.store, "pi_1", 20);
    assert QuantityOf(c.store.orders[0].items, BulbId) == 3;
    Lifecycle.RefundEffect(paid, "ch_1", "pi_1", 30);
  }

  /** Five bulbs against a stock of three is refused before any payment call, and nothing is stored. */
  lemma InsufficientStockRejected()
    ensures var shop := Shop.(products := map[BulbId := Bulb.(stock := 3)]);
      var c := Checkout(shop, Cart(5), Buyer, Env);
      && c.response == InsufficientStock(Bulb.name)
      && c.response.Status() == 400
      && c.store == shop
      && c.intentAmount.None?
  {
  }

  /** Exactly the remaining stock may be bought. */
  lemma EqualStockAccepted()
    ensures Checkout(Shop.(products := map[BulbId := Bulb.(stock := 3)]), Cart(3), Buyer, Env).response.Created?
  {
    OneLineCheckout(Shop.(products := map[BulbId := Bulb.(stock := 3)]), 3);
  }

  /**
   * A zero quantity passes the handler's validation and reaches the payment
   * call with amount 0. Given an intent (the provider's answer is a
   * parameter here, whatever the amount), the order schema then refuses it.
   */
  lemma ZeroQuantityReachesPayment()
    ensures var c := Checkout(Shop, Cart(0), Buyer, Env);
      && c.intentAmount == Some(0)
      && c.response == CheckoutFailed
      && c.store == Shop
  {
    var item := LineItem(BulbId, Bulb.name, 799, 0, Bulb.sku);
    PriceOne(Shop.products, CartLine(BulbId, 0));
    assert Subtotal([item]) == 0;
    assert !ValidItem(item);
  }

  /** A replayed success on the last bulb in stock drives stock below zero. */
  lemma ReplayDrivesStockNegative()
    ensures var shop := Shop.(products := map[BulbId := Bulb.(stock := 1)]);
      var c := Checkout(shop, Cart(1), Buyer, Env);
      && c.response.Created?
      && var once := Post(c.store, Some(PaymentSucceeded("pi_1")), true, NoFault, 20).1;
      && var twice := Post(once, Some(PaymentSucceeded("pi_1")), true, NoFault, 21).1;
      && once.products[BulbId].stock == 0
      && twice.products[BulbId].stock == -1
  {
    var shop := Shop.(products := map[BulbId := Bulb.(stock := 1)]);
    var c := Checkout(shop, Cart(1), Buyer, Env);
    OneLineCheckout(shop, 1);
    assert QuantityOf(c.store.orders[0].items, BulbId) == 1;
    Lifecycle.ReplayedSuccessDecrementsAgain(c.store, "pi_1", 20, 21);
    Lifecycle.SucceededEffect(c.store, "pi_1", 20);
  }
}

=== FILE: text.dfy ===
/**
 * String helpers with the JavaScript meaning the handlers rely on:
 * `startsWith`, `substring`, `trim`, `toUpperCase`, `toLowerCase`,
 * decimal rendering and `padStart`.
 */
module Text {
  import opened Wrappers

  /** An optional string JavaScript treats as true: present and non-empty. */
  predicate Truthy(v: Option<string>) {
    v.Some? && |v.value| > 0
  }

  /** The characters `String.prototype.trim` removes: ECMAScript WhiteSpace and LineTerminator. */
  predicate IsSpace(c: char) {
    || c == ' ' || c == '\t' || c == '\n' || c == '\r'
    || c == '\U{000B}' || c == '\U{000C}' || c == '\U{00A0}' || c == '\U{1680}'
    || ('\U{2000}' <= c <= '\U{200A}')
    || c == '\U{2028}' || c == '\U{2029}' || c == '\U{202F}' || c == '\U{205F}'
    || c == '\U{3000}' || c == '\U{FEFF}'
  }

  predicate AllSpace(s: string) {
    forall k :: 0 <= k < |s| ==> IsSpace(s[k])
  }

  predicate StartsWith(s: string, prefix: string) {
    |prefix| <= |s| && s[..|prefix|] == prefix
  }

  /** Number of leading whitespace characters. */
  function LeadingSpace(s: string): (n: nat)
    ensures n <= |s|
    ensures AllSpace(s[..n])
    ensures n < |s| ==> !IsSpace(s[n])
  {
    if |s| > 0 && IsSpace(s[0]) then
      var m := LeadingSpace(s[1..]);
      assert s[1..][..m] == s[1..m + 1];
      1 + m
    else 0
  }

  /** Number of trailing whitespace characters. */
  function TrailingSpace(s: string): (n: nat)
    ensures n <= |s|
    ensures AllSpace(s[|s| - n..])
    ensures n < |s| ==> !IsSpace(s[|s| - n - 1])
  {
    if |s| > 0 && IsSpace(s[|s| - 1]) then
      var m := TrailingSpace(s[..|s| - 1]);
      assert s[..|s| - 1][|s| - 1 - m..] == s[|s| - 1 - m..|s| - 1];
      1 + m
    else 0
  }

  /** `s.trim()`: the longest infix without surrounding whitespace. */
  function Trim(s: string): (r: string)
    ensures |r| <= |s|
    ensures |r| > 0 ==> !IsSpace(r[0]) && !IsSpace(r[|r| - 1])
  {
    var lead := LeadingSpace(s);
    var rest := s[lead..];
    rest[..|rest| - TrailingSpace(rest)]
  }

  /** No whitespace at either end: what `trim` leaves. */
  predicate IsTrimmed(s: string) {
    |s| > 0 ==> !IsSpace(s[0]) && !IsSpace(s[|s| - 1])
  }

  /** Trimming a trimmed, non-empty string padded on the left by one space gives the string back. */
  lemma TrimLeftPadding(c: char, s: string)
    requires IsSpace(c) && |s| > 0 && !IsSpace(s[0]) && !IsSpace(s[|s| - 1])
    ensures Trim([c] + s) == s
  {
    var t := [c] + s;
    assert t[1..] == s;
    assert LeadingSpace(s) == 0;
    assert LeadingSpace(t) == 1;
    assert TrailingSpace(s) == 0;
  }

  /** What `trim` removes is whitespace on either side, and nothing else. */
  lemma TrimIsInfix(s: string) returns (i: nat)
    ensures i + |Trim(s)| <= |s|
    ensures s[i..i + |Trim(s)|] == Trim(s)
    ensures AllSpace(s[..i]) && AllSpace(s[i + |Trim(s)|..])
  {
    i := LeadingSpace(s);
    var rest := s[i..];
    var n := |rest| - TrailingSpace(rest);
    assert Trim(s) == rest[..n];
    assert s[i..i + n] == rest[..n];
    assert s[i + n..] == rest[n..];
  }

  /** A string without surrounding whitespace is its own trim. */
  lemma TrimOfTrimmed(r: string)
    requires |r| > 0 ==> !IsSpace(r[0]) && !IsSpace(r[|r| - 1])
    ensures Trim(r) == r
  {
    assert LeadingSpace(r) == 0;
    assert r[0..] == r;
    assert TrailingSpace(r) == 0;
  }

  lemma TrimIdempotent(s: string)
    ensures Trim(Trim(s)) == Trim(s)
  {
    TrimOfTrimmed(Trim(s));
  }

  function UpperChar(c: char): char {
    if 'a' <= c <= 'z' then (c as int - 32) as char else c
  }

  function LowerChar(c: char): char {
    if 'A' <= c <= 'Z' then (c as int + 32) as char else c
  }

  /** `s.toUpperCase()` on ASCII letters. */
  function Upper(s: string): (r: string)
    ensures |r| == |s|
    ensures forall k :: 0 <= k < |s| ==> r[k] == UpperChar(s[k])
  {
    seq(|s|, k requires 0 <= k < |s| => UpperChar(s[k]))
  }

  /** `s.toLowerCase()` on ASCII letters. */
  function Lower(s: string): (r: string)
    ensures |r| == |s|
    ensures forall k :: 0 <= k < |s| ==> r[k] == LowerChar(s[k])
  {
    seq(|s|, k requires 0 <= k < |s| => LowerChar(s[k]))
  }

  predicate NoLowerCase(s: string) {
    forall k :: 0 <= k < |s| ==> !('a' <= s[k] <= 'z')
  }

  lemma UpperHasNoLowerCase(s: string)
    ensures NoLowerCase(Upper(s))
    ensures Upper(Upper(s)) == Upper(s)
  {
  }

  lemma LowerIdempotent(s: string)
    ensures Lower(Lower(s)) == Lower(s)
  {
  }

  /** Case mapping never turns a whitespace character into a non-whitespace one, or back. */
  lemma CaseKeepsSpace(c: char)
    ensures IsSpace(UpperChar(c)) == IsSpace(c)
    ensures IsSpace(LowerChar(c)) == IsSpace(c)
  {
  }

  /** Trimming and case mapping commute, so the order of the schema setters does not matter. */
  lemma {:induction false} TrimUpperCommute(s: string)
    ensures Upper(Trim(s)) == Trim(Upper(s))
  {
    var lead := LeadingSpace(s);
    var rest := s[lead..];
    var trail := TrailingSpace(rest);
    LeadingSpaceUpper(s);
    UpperDrop(s, lead);
    TrailingSpaceUpper(rest);
    UpperTake(rest, |rest| - trail);
    assert Trim(Upper(s)) == Upper(rest)[..|rest| - trail];
  }

  lemma UpperDrop(s: string, i: nat)
    requires i <= |s|
    ensures Upper(s)[i..] == Upper(s[i..])
  {
  }

  lemma UpperTake(s: string, j: nat)
    requires j <= |s|
    ensures Upper(s)[..j] == Upper(s[..j])
  {
  }

  lemma {:induction false} LeadingSpaceUpper(s: string)
    ensures LeadingSpace(Upper(s)) == LeadingSpace(s)
    decreases |s|
  {
    if |s| > 0 {
      CaseKeepsSpace(s[0]);
      assert Upper(s)[0] == UpperChar(s[0]);
      if IsSpace(s[0]) {
        UpperDrop(s, 1);
        LeadingSpaceUpper(s[1..]);
      }
    }
  }

  lemma {:induction false} TrailingSpaceUpper(s: string)
    ensures TrailingSpace(Upper(s)) == TrailingSpace(s)
    decreases |s|
  {
    if |s| > 0 {
      CaseKeepsSpace(s[|s| - 1]);
      assert Upper(s)[|s| - 1] == UpperChar(s[|s| - 1]);
      if IsSpace(s[|s| - 1]) {
        UpperTake(s, |s| - 1);
        TrailingSpaceUpper(s[..|s| - 1]);
      }
    }
  }

  lemma {:induction false} TrimLowerCommute(s: string)
    ensures Lower(Trim(s)) == Trim(Lower(s))
  {
    var lead := LeadingSpace(s);
    var rest := s[lead..];
    var trail := TrailingSpace(rest);
    LeadingSpaceLower(s);
    LowerDrop(s, lead);
    TrailingSpaceLower(rest);
    LowerTake(rest, |rest| - trail);
    assert Trim(Lower(s)) == Lower(rest)[..|rest| - trail];
  }

  lemma LowerDrop(s: string, i: nat)
    requires i <= |s|
    ensures Lower(s)[i..] == Lower(s[i..])
  {
  }

  lemma LowerTake(s: string, j: nat)
    requires j <= |s|
    ensures Lower(s)[..j] == Lower(s[..j])
  {
  }

  lemma {:induction false} LeadingSpaceLower(s: string)
    ensures LeadingSpace(Lower(s)) == LeadingSpace(s)
    decreases |s|
  {
    if |s| > 0 {
      CaseKeepsSpace(s[0]);
      assert Lower(s)[0] == LowerChar(s[0]);
      if IsSpace(s[0]) {
        LowerDrop(s, 1);
        LeadingSpaceLower(s[1..]);
      }
    }
  }

  lemma {:induction false} TrailingSpaceLower(s: string)
    ensures TrailingSpace(Lower(s)) == TrailingSpace(s)
    decreases |s|
  {
    if |s| > 0 {
      CaseKeepsSpace(s[|s| - 1]);
      assert Lower(s)[|s| - 1] == LowerChar(s[|s| - 1]);
      if IsSpace(s[|s| - 1]) {
        LowerTake(s, |s| - 1);
        TrailingSpaceLower(s[..|s| - 1]);
      }
    }
  }

  // ---------------------------------------------------------------------
  // Decimal rendering and zero padding
  // ---------------------------------------------------------------------

  predicate IsDigit(c: char) { '0' <= c <= '9' }

  function DigitChar(d: nat): (c: char)
    requires d < 10
    ensures IsDigit(c)
  {
    ('0' as int + d) as char
  }

  function DigitValue(c: char): nat
    requires IsDigit(c)
  {
    c as int - '0' as int
  }

  /** `String(n)` for a non-negative integer: decimal digits, no leading zero. */
  function Decimal(n: nat): (r: string)
    ensures |r| >= 1
    ensures forall k :: 0 <= k < |r| ==> IsDigit(r[k])
    ensures n >= 10 ==> r[0] != '0'
  {
    if n < 10 then [DigitChar(n)] else Decimal(n / 10) + [DigitChar(n % 10)]
  }

  predicate AllDigits(s: string) {
    forall k :: 0 <= k < |s| ==> IsDigit(s[k])
  }

  /** The number a string of decimal digits denotes (leading zeros allowed). */
  function DigitsValue(s: string): nat
    requires AllDigits(s)
  {
    if s == [] then 0 else DigitsValue(s[..|s| - 1]) * 10 + DigitValue(s[|s| - 1])
  }

  /** Reading back a rendered number gives the number. */
  lemma {:induction false} DecimalRoundTrip(n: nat)
    ensures DigitsValue(Decimal(n)) == n
  {
    if n >= 10 {
      var d := Decimal(n);
      assert d[..|d| - 1] == Decimal(n / 10);
      DecimalRoundTrip(n / 10);
    }
  }

  /** A positive number has more than `k` digits exactly when it is at least 10^k. */
  lemma {:induction false} DecimalLength(n: nat, k: nat)
    requires n >= 1
    ensures |Decimal(n)| > k <==> n >= Pow10(k)
  {
    if k > 0 {
      Pow10AtLeastTen(k);
      if n >= 10 {
        DecimalLength(n / 10, k - 1);
        assert n / 10 >= Pow10(k - 1) <==> n >= 10 * Pow10(k - 1);
      }
    }
  }

  lemma {:induction false} Pow10AtLeastTen(k: nat)
    requires k >= 1
    ensures Pow10(k) >= 10
  {
  }

  function Pow10(k: nat): (p: nat)
    ensures p >= 1
  {
    if k == 0 then 1 else 10 * Pow10(k - 1)
  }

  function Repeat(c: char, n: nat): (r: string)
    ensures |r| == n
    ensures forall k :: 0 <= k < n ==> r[k] == c
  {
    seq(n, _ => c)
  }

  /** `s.padStart(width, fill)`: left-pads up to `width`, never truncates. */
  function PadStart(s: string, width: nat, fill: char): (r: string)
    ensures |r| == if |s| >= width then |s| else width
    ensures r[|r| - |s|..] == s
    ensures forall k :: 0 <= k < |r| - |s| ==> r[k] == fill
  {
    if |s| >= width then s else Repeat(fill, width - |s|) + s
  }

  /** Leading zeros do not change the value of a digit string. */
  lemma {:induction false} ZerosPrefixValue(z: string, s: string)
    requires forall k :: 0 <= k < |z| ==> z[k] == '0'
    requires AllDigits(s)
    ensures AllDigits(z + s)
    ensures DigitsValue(z + s) == DigitsValue(s)
    decreases |s|
  {
    assert AllDigits(z + s);
    if s == [] {
      assert z + s == z;
      AllZerosValue(z);
    } else {
      assert (z + s)[..|z + s| - 1] == z + s[..|s| - 1];
      ZerosPrefixValue(z, s[..|s| - 1]);
    }
  }

  lemma {:induction false} AllZerosValue(z: string)
    requires forall k :: 0 <= k < |z| ==> z[k] == '0'
    ensures AllDigits(z) && DigitsValue(z) == 0
    decreases |z|
  {
    if z != [] {
      AllZerosValue(z[..|z| - 1]);
    }
  }

  /** Zero-padding a rendered number and reading it back gives the number. */
  lemma PaddedDecimalRoundTrip(n: nat, width: nat)
    ensures AllDigits(PadStart(Decimal(n), width, '0'))
    ensures DigitsValue(PadStart(Decimal(n), width, '0')) == n
  {
    var d := Decimal(n);
    var p := PadStart(d, width, '0');
    var z := p[..|p| - |d|];
    assert p == z + d;
    ZerosPrefixValue(z, d);
    DecimalRoundTrip(n);
  }

  // ---------------------------------------------------------------------
  // Object ids
  // ---------------------------------------------------------------------

  predicate IsHexChar(c: char) {
    ('0' <= c <= '9') || ('a' <= c <= 'f') || ('A' <= c <= 'F')
  }

  /**
   * A string the document store can cast to an ObjectId: 24 hexadecimal
   * characters, or any 12-character string taken as raw bytes.
   */
  predicate IsObjectIdString(s: string) {
    (|s| == 24 && forall k :: 0 <= k < |s| ==> IsHexChar(s[k])) || |s| == 12
  }

  /** Every entry of an id array casts. */
  predicate AllObjectIdStrings(ids: seq<string>) {
    forall k :: 0 <= k < |ids| ==> IsObjectIdString(ids[k])
  }

  // ---------------------------------------------------------------------
  // Lengths as JavaScript counts them
  // ---------------------------------------------------------------------

  /** A character outside the Basic Multilingual Plane is a surrogate pair in UTF-16. */
  function CodeUnits(c: char): nat {
    if c as int >= 0x10000 then 2 else 1
  }

  /**
   * `s.length`, and the length schema `maxlength` validators measure: the
   * number of UTF-16 code units, which counts each character outside the
   * Basic Multilingual Plane twice.
   */
  function Utf16Length(s: string): (n: nat)
    ensures |s| <= n <= 2 * |s|
    ensures n == 0 <==> s == []
  {
    if s == [] then 0 else CodeUnits(s[0]) + Utf16Length(s[1..])
  }

  /** Code units add up over concatenation. */
  lemma {:induction false} Utf16LengthAppend(a: string, b: string)
    ensures Utf16Length(a + b) == Utf16Length(a) + Utf16Length(b)
  {
    if a == [] {
      assert a + b == b;
    } else {
      assert (a + b)[1..] == a[1..] + b;
      Utf16LengthAppend(a[1..], b);
    }
  }

  /** On text without astral characters the code-unit length is the character count. */
  lemma {:induction false} Utf16LengthOfBmp(s: string)
    requires forall k :: 0 <= k < |s| ==> s[k] as int < 0x10000
    ensures Utf16Length(s) == |s|
  {
    if s != [] {
      Utf16LengthOfBmp(s[1..]);
    }
  }
}

=== FILE: types.dfy ===
/**
 * The shared record types of types/index.ts: user roles, the order-status
 * enumeration, the payment provider, audit target types and the access-token
 * payload. Each enumeration has its wire spelling and a parser for it.
 */
module Types {
  import opened Wrappers

  datatype Role = Customer | Employee | Admin

  function RoleName(r: Role): string {
    match r
    case Customer => "customer"
    case Employee => "employee"
    case Admin => "admin"
  }

  function ParseRole(s: string): (r: Option<Role>)
    ensures r.Some? ==> RoleName(r.value) == s
    ensures r.None? ==> forall x: Role :: RoleName(x) != s
  {
    if s == "customer" then Some(Customer)
    else if s == "employee" then Some(Employee)
    else if s == "admin" then Some(Admin)
    else None
  }

  /** The seven order states. */
  datatype OrderStatus = Pending | Paid | Preparing | Ready | PickedUp | Refunded | Cancelled

  function StatusName(s: OrderStatus): string {
    match s
    case Pending => "Pending"
    case Paid => "Paid"
    case Preparing => "Preparing"
    case Ready => "Ready"
    case PickedUp => "PickedUp"
    case Refunded => "Refunded"
    case Cancelled => "Cancelled"
  }

  function ParseStatus(s: string): (r: Option<OrderStatus>)
    ensures r.Some? ==> StatusName(r.value) == s
    ensures r.None? ==> forall x: OrderStatus :: StatusName(x) != s
  {
    if s == "Pending" then Some(Pending)
    else if s == "Paid" then Some(Paid)
    else if s == "Preparing" then Some(Preparing)
    else if s == "Ready" then Some(Ready)
    else if s == "PickedUp" then Some(PickedUp)
    else if s == "Refunded" then Some(Refunded)
    else if s == "Cancelled" then Some(Cancelled)
    else None
  }

  /** The only payment provider, spelled `stripe`. */
  datatype Provider = Stripe

  function ProviderName(p: Provider): string {
    "stripe"
  }

  /** What an audit entry is about. */
  datatype TargetType = ProductTarget | OrderTarget | UserTarget | InventoryTarget | SystemTarget

  function TargetTypeName(t: TargetType): string {
    match t
    case ProductTarget => "product"
    case OrderTarget => "order"
    case UserTarget => "user"
    case InventoryTarget => "inventory"
    case SystemTarget => "system"
  }

  function ParseTargetType(s: string): (r: Option<TargetType>)
    ensures r.Some? ==> TargetTypeName(r.value) == s
    ensures r.None? ==> forall x: TargetType :: TargetTypeName(x) != s
  {
    if s == "product" then Some(ProductTarget)
    else if s == "order" then Some(OrderTarget)
    else if s == "user" then Some(UserTarget)
    else if s == "inventory" then Some(InventoryTarget)
    else if s == "system" then Some(SystemTarget)
    else None
  }

  /** The decoded access token; the role is a plain string, not a `Role`. */
  datatype JWTPayload = JWTPayload(userId: string, email: string, role: string, iat: int, exp: int)

  /** Each enumeration's spellings are distinct and parse back to their value. */
  lemma EnumRoundTrips(r: Role, s: OrderStatus, t: TargetType)
    ensures ParseRole(RoleName(r)) == Some(r)
    ensures ParseStatus(StatusName(s)) == Some(s)
    ensures ParseTargetType(TargetTypeName(t)) == Some(t)
  {
  }

  /** The enumerations have exactly the listed members and spellings. */
  lemma EnumSpellings(x: string)
    ensures ParseRole(x).Some? <==> x in {"customer", "employee", "admin"}
    ensures ParseStatus(x).Some? <==>
      x in {"Pending", "Paid", "Preparing", "Ready", "PickedUp", "Refunded", "Cancelled"}
    ensures ParseTargetType(x).Some? <==> x in {"product", "order", "user", "inventory", "system"}
  {
  }
}

=== FILE: webhook.dfy ===
/**
 * app/api/stripe/webhook/route.ts: the payment provider's notifications
 * drive orders to `Paid` (stock decremented), mark failed payments, and
 * drive orders to `Refunded` (stock restored). No handler looks at the
 * order's current status.
 */
module Webhook {
  import opened Wrappers
  import opened Types
  import opened OrderSchema
  import opened AuditLogSchema
  import opened Inventory
  import Audit

  /** A notification that passed signature verification. */
  datatype Event =
    | PaymentSucceeded(intentId: string)
    | PaymentFailed(intentId: string)
    | ChargeRefunded(chargeId: string, paymentIntent: Option<string>)
    | Unhandled(eventType: string)

  /**
   * Where, if anywhere, a handler's processing throws: the order lookup,
   * the order save, or the `$inc` of the line item at `index`.
   */
  datatype Fault = NoFault | LookupFails | SaveFails | StockUpdateFails(index: nat)

  datatype WebhookResponse = Received | InvalidSignature | HandlerFailed {
    function Status(): int {
      match this
      case Received => 200
      case InvalidSignature => 400
      case HandlerFailed => 500
    }
  }

  const SucceededStatus := "succeeded"
  const FailedStatus := "failed"
  const WebhookActor := "system"
  const WebhookActorName := "Stripe Webhook"
  const WebhookIp := "stripe-webhook"

  /** `Order.findOne({ 'payment.intentId': id })`: the first order carrying the intent id. */
  function FindByIntent(orders: seq<Order>, intentId: string): (r: Option<nat>)
    ensures r.Some? ==> r.value < |orders| && orders[r.value].payment.intentId == intentId
    ensures r.Some? ==> forall j :: 0 <= j < r.value ==> orders[j].payment.intentId != intentId
    ensures r.None? ==> forall j :: 0 <= j < |orders| ==> orders[j].payment.intentId != intentId
  {
    if orders == [] then None
    else if orders[0].payment.intentId == intentId then Some(0)
    else match FindByIntent(orders[1..], intentId)
      case None => None
      case Some(k) => Some(k + 1)
  }

  /** How many stock updates run before the handler stops. */
  function UpdatesRun(fault: Fault, n: nat): (r: nat)
    ensures r <= n
    ensures r < n <==> fault.StockUpdateFails? && fault.index < n
  {
    if fault.StockUpdateFails? && fault.index < n then fault.index else n
  }

  function AuditData(action: string, order: Order, before: Option<Fields>, after: Option<Fields>): Audit.AuditLogData {
    Audit.AuditLogData(WebhookActor, WebhookActorName, action, OrderTarget, order.id, before, after, WebhookIp, None)
  }

  /**
   * The shared shape of the succeeded and refunded handlers: find the
   * order, save it with `updated`'s status fields, `$inc` each item's stock
   * (negated unless restocking), then write an audit entry. A fault stops
   * the handler where it occurs and is swallowed.
   */
  function ApplyTransition(store: Store, idx: Option<nat>, updated: Order -> Order, restock: bool,
                           fault: Fault, audit: Order -> Audit.AuditLogData, now: int): (r: Store)
    requires idx.Some? ==> idx.value < |store.orders|
    ensures idx.None? || fault == LookupFails || fault == SaveFails ==> r == store
    ensures idx.Some? && fault != LookupFails && fault != SaveFails ==>
      var order := store.orders[idx.value];
      var applied := order.items[..UpdatesRun(fault, |order.items|)];
      && r.orders == store.orders[idx.value := updated(order)]
      && r.products == ApplyItems(store.products, applied, restock)
      && (UpdatesRun(fault, |order.items|) < |order.items| ==> r.audit == store.audit)
  {
    if idx.None? || fault == LookupFails || fault == SaveFails then store
    else
      var order := store.orders[idx.value];
      var orders := store.orders[idx.value := updated(order)];
      var n := UpdatesRun(fault, |order.items|);
      var products := ApplyItems(store.products, order.items[..n], restock);
      var log := if n < |order.items| then store.audit else Audit.CreateAuditLog(store.audit, audit(order), now);
      Store(orders, products, log)
  }

  function MarkPaid(o: Order): Order {
    o.(status := Paid, payment := o.payment.(status := SucceededStatus))
  }

  function MarkRefunded(o: Order): Order {
    o.(status := Refunded)
  }

  function MarkFailed(o: Order): Order {
    o.(payment := o.payment.(status := FailedStatus))
  }

  /** `handlePaymentSucceeded`. */
  function HandleSucceeded(store: Store, intentId: string, fault: Fault, now: int): Store {
    ApplyTransition(store, FindByIntent(store.orders, intentId), MarkPaid, false, fault,
      (o: Order) => AuditData("payment.succeeded", o, Some(map["status" := "Pending"]), Some(map["status" := "Paid"])), now)
  }

  /** `handleRefund`: the order is found by the charge's payment intent; a charge without one matches nothing. */
  function HandleRefund(store: Store, paymentIntent: Option<string>, fault: Fault, now: int): Store {
    var idx := if paymentIntent.Some? then FindByIntent(store.orders, paymentIntent.value) else None;
    ApplyTransition(store, idx, MarkRefunded, true, fault,
      (o: Order) => AuditData("payment.refunded", o, None, Some(map["status" := "Refunded"])), now)
  }

  /** `handlePaymentFailed`: only the payment sub-status is saved; stock is untouched. */
  function HandleFailed(store: Store, intentId: string, fault: Fault, now: int): Store {
    match FindByIntent(store.orders, intentId)
    case None => store
    case Some(idx) =>
      if fault == LookupFails || fault == SaveFails then store
      else
        var order := store.orders[idx];
        store.(orders := store.orders[idx := MarkFailed(order)],
               audit := Audit.CreateAuditLog(store.audit, AuditData("payment.failed", order, None, None), now))
  }

  /**
   * The endpoint. `event` is `None` when signature verification fails;
   * `connected` is whether the database connection succeeds. Once an
   * event is verified and the database reached, the answer is always
   * `{ received: true }`, whatever the handler did.
   */
  function Post(store: Store, event: Option<Event>, connected: bool, fault: Fault, now: int): (r: (WebhookResponse, Store))
    ensures event.None? ==> r == (InvalidSignature, store)
    ensures event.Some? && !connected ==> r == (HandlerFailed, store)
    ensures event.Some? && connected ==> r.0 == Received
    ensures |r.1.orders| == |store.orders|
  {
    if event.None? then (InvalidSignature, store)
    else if !connected then (HandlerFailed, store)
    else
      var next := match event.value
        case PaymentSucceeded(id) => HandleSucceeded(store, id, fault, now)
        case PaymentFailed(id) => HandleFailed(store, id, fault, now)
        case ChargeRefunded(_, pi) => HandleRefund(store, pi, fault, now)
        case Unhandled(_) => store;
      (Received, next)
  }
}

=== FILE: wrappers.dfy ===
/** Optional values and success/failure results shared by every module. */
module Wrappers {

  /** A value that may be absent (an omitted JSON field or query parameter). */
  datatype Option<+T> = None | Some(value: T) {
    function GetOr(default: T): T {
      match this
      case Some(v) => v
      case None => default
    }
  }

  /** The outcome of an operation that can fail with an error value. */
  datatype Result<+R, +E> = Success(value: R) | Failure(error: E)
}
